=== FILE: README.md ===
# cs2cpp code-writer core, in Dafny

cs2cpp translates C# assemblies into C++ sources. This project models the part of the
generator that spells C# symbols as C++ text and a few of the nodes built on it:

- `CCodeWriterBase`: the spelling of well-known types, namespaces, type names, type
  suffixes inside mangled names, full type names with template arguments, array
  templates, pointers and type parameters (`TypeWriter`). It also covers the string
  interning behind `GetId` (`Interning`, `Decimal`). For methods it covers mangled names,
  parameter lists, return types, declaration suffixes and `template <…>` declarations of
  types and methods (`MethodWriter`). For expressions it covers receivers in parentheses,
  the access operator and blocks (`ExpressionWriter`).
- `ForEachIteratorStatement`: recovering the initialisation and the `try` statement of a
  lowered `foreach`, and writing it back as one C++ block (`ForEach`).
- `CCodeRuntimeTypeConstructorDeclaration`: the synthesized `void*` constructor of
  runtime types (`RuntimeTypeConstructor`).
- `PointerIndirectionOperator`: parsing and writing a dereference (`PointerIndirection`).
- `System.Char` of the runtime library: case mapping, classification, surrogates, UTF-16
  decoding (section 3.8 of the Unicode Standard, section 2.2 of RFC 2781), parsing
  and hashing (`Chars`).

The writer's output is a sequence of tokens (`Sink.Token`): text spans, block openers
and closers, white space, separators, and markers for nodes whose own `WriteTo` is not
part of this model. Exceptions become `Outcomes.Fault` values in a `Result`. The
interning registry behind `GetId`, one process-wide static table shared by every
writer, is threaded through the writers explicitly. Helpers whose code is not part of this model are the fields of an
`Symbols.Oracle` parameter: `CleanUpName`, `EnsureCompatible`, `GetTypeFullName`,
`GetTypeName` and `IsVirtualGenericMethod`.

Where `Parse` of a `foreach` reaches a `try` statement and more statements follow it,
the source dereferences a null `BoundTryStatement`. The model keeps this as a
`NullReference` fault (`ForEach.RunAfterTry`).

## Model

| member | source | states |
|---|---|---|
| Interning.GetId | Il2Native.Logic/CCodeWriterBase.cs:32-46 | a known string gets its stored id back; a new one gets the next id (one more than the number of strings so far); the registry gains exactly that string, keeps every earlier id, and ids stay positive and unshared |
| Interning.GetIdIdempotent | Il2Native.Logic/CCodeWriterBase.cs:32-46 | asking twice for the same string returns the same id and leaves the registry unchanged |
| Interning.InternAllFirstSeen | Il2Native.Logic/CCodeWriterBase.cs:32-46 | interning a list from an empty registry numbers the distinct strings 1, 2, … in the order they are first seen |
| Interning.IdsFromRegistry | Il2Native.Logic/CCodeWriterBase.cs:32-46 | after interning a list, two entries have the same id exactly when they are the same string (keys compared ordinally) |
| Interning.GetIds | Il2Native.Logic/CCodeWriterBase.cs:32-46 | a loop of `GetId` calls returns first-seen numbers that identify the strings, and ends in the registry of interning them all |
| Decimal.ParseOfNatToString | Il2Native.Logic/CCodeWriterBase.cs:137-142 | the decimal spelling of an id, which a unique type parameter name embeds, reads back as the id |
| Decimal.NatToStringInjective | Il2Native.Logic/CCodeWriterBase.cs:137-142 | different ids are spelled differently |
| TypeWriter.WriteSpecialType | Il2Native.Logic/CCodeWriterBase.cs:393-454 | each well-known type has its fixed C++ spelling; `object*` only for the plain object type of unknown kind; other types are not special |
| TypeWriter.SpecialSpellingsDistinct | Il2Native.Logic/CCodeWriterBase.cs:393-454 | two well-known types spelled alike are the same well-known type |
| TypeWriter.WriteNamespace | Il2Native.Logic/CCodeWriterBase.cs:99-125 | the namespace chain written outermost first, names at even positions, `::` between them |
| TypeWriter.WriteTypeName | Il2Native.Logic/CCodeWriterBase.cs:279-308 | the `object`/`string` keywords when allowed; otherwise a name ending in the type's cleaned name, with `enum_` first only for enum value names |
| TypeWriter.TypeNameIsChain | Il2Native.Logic/CCodeWriterBase.cs:279-308 | away from keywords, a nested type's name is the cleaned names of its containing types and itself, outermost first, joined by `_` |
| TypeWriter.WriteTypeSuffix | Il2Native.Logic/CCodeWriterBase.cs:214-240 | a mangled type suffix: the special spelling when there is one, `Array` after an array's element, `Ptr` after a pointee, a type parameter's cleaned name, and otherwise the named type's name with the `object`/`string` keywords allowed |
| TypeWriter.SuffixOfWrappedNamed | Il2Native.Logic/CCodeWriterBase.cs:214-240 | for a named type that is neither special nor `object`/`string` along its chain, wrapped in any arrays and pointers: the suffix is its containing chain's names joined by `_`, then one `Array` or `Ptr` per layer, innermost first |
| TypeWriter.WriteUniqueNameByContainingType | Il2Native.Logic/CCodeWriterBase.cs:137-142 | a nested type parameter is named by its name followed by the id of its owner's key, and the registry gains that key |
| TypeWriter.UniqueNamesDistinguishOwners | Il2Native.Logic/CCodeWriterBase.cs:137-142 | with names left as they are by the clean-up (the identity `OracleId`), two equally named type parameters of different owners are written differently |
| TypeWriter.EnumerateTemplateArguments | Il2Native.Logic/CCodeWriterBase.cs:729-743 | the type arguments of the containing types come first and the type's own arguments end the sequence |
| TypeWriter.TemplateArgumentCount | Il2Native.Logic/CCodeWriterBase.cs:729-743 | there is one template argument per type argument of every type in the containing chain, without deduplication |
| TypeWriter.WriteType | Il2Native.Logic/CCodeWriterBase.cs:310-391 | the special spelling wins unless the value type is boxed; writing extends the registry; the only failure is `NotImplementedException` |
| TypeWriter.WriteCArrayTemplate | Il2Native.Logic/CCodeWriterBase.cs:826-850 | an array template succeeds exactly when its element type is written, and wraps the element's tokens |
| TypeWriter.ArrayTemplate | Il2Native.Logic/CCodeWriterBase.cs:826-850 | `__array<` up to rank one and `__multi_array<` with the rank otherwise, closed by `>`, with a final `*` exactly for a reference |
| TypeWriter.WriteTypeFullName | Il2Native.Logic/CCodeWriterBase.cs:257-277 | keywords for object and string when allowed; otherwise the namespace chain and `::` when there is a namespace, then the type name, then for a generic type its template definition; a non-generic type never fails and leaves the registry alone |
| TypeWriter.WriteTemplateDefinition | Il2Native.Logic/CCodeWriterBase.cs:709-727 | the joined template arguments between `<` and `>`, failing exactly when they cannot be written |
| TypeWriter.WriteTypesJoined | Il2Native.Logic/CCodeWriterBase.cs:714-724 | no types give no tokens, and one type is written with the default flags |
| TypeWriter.WriteEach | Il2Native.Logic/CCodeWriterBase.cs:714-724 | entry i is type i written with the default flags from the registry entry i-1 left behind |
| TypeWriter.TypesJoinedEntries | Il2Native.Logic/CCodeWriterBase.cs:714-724 | a joined list is the types written one by one and joined by `, `, failing exactly when one of them fails |
| TypeWriter.TemplateDefinitionEntries | Il2Native.Logic/CCodeWriterBase.cs:709-743 | `<`, one entry per type argument of the containing chain, outermost first, joined by `, `, then `>` |
| TypeWriter.FullNameStructure | Il2Native.Logic/CCodeWriterBase.cs:257-308 | away from the keywords, a full name is the namespace chain, `::`, the `_`-joined names of the containing types and, when generic, the written template arguments in angle brackets |
| TypeWriter.WriteTypeFullNameOf | Il2Native.Logic/CCodeWriterBase.cs:242-255 | arrays and pointers give nothing; a type parameter gives its cleaned name |
| TypeWriter.FullNameOfMatchesWriteType | Il2Native.Logic/CCodeWriterBase.cs:242-255 | with the reference suppressed, a class, interface or delegate type and a type parameter of a top-level owner are spelled by this overload exactly as by the structural type writer |
| TypeWriter.ArrayOfSpecialType | Il2Native.Logic/CCodeWriterBase.cs:321-323 | an array of a well-known type of any rank wraps that type's special spelling: `__array<` for rank at most one, `__multi_array<` with `, ` and the rank otherwise, then `*` unless suppressed |
| TypeWriter.ArrayTypeShape | Il2Native.Logic/CCodeWriterBase.cs:321-323 | arrays are written as the array template, referenced unless the reference is suppressed |
| TypeWriter.ClassLikeStar | Il2Native.Logic/CCodeWriterBase.cs:324-333 | classes, interfaces and delegates get a `*` exactly when they are reference types and the reference is not suppressed |
| TypeWriter.StructStar | Il2Native.Logic/CCodeWriterBase.cs:364-371 | a struct gets a `*` exactly when boxed and not suppressed |
| TypeWriter.EnumForms | Il2Native.Logic/CCodeWriterBase.cs:336-350 | an enum is written as its value name unless boxed; boxed, it is the plain name with `*` unless suppressed |
| TypeWriter.FixedAndFailingKinds | Il2Native.Logic/CCodeWriterBase.cs:351-390 | an error type is the unbound generic placeholder; unknown, dynamic, module and submission kinds fail as not implemented |
| TypeWriter.PointerIgnoresFlags | Il2Native.Logic/CCodeWriterBase.cs:359-363 | a pointer is its pointee written with `allowKeywords` passed on and the other flags at their defaults, then `*`, whatever `suppressReference` and `valueTypeAsClass` were: the tokens are the pointee's followed by `*` and the registry is the one the pointee left |
| MethodWriter.ConversionSuffix | Il2Native.Logic/CCodeWriterBase.cs:167-176 | explicit conversions, and implicit ones only when static, get `_` and the return type's suffix; a missing return type is a null dereference |
| MethodWriter.ConversionsToSpecialTypesDiffer | Il2Native.Logic/CCodeWriterBase.cs:167-176 | conversions to two different well-known types get different suffixes |
| MethodWriter.InstanceImplicitIgnoresReturnType | Il2Native.Logic/CCodeWriterBase.cs:172-176 | the name of a non-static `op_Implicit` does not depend on its return type |
| MethodWriter.ByRefKinds | Il2Native.Logic/CCodeWriterBase.cs:180 | the ref kinds of the by-reference parameters only |
| MethodWriter.RefSuffixes | Il2Native.Logic/CCodeWriterBase.cs:180-184 | one `_` and kind-name pair per by-reference parameter, in order |
| MethodWriter.RefSuffixesText | Il2Native.Logic/CCodeWriterBase.cs:180-184 | the suffix text is `_Ref`/`_Out` per by-reference parameter |
| MethodWriter.RefTextInjective | Il2Native.Logic/CCodeWriterBase.cs:180-184 | the suffix text determines the sequence of by-reference kinds |
| MethodWriter.RefSuffixTextChanges | Il2Native.Logic/CCodeWriterBase.cs:180-184 | changing one parameter's ref kind changes the suffix text |
| MethodWriter.RefKindChangesName | Il2Native.Logic/CCodeWriterBase.cs:158-184 | overloads of a non-constructor that differ in one parameter's ref kind get different names |
| MethodWriter.NameAroundRefSuffixes | Il2Native.Logic/CCodeWriterBase.cs:146-211 | a non-constructor name is its prefix, then the ref/out suffixes, then the generic suffix |
| MethodWriter.GenericSuffix | Il2Native.Logic/CCodeWriterBase.cs:186-211 | erased generics get `T` and their arity; others get nothing unless a template is asked for, and then `<`, each type argument written in turn and joined by `, `, then `>`, failing exactly when an argument cannot be written |
| MethodWriter.WriteMethodName | Il2Native.Logic/CCodeWriterBase.cs:144-212 | a constructor is the template keyword, the interface prefix and the receiver type's whole name, and fails exactly when the receiver is not a named type; `template` leads when asked for a generic method; an erased generic ends with its arity |
| MethodWriter.ConstructorNamedByChain | Il2Native.Logic/CCodeWriterBase.cs:146-162 | a constructor of a nested type is named after its receiver's whole containing chain joined by `_`, after the template keyword and the interface prefix |
| MethodWriter.ConstructorIgnoresParameters | Il2Native.Logic/CCodeWriterBase.cs:159-163 | a constructor's name does not depend on its parameters |
| MethodWriter.NamesClashIffRepeated | Il2Native.Logic/CCodeWriterBase.cs:524 | outside a class, parameters are renamed positionally exactly when two share a name |
| MethodWriter.PositionalNamesDistinct | Il2Native.Logic/CCodeWriterBase.cs:558-561 | positional names of different parameters never collide |
| MethodWriter.MemberType | Il2Native.Logic/CCodeWriterBase.cs:537-544 | a type-parameter value of a virtual generic method is erased to `object*`; otherwise the type is written, keywords allowed outside a class |
| MethodWriter.ParameterTail | Il2Native.Logic/CCodeWriterBase.cs:546-562 | `&` exactly for a by-reference parameter; the name after a space exactly where names are written |
| MethodWriter.WriteParameter | Il2Native.Logic/CCodeWriterBase.cs:528-565 | one parameter is its type followed by its tail |
| MethodWriter.WriteParameterList | Il2Native.Logic/CCodeWriterBase.cs:528-565 | the parameters from a position on, extending the registry, failing only as not implemented |
| MethodWriter.WriteEachParameter | Il2Native.Logic/CCodeWriterBase.cs:528-565 | one written entry for every parameter from a position on, and a chain of registries one longer that starts at the caller's registry; its only failure is the not-implemented one a parameter's type can raise |
| MethodWriter.EachParameterInTurn | Il2Native.Logic/CCodeWriterBase.cs:528-565 | each entry is exactly its parameter written from the registry the previous parameter left, and leaves the next registry of the chain |
| MethodWriter.ParameterListEntries | Il2Native.Logic/CCodeWriterBase.cs:528-565 | the list is exactly the parameters written in turn joined by `, ` (led by `, ` when it continues a list), leaving the last parameter's registry; it fails exactly when one parameter does |
| MethodWriter.WriteMethodParameters | Il2Native.Logic/CCodeWriterBase.cs:520-573 | the list is in parentheses; an empty list is `()`; a vararg list ends in `...` |
| MethodWriter.MethodParametersEntries | Il2Native.Logic/CCodeWriterBase.cs:520-573 | the parameter list is `(`, every parameter written in turn joined by `, `, `...` for a varargs method with parameters, then `)`; it fails exactly when one parameter does |
| MethodWriter.ObjectList | Il2Native.Logic/CCodeWriterBase.cs:537-540 | the erased list is `object*` entries separated by `, ` |
| MethodWriter.ErasedParameters | Il2Native.Logic/CCodeWriterBase.cs:520-573 | in its class declaration, an erased virtual generic method's parameters are all `object*` |
| MethodWriter.WriteMethodReturn | Il2Native.Logic/CCodeWriterBase.cs:620-640 | nothing for a constructor; otherwise `void` or the (possibly erased) return type, then a space, failing exactly when the return type cannot be written; a missing return type is a null dereference |
| MethodWriter.WriteMethodSuffixes | Il2Native.Logic/CCodeWriterBase.cs:505-518 | inside a class, ` override` exactly for overrides and ` = 0` exactly for abstract methods that do not override; nothing outside |
| MethodWriter.EnumerateTemplateParameters | Il2Native.Logic/CCodeWriterBase.cs:693-707 | containing types' type parameters come first, the type's own end the sequence |
| MethodWriter.TemplateParameterCount | Il2Native.Logic/CCodeWriterBase.cs:693-707 | one entry per type parameter of every type in the containing chain, before deduplication |
| MethodWriter.TemplateParameterName | Il2Native.Logic/CCodeWriterBase.cs:678-685 | one token; the plain cleaned name unless the owner is nested |
| MethodWriter.PlainTemplateParameterNames | Il2Native.Logic/CCodeWriterBase.cs:678-685 | without nested owners the declared names are the cleaned names in order and no id is interned |
| MethodWriter.TypenameList | Il2Native.Logic/CCodeWriterBase.cs:667-688 | `typename` and the name per parameter, separated by `,` and a space |
| MethodWriter.WriteTemplateDeclaration | Il2Native.Logic/CCodeWriterBase.cs:663-691 | `template <`, one `typename` entry per distinct type parameter of the chain, `> ` |
| MethodWriter.TemplateDeclarationDeduplicates | Il2Native.Logic/CCodeWriterBase.cs:668 | the declaration's length counts distinct type parameters, never more than the chain holds |
| MethodWriter.TemplateDeclarationNames | Il2Native.Logic/CCodeWriterBase.cs:676-685 | without nested owners each entry names the distinct parameter in order by its cleaned name |
| MethodWriter.TypenameListOfMethod | Il2Native.Logic/CCodeWriterBase.cs:749-768 | `typename ` and the name per method type parameter, separated by `, ` |
| MethodWriter.WriteMethodTemplateDeclaration | Il2Native.Logic/CCodeWriterBase.cs:745-771 | `template <`, one `typename ` entry per method type parameter without deduplication, each carrying that parameter's written name, `> ` |
| MethodWriter.MethodTemplateDeclarationNames | Il2Native.Logic/CCodeWriterBase.cs:745-771 | without nested owners, entry i names the method's i-th type parameter by its cleaned name and no id is interned |
| ExpressionWriter.WriteExpressionInParenthesesIfNeeded | Il2Native.Logic/CCodeWriterBase.cs:801-824 | null is an argument error; otherwise the expression inside one matched parenthesis pair exactly when it is a creation or an operator |
| ExpressionWriter.WriteAccess | Il2Native.Logic/CCodeWriterBase.cs:773-799 | the receiver as above, then `::` exactly for a base reference, `.` exactly for a struct or enum value, `->` otherwise; an untyped value is a null dereference |
| ExpressionWriter.WriteBlockOrStatementsAsBlock | Il2Native.Logic/CCodeWriterBase.cs:852-873 | a block is written by itself with its new line suppressed as asked, and the block handed back keeps that setting; anything else is framed by braces and handed back unchanged; the output ends without a new line exactly when asked |
| ExpressionWriter.BlockWriteSettles | Il2Native.Logic/CCodeWriterBase.cs:852-873 | writing the node a write leaves behind with the same request repeats it; with the other request the ending changes |
| PointerIndirection.Parse | Il2Native.Logic/DOM2/PointerIndirectionOperator.cs:9-14 | the operand is the lowered operand exactly when that is an expression, and null otherwise |
| PointerIndirection.WriteTo | Il2Native.Logic/DOM2/PointerIndirectionOperator.cs:16-20 | `*` then the operand, parenthesised exactly when it needs it; a null operand is an argument error |
| PointerIndirection.ParseThenWrite | Il2Native.Logic/DOM2/PointerIndirectionOperator.cs:9-20 | a parsed dereference writes exactly when its lowered operand was an expression, and then writes that operand |
| ForEach.BlockLocalsAppend | Il2Native.Logic/DOM2/ForEachIteratorStatement.cs:30-33 | locals are collected from every block of the list, in order |
| ForEach.StatementLists | Il2Native.Logic/DOM2/ForEachIteratorStatement.cs:76 | the statement lists of a try block, in order, empty exactly when there is none |
| ForEach.TryFrom | Il2Native.Logic/DOM2/ForEachIteratorStatement.cs:71-86 | a try without a statement list fails as `First` does; otherwise a while loop over one of its lists, with the finally block kept exactly when present |
| ForEach.Step | Il2Native.Logic/DOM2/ForEachIteratorStatement.cs:45-90 | gotos are skipped during initialisation; a try moves to the try body; a statement after the try is a null dereference; no step reaches the end stage |
| ForEach.Parse | Il2Native.Logic/DOM2/ForEachIteratorStatement.cs:23-93 | null and empty lists fail; the parse is declined exactly on the multi-array guard; locals always come from every block |
| ForEach.MergedInitialization | Il2Native.Logic/DOM2/ForEachIteratorStatement.cs:67-70 | merging items gives nothing, the single item, or a block of all items in order |
| ForEach.RunWithoutTry | Il2Native.Logic/DOM2/ForEachIteratorStatement.cs:45-70 | without a try the machine stays in initialisation with the merged non-goto statements |
| ForEach.RunAfterTry | Il2Native.Logic/DOM2/ForEachIteratorStatement.cs:71-76 | any statement after the try fails with a null dereference |
| ForEach.RunThroughFirstTry | Il2Native.Logic/DOM2/ForEachIteratorStatement.cs:45-86 | up to the first try the loop merges what precedes it, then builds the try statement or fails as `First` does |
| ForEach.RunIsExpected | Il2Native.Logic/DOM2/ForEachIteratorStatement.cs:45-90 | the statement loop equals a reference definition: merged items before the first try, then that try's statement, and failure when anything follows it |
| ForEach.RunFailurePersists | Il2Native.Logic/DOM2/ForEachIteratorStatement.cs:45-90 | once the loop has failed, further statements do not change the failure |
| ForEach.StagesOnlyAdvance | Il2Native.Logic/DOM2/ForEachIteratorStatement.cs:45-90 | a successful loop never reaches the end stage; it is in the try body exactly when the list has a try, and only then has a try statement |
| ForEach.ParseAccepted | Il2Native.Logic/DOM2/ForEachIteratorStatement.cs:23-93 | an accepted parse returns true with the initialisation and try statement of the loop |
| ForEach.JoinItems | Il2Native.Logic/DOM2/ForEachIteratorStatement.cs:107-118 | initialisation items written as expressions, separated by `,` and a space |
| ForEach.InitializerPlain | Il2Native.Logic/DOM2/ForEachIteratorStatement.cs:104-123 | the initialiser opens, closes and ends no block or statement |
| ForEach.BlockBody | Il2Native.Logic/DOM2/ForEachIteratorStatement.cs:99-125 | the locals, then the initialiser, then the try statement, with no block markers |
| ForEach.WriteTo | Il2Native.Logic/DOM2/ForEachIteratorStatement.cs:95-131 | one brace-enclosed block around the body, then a separator and no statement terminator; a missing try statement is a null dereference |
| ForEach.WriteAfterParse | Il2Native.Logic/DOM2/ForEachIteratorStatement.cs:23-131 | a statement accepted by the parse can be written exactly when its list has a try |
| RuntimeTypeConstructor.RuntimeTypeConstructorMethod | Il2Native.Logic/DOM/Synthesized/CCodeRuntimeTypeConstructorDeclaration.cs:47-62 | a void constructor on the type taking one `void*` named `value`; named after the type with no return type when `cppConst`, otherwise `_ctor` returning `void` |
| RuntimeTypeConstructor.FirstHandle | Il2Native.Logic/DOM/Synthesized/CCodeRuntimeTypeConstructorDeclaration.cs:36 | the first field named `m_handle`, absent exactly when no field has that name |
| RuntimeTypeConstructor.Body | Il2Native.Logic/DOM/Synthesized/CCodeRuntimeTypeConstructorDeclaration.cs:18-42 | one assignment built from the first `m_handle` field's type; no such field is an invalid operation |
| RuntimeTypeConstructor.New | Il2Native.Logic/DOM/Synthesized/CCodeRuntimeTypeConstructorDeclaration.cs:15-43 | the declaration exists exactly when the body does, and pairs the synthesized method with it |
| RuntimeTypeConstructor.AssignmentShape | Il2Native.Logic/DOM/Synthesized/CCodeRuntimeTypeConstructorDeclaration.cs:22-40 | `this.m_handle`, typed as the type, is assigned a creation of the field's type from `value` alone |
| RuntimeTypeConstructor.VariantsWrittenAlike | Il2Native.Logic/DOM/Synthesized/CCodeRuntimeTypeConstructorDeclaration.cs:47-62 | both variants are named after the receiver type and have no written return type |
| RuntimeTypeConstructor.ParameterListSpelling | Il2Native.Logic/DOM/Synthesized/CCodeRuntimeTypeConstructorDeclaration.cs:55-61 | the parameter list is `(void* value)` where names are written and `(void*)` otherwise |
| Chars.ToLower | CoreLib/System/Char.cs:93-101 | ASCII upper case maps to the matching lower case letter; every other character is unchanged |
| Chars.ToUpper | CoreLib/System/Char.cs:103-111 | ASCII lower case maps to the matching upper case letter; every other character is unchanged |
| Chars.CaseRoundTrips | CoreLib/System/Char.cs:93-111 | the two mappings undo each other on letters and are idempotent |
| Chars.IsDigit | CoreLib/System/Char.cs:113-116 | a code unit is a digit exactly when it is one of the decimal digit characters |
| Chars.DigitTable | CoreLib/System/Char.cs:113-116 | exactly the ten code units U+0030 to U+0039 are digits; each decimal digit is one; none is a surrogate, white space or changed by case mapping |
| Chars.IsWhiteSpaceLatin1 | CoreLib/System/Char.cs:118-137 | exactly tab, line feed, vertical tab, form feed, carriage return, space, next line and no-break space |
| Chars.IsWhiteSpace | CoreLib/System/Char.cs:118-159 | defined on Latin-1 only, true exactly for space, tab to carriage return, next line and no-break space; above it not implemented |
| Chars.WhiteSpaceTable | CoreLib/System/Char.cs:118-159 | exactly eight Latin-1 white-space characters, none a digit or changed by case mapping |
| Chars.IsSurrogate | CoreLib/System/Char.cs:162-165 | a surrogate is a high or a low surrogate |
| Chars.IsHighSurrogate | CoreLib/System/Char.cs:181-184 | exactly the code units whose top six bits are 110110 |
| Chars.IsLowSurrogate | CoreLib/System/Char.cs:200-203 | exactly the code units whose top six bits are 110111 |
| Chars.IsSurrogatePair | CoreLib/System/Char.cs:250-254 | a high surrogate followed by a low one |
| Chars.SurrogateHalves | CoreLib/System/Char.cs:162-203 | a surrogate is a high or a low surrogate, never both |
| Chars.UnsignedIndexCheck | CoreLib/System/Char.cs:173 | the unsigned comparison rejects exactly the indices outside the string |
| Chars.IsSurrogateAt | CoreLib/System/Char.cs:167-179 | null is an argument error, an index outside the string is out of range, otherwise the character's test |
| Chars.IsHighSurrogateAt | CoreLib/System/Char.cs:186-198 | same error cases, then the high-surrogate test of the character |
| Chars.IsLowSurrogateAt | CoreLib/System/Char.cs:205-217 | same error cases, then the low-surrogate test of the character |
| Chars.SurrogateAtHalves | CoreLib/System/Char.cs:167-217 | the three indexed tests fail together and agree with the character tests |
| Chars.IsSurrogatePairAt | CoreLib/System/Char.cs:233-248 | same error cases; true exactly when a high surrogate at the index is followed by a low one |
| Chars.ConvertToUtf32 | CoreLib/System/Char.cs:219-231 | decodes exactly the surrogate pairs, high half checked first, into planes 1 to 16 with the high half as the upper ten bits and the low half as the lower ten |
| Chars.PairIffDecodable | CoreLib/System/Char.cs:219-254 | a pair is a surrogate pair exactly when it decodes |
| Chars.DecodeEncode | CoreLib/System/Char.cs:219-231 | encoding a supplementary code point and decoding gives it back |
| Chars.EncodeDecode | CoreLib/System/Char.cs:219-231 | decoding a surrogate pair and encoding gives the pair back |
| Chars.DecodingInjective | CoreLib/System/Char.cs:219-231 | distinct surrogate pairs decode to distinct code points |
| Chars.ToString | CoreLib/System/Char.cs:48-61 | the one-character string of the character |
| Chars.Parse | CoreLib/System/Char.cs:63-76 | null is an argument error, a string not of length one is a format error, otherwise its only character |
| Chars.TryParse | CoreLib/System/Char.cs:78-91 | succeeds exactly on one-character strings, yielding that character, and `\0` otherwise |
| Chars.ParseAgreement | CoreLib/System/Char.cs:58-91 | the two parsers agree, and both read back what `ToString` wrote |
| Chars.GetHashCode | CoreLib/System/Char.cs:43-46 | the hash repeats the character in its low and its high 16 bits |
| Chars.HashInjective | CoreLib/System/Char.cs:43-46 | distinct characters have distinct hashes |

## Left out

- `GetId(object)` and the locks around both `GetId` overloads: the object overload keys a
  second table by reference identity, and locking is concurrency, not modelled here.
- `WriteFieldDeclaration`, `WriteFieldDefinition`, `WriteMethodDeclaration`,
  `WriteMethodPrefixesAndName`, `WriteMethodFullName` and `WriteMethodBody`: they only
  sequence the modelled writers with new lines and bodies whose writers are not part of this model.
- `CleanUpName`, `EnsureCompatible`, `GetTypeFullName`, `GetTypeName`, `EnumNamespaces` and
  `IsVirtualGenericMethod` are not part of this model; they are oracle parameters.
- The writers' text output, indentation and files: tokens stand for the calls on the writer.
- Output written before an exception is not modelled: a fault replaces the whole result.
- `Deserialize`, `WhileStatement.Parse`, `TryStatement.WriteTo`, `PrintStatementAsExpression`
  and `Expression.WriteTo` are not part of this model; their results are marker nodes and tokens.
- Interning.GetId: interning keys are compared as ordinal strings. The source's
  `SortedDictionary` has no comparer, so it uses the default culture-sensitive string
  comparison, under which two different strings (one holding an ignorable character such
  as U+00AD, say) can share one id. Culture-sensitive collation is not modelled.
- Interning.IdsFromRegistry: "same id exactly when same string" holds for ordinal keys
  only, for the reason given for `Interning.GetId`.
- ForEach.Parse: `Unwrap` and `IterateBoundStatementsList` are taken as the identity,
  because their code is not part of this model.
- ForEach.MergedInitialization: `MergeOrSet` is not part of this model; it is taken to set
  the first statement and collect later ones into a block in order.
- ForEach.BlockLocals: `ParseLocals` is modelled as one local declaration per block local.
- ForEach.Parse: the parameterless `ArgumentNullException` is modelled as an argument error
  with an empty parameter name.
- PointerIndirection.Parse: the flags the shared `Expression.Parse` reads are inputs.
- TypeWriter.WriteCArrayTemplate: the unused `cleanName` parameter is dropped.
- MethodWriter.WriteMethodName: the unused `allowKeywords` parameter is dropped.
- MethodWriter.TemplateDeclarationDeduplicates: `Distinct` on type parameter symbols is
  modelled as equality of the modelled type parameters.
- RuntimeTypeConstructor.New: the type's field members are passed in declaration order
  instead of being read through `GetMembers`.
- RuntimeTypeConstructor.ParameterListSpelling: the synthesized `PointerTypeImpl` is
  modelled as a pointer type whose pointee the writers read, as they do for a front-end
  pointer. The writers reach the pointee through a cast to the front end's
  `PointerTypeSymbol`, and `PointerTypeImpl` is not part of this model, so whether that cast
  succeeds on it is assumed, not shown.
- RuntimeTypeConstructor.VoidPointer: the same assumption about `PointerTypeImpl`.
- RuntimeTypeConstructor.AssignmentShape: the reference flags of synthesized expressions
  are taken as false.
- `Char.GetTypeCode` and the `IConvertible` members are left out because they call into
  the runtime's `Convert` code, which is not part of this model.
- `GenerateResourcesCode.cs` is only a caller and is not modelled.

=== FILE: chars.dfy ===
/** The UTF-16 code unit routines of the runtime library's `System.Char`:
    ASCII case mapping, digits, Latin-1 white space, the surrogate
    predicates, surrogate-pair decoding (section 3.8 of the Unicode
    Standard, section 2.2 of RFC 2781), single-character parsing and the
    hash code. */
module Chars {
  import opened Outcomes
  import Decimal

  /** A UTF-16 code unit, `System.Char`. */
  newtype Char16 = x: int | 0 <= x < 0x1_0000

  /** `System.Int32`. */
  newtype Int32 = x: int | -0x8000_0000 <= x < 0x8000_0000

  /** A .NET string: code units, at most `Int32.MaxValue` of them. */
  type NetString = s: seq<Char16> | |s| < 0x8000_0000

  const HighSurrogateStart: int := 0xD800
  const HighSurrogateEnd: int := 0xDBFF
  const LowSurrogateStart: int := 0xDC00
  const LowSurrogateEnd: int := 0xDFFF
  const UnicodePlane01Start: int := 0x10000
  const UnicodePlane16End: int := 0x10FFFF

  // ---------------------------------------------------------------------
  // Case mapping and classification
  // ---------------------------------------------------------------------

  predicate IsAsciiUpper(c: Char16) {
    'A' as int <= c as int <= 'Z' as int
  }

  predicate IsAsciiLower(c: Char16) {
    'a' as int <= c as int <= 'z' as int
  }

  /** `ToLower`: ASCII capitals move down to the small letters; every other
      code unit is left alone. */
  function ToLower(c: Char16): (r: Char16)
    ensures IsAsciiUpper(c) ==> IsAsciiLower(r) && r as int - 'a' as int == c as int - 'A' as int
    ensures !IsAsciiUpper(c) ==> r == c
  {
    if IsAsciiUpper(c) then (c as int - ('A' as int - 'a' as int)) as Char16 else c
  }

  /** `ToUpper`: the mirror image of `ToLower`. */
  function ToUpper(c: Char16): (r: Char16)
    ensures IsAsciiLower(c) ==> IsAsciiUpper(r) && r as int - 'A' as int == c as int - 'a' as int
    ensures !IsAsciiLower(c) ==> r == c
  {
    if IsAsciiLower(c) then (c as int + ('A' as int - 'a' as int)) as Char16 else c
  }

  /** The two mappings undo each other on letters, and folding to lower
      case forgets any earlier folding to upper case. */
  lemma CaseRoundTrips(c: Char16)
    ensures IsAsciiUpper(c) ==> ToUpper(ToLower(c)) == c
    ensures IsAsciiLower(c) ==> ToLower(ToUpper(c)) == c
    ensures ToLower(ToUpper(c)) == ToLower(c)
    ensures ToUpper(ToLower(c)) == ToUpper(c)
    ensures ToLower(ToLower(c)) == ToLower(c) && ToUpper(ToUpper(c)) == ToUpper(c)
  {
  }

  /** `IsDigit`: the ASCII decimal digits only, which are the digits the
      decimal spellings of numbers use. */
  predicate IsDigit(c: Char16): (r: bool)
    ensures r <==> c as int < 0xD800 && Decimal.IsDigit(c as int as char)
  {
    '0' as int <= c as int <= '9' as int
  }

  /** Exactly the ten code units U+0030 to U+0039 are digits; they are
      the characters the decimal spellings are made of, and neither case
      mapping nor the surrogate and white-space tests touch them. */
  lemma DigitTable()
    ensures (set x: Char16 | IsDigit(x)) == {0x30, 0x31, 0x32, 0x33, 0x34, 0x35, 0x36, 0x37, 0x38, 0x39}
    ensures |set x: Char16 | IsDigit(x)| == 10
    ensures forall c: Char16 :: IsDigit(c) ==> Decimal.IsDigit(c as int as char)
    ensures forall d: nat :: d < 10 ==> IsDigit(Decimal.DigitChar(d) as int as Char16)
    ensures forall c: Char16 :: IsDigit(c) ==>
              && !IsSurrogate(c) && ToLower(c) == c && ToUpper(c) == c && IsWhiteSpace(c) == Ok(false)
  {
    var ds := set x: Char16 | IsDigit(x);
    var ten: set<Char16> := {0x30, 0x31, 0x32, 0x33, 0x34, 0x35, 0x36, 0x37, 0x38, 0x39};
    forall x | x in ds
      ensures x in ten
    {
      assert 0x30 <= x as int <= 0x39;
    }
    forall x | x in ten
      ensures x in ds
    {
      assert IsDigit(x);
    }
    assert ds == ten;
  }

  /** `IsWhiteSpaceLatin1`: space, the controls from tab to carriage
      return, next line and no-break space. */
  predicate IsWhiteSpaceLatin1(c: Char16): (r: bool)
    ensures r <==> c as int in {0x09, 0x0A, 0x0B, 0x0C, 0x0D, 0x20, 0x85, 0xA0}
  {
    c as int == ' ' as int || (0x09 <= c as int <= 0x0D) || c as int == 0xA0 || c as int == 0x85
  }

  /** `IsWhiteSpace`: decided by the Latin-1 table up to U+00FF; anything
      above is not implemented. */
  function IsWhiteSpace(c: Char16): (r: Result<bool>)
    ensures r.Ok? <==> c as int <= 0xFF
    ensures r.Fail? ==> r.fault == NotImplemented
    ensures r == Ok(true) <==> c as int in {0x20, 0x09, 0x0A, 0x0B, 0x0C, 0x0D, 0x85, 0xA0}
  {
    if c as int <= 0xFF then Ok(IsWhiteSpaceLatin1(c)) else Fail(NotImplemented)
  }

  /** Exactly eight Latin-1 code units are white space, and neither a digit
      nor a letter is one of them; case mapping leaves them alone. */
  lemma WhiteSpaceTable()
    ensures (set x: Char16 | x <= 0xFF && IsWhiteSpace(x) == Ok(true)) == {0x09, 0x0A, 0x0B, 0x0C, 0x0D, 0x20, 0x85, 0xA0}
    ensures |set x: Char16 | x <= 0xFF && IsWhiteSpace(x) == Ok(true)| == 8
    ensures forall c: Char16 :: IsWhiteSpace(c) == Ok(true) ==> !IsDigit(c) && ToLower(c) == c && ToUpper(c) == c
  {
    var ws := set x: Char16 | x <= 0xFF && IsWhiteSpace(x) == Ok(true);
    assert ws == {0x09, 0x0A, 0x0B, 0x0C, 0x0D, 0x20, 0x85, 0xA0} by {
      forall x | x in ws
        ensures x in {0x09, 0x0A, 0x0B, 0x0C, 0x0D, 0x20, 0x85, 0xA0}
      {
        assert IsWhiteSpaceLatin1(x);
      }
      forall x | x in {0x09, 0x0A, 0x0B, 0x0C, 0x0D, 0x20, 0x85, 0xA0}
        ensures x in ws
      {
        assert IsWhiteSpace(x) == Ok(true);
      }
    }
  }

  // ---------------------------------------------------------------------
  // Surrogates
  // ---------------------------------------------------------------------

  /** `IsSurrogate`: either half of a surrogate pair. */
  predicate IsSurrogate(c: Char16): (r: bool)
    ensures r <==> IsHighSurrogate(c) || IsLowSurrogate(c)
  {
    HighSurrogateStart <= c as int <= LowSurrogateEnd
  }

  /** `IsHighSurrogate`: the code units whose top six bits are 110110. */
  predicate IsHighSurrogate(c: Char16): (r: bool)
    ensures r <==> c as int / 0x400 == 0x36
  {
    HighSurrogateStart <= c as int <= HighSurrogateEnd
  }

  /** `IsLowSurrogate`: the code units whose top six bits are 110111. */
  predicate IsLowSurrogate(c: Char16): (r: bool)
    ensures r <==> c as int / 0x400 == 0x37
  {
    LowSurrogateStart <= c as int <= LowSurrogateEnd
  }

  /** A surrogate is exactly one of high or low, and nothing else is
      either. */
  lemma SurrogateHalves(c: Char16)
    ensures IsSurrogate(c) <==> IsHighSurrogate(c) || IsLowSurrogate(c)
    ensures !(IsHighSurrogate(c) && IsLowSurrogate(c))
  {
  }

  /** `(uint)x`: the 32-bit two's complement reading of an `int` as
      unsigned. */
  function ToUInt32(x: Int32): (r: nat)
    ensures r < 0x1_0000_0000
    ensures x >= 0 ==> r == x as int
    ensures x < 0 ==> r == x as int + 0x1_0000_0000
  {
    (x as int) % 0x1_0000_0000
  }

  /** The unsigned comparison `IsSurrogate(s, index)` uses is the range
      check: a negative index reads as at least 2^31, above every string
      length. */
  lemma UnsignedIndexCheck(index: Int32, length: nat)
    requires length < 0x8000_0000
    ensures ToUInt32(index) >= length <==> !(0 <= index as int < length)
  {
  }

  /** `IsSurrogate(s, index)`. */
  function IsSurrogateAt(s: Option<NetString>, index: Int32): (r: Result<bool>)
    ensures s.None? ==> r == Fail(ArgumentNull("s"))
    ensures s.Some? ==> (r.Ok? <==> 0 <= index as int < |s.value|)
    ensures s.Some? && r.Fail? ==> r.fault == ArgumentOutOfRange("index")
    ensures r.Ok? ==> r.value == IsSurrogate(s.value[index])
  {
    if s.None? then Fail(ArgumentNull("s"))
    else if ToUInt32(index) >= ToUInt32(|s.value| as Int32) then Fail(ArgumentOutOfRange("index"))
    else
      UnsignedIndexCheck(index, |s.value|);
      Ok(IsSurrogate(s.value[index]))
  }

  /** `IsHighSurrogate(s, index)`. */
  function IsHighSurrogateAt(s: Option<NetString>, index: Int32): (r: Result<bool>)
    ensures s.None? ==> r == Fail(ArgumentNull("s"))
    ensures s.Some? ==> (r.Ok? <==> 0 <= index as int < |s.value|)
    ensures s.Some? && r.Fail? ==> r.fault == ArgumentOutOfRange("index")
    ensures r.Ok? ==> r.value == IsHighSurrogate(s.value[index])
  {
    if s.None? then Fail(ArgumentNull("s"))
    else if index < 0 || index as int >= |s.value| then Fail(ArgumentOutOfRange("index"))
    else Ok(IsHighSurrogate(s.value[index]))
  }

  /** `IsLowSurrogate(s, index)`. */
  function IsLowSurrogateAt(s: Option<NetString>, index: Int32): (r: Result<bool>)
    ensures s.None? ==> r == Fail(ArgumentNull("s"))
    ensures s.Some? ==> (r.Ok? <==> 0 <= index as int < |s.value|)
    ensures s.Some? && r.Fail? ==> r.fault == ArgumentOutOfRange("index")
    ensures r.Ok? ==> r.value == IsLowSurrogate(s.value[index])
  {
    if s.None? then Fail(ArgumentNull("s"))
    else if index < 0 || index as int >= |s.value| then Fail(ArgumentOutOfRange("index"))
    else Ok(IsLowSurrogate(s.value[index]))
  }

  /** The three index forms agree where they succeed: a surrogate at an
      index is a high or a low one there. */
  lemma SurrogateAtHalves(s: Option<NetString>, index: Int32)
    ensures IsSurrogateAt(s, index).Ok? == IsHighSurrogateAt(s, index).Ok? == IsLowSurrogateAt(s, index).Ok?
    ensures IsSurrogateAt(s, index).Ok? ==>
              IsSurrogateAt(s, index).value == (IsHighSurrogateAt(s, index).value || IsLowSurrogateAt(s, index).value)
  {
  }

  /** `IsSurrogatePair(high, low)`: a high half followed by a low one. */
  predicate IsSurrogatePair(high: Char16, low: Char16): (r: bool)
    ensures r <==> IsHighSurrogate(high) && IsLowSurrogate(low)
  {
    (HighSurrogateStart <= high as int <= HighSurrogateEnd) && (LowSurrogateStart <= low as int <= LowSurrogateEnd)
  }

  /** `IsSurrogatePair(s, index)`: whether a pair starts at `index`; the
      last index starts none. */
  function IsSurrogatePairAt(s: Option<NetString>, index: Int32): (r: Result<bool>)
    ensures s.None? ==> r == Fail(ArgumentNull("s"))
    ensures s.Some? ==> (r.Ok? <==> 0 <= index as int < |s.value|)
    ensures s.Some? && r.Fail? ==> r.fault == ArgumentOutOfRange("index")
    ensures r.Ok? && index as int == |s.value| - 1 ==> !r.value
    ensures r.Ok? && index as int < |s.value| - 1 ==>
              r.value == (IsHighSurrogate(s.value[index]) && IsLowSurrogate(s.value[index as int + 1]))
  {
    if s.None? then Fail(ArgumentNull("s"))
    else if index < 0 || index as int >= |s.value| then Fail(ArgumentOutOfRange("index"))
    else if index as int + 1 < |s.value| then Ok(IsSurrogatePair(s.value[index], s.value[index as int + 1]))
    else Ok(false)
  }

  /** `ConvertToUtf32(high, low)`: the supplementary code point a surrogate
      pair encodes. The high half is checked first. */
  function ConvertToUtf32(high: Char16, low: Char16): (r: Result<Int32>)
    ensures r.Ok? <==> IsHighSurrogate(high) && IsLowSurrogate(low)
    ensures !IsHighSurrogate(high) ==> r == Fail(ArgumentOutOfRange("highSurrogate"))
    ensures IsHighSurrogate(high) && !IsLowSurrogate(low) ==> r == Fail(ArgumentOutOfRange("lowSurrogate"))
    ensures r.Ok? ==> UnicodePlane01Start <= r.value as int <= UnicodePlane16End
    ensures r.Ok? ==> (r.value as int - UnicodePlane01Start) / 0x400 == high as int - HighSurrogateStart
    ensures r.Ok? ==> (r.value as int - UnicodePlane01Start) % 0x400 == low as int - LowSurrogateStart
  {
    if !IsHighSurrogate(high) then Fail(ArgumentOutOfRange("highSurrogate"))
    else if !IsLowSurrogate(low) then Fail(ArgumentOutOfRange("lowSurrogate"))
    else
      Ok(((high as int - HighSurrogateStart) * 0x400 + (low as int - LowSurrogateStart) + UnicodePlane01Start) as Int32)
  }

  /** The pair predicate is exactly the success condition of decoding. */
  lemma PairIffDecodable(high: Char16, low: Char16)
    ensures IsSurrogatePair(high, low) <==> ConvertToUtf32(high, low).Ok?
  {
  }

  /** The encoding of section 2.1 of RFC 2781: the surrogate pair of a
      supplementary code point. */
  function ToSurrogatePair(cp: int): (r: (Char16, Char16))
    requires UnicodePlane01Start <= cp <= UnicodePlane16End
    ensures IsHighSurrogate(r.0) && IsLowSurrogate(r.1)
  {
    ((HighSurrogateStart + (cp - UnicodePlane01Start) / 0x400) as Char16,
     (LowSurrogateStart + (cp - UnicodePlane01Start) % 0x400) as Char16)
  }

  /** Decoding inverts the encoding: every supplementary code point comes
      back from its pair. */
  lemma DecodeEncode(cp: int)
    requires UnicodePlane01Start <= cp <= UnicodePlane16End
    ensures var p := ToSurrogatePair(cp);
            ConvertToUtf32(p.0, p.1) == Ok(cp as Int32)
  {
    var p := ToSurrogatePair(cp);
    var d := cp - UnicodePlane01Start;
    assert d == (d / 0x400) * 0x400 + d % 0x400;
  }

  /** Encoding inverts the decoding: every pair comes back from its code
      point. */
  lemma EncodeDecode(high: Char16, low: Char16)
    requires IsSurrogatePair(high, low)
    ensures ToSurrogatePair(ConvertToUtf32(high, low).value as int) == (high, low)
  {
  }

  /** So decoding is one-to-one: distinct pairs give distinct code points. */
  lemma DecodingInjective(h1: Char16, l1: Char16, h2: Char16, l2: Char16)
    requires IsSurrogatePair(h1, l1) && IsSurrogatePair(h2, l2)
    requires ConvertToUtf32(h1, l1) == ConvertToUtf32(h2, l2)
    ensures h1 == h2 && l1 == l2
  {
    EncodeDecode(h1, l1);
    EncodeDecode(h2, l2);
  }

  // ---------------------------------------------------------------------
  // Parsing, printing, hashing
  // ---------------------------------------------------------------------

  /** `ToString(c)`: the one-character string. */
  function ToString(c: Char16): (s: NetString)
    ensures |s| == 1 && s[0] == c
  {
    [c]
  }

  /** `Parse`: the only character of a one-character string. */
  function Parse(s: Option<NetString>): (r: Result<Char16>)
    ensures s.None? ==> r == Fail(ArgumentNull("s"))
    ensures s.Some? ==> (r.Ok? <==> |s.value| == 1)
    ensures s.Some? && r.Fail? ==> r.fault == Format
    ensures r.Ok? ==> s.value == [r.value]
  {
    if s.None? then Fail(ArgumentNull("s"))
    else if |s.value| != 1 then Fail(Format)
    else Ok(s.value[0])
  }

  /** `TryParse`: whether parsing succeeds, and the character, or U+0000
      when it does not. */
  function TryParse(s: Option<NetString>): (r: (bool, Char16))
    ensures r.0 <==> s.Some? && |s.value| == 1
    ensures !r.0 ==> r.1 == 0
    ensures r.0 ==> s.value == [r.1]
  {
    if s.None? then (false, 0)
    else if |s.value| != 1 then (false, 0)
    else (true, s.value[0])
  }

  /** `TryParse` succeeds exactly when `Parse` does, with the same
      character; and parsing a printed character gives it back. */
  lemma ParseAgreement(s: Option<NetString>, c: Char16)
    ensures TryParse(s).0 <==> Parse(s).Ok?
    ensures Parse(s).Ok? ==> TryParse(s).1 == Parse(s).value
    ensures Parse(Some(ToString(c))) == Ok(c) && TryParse(Some(ToString(c))) == (true, c)
  {
  }

  function Pow2(n: nat): (p: nat)
    ensures p >= 1
  {
    if n == 0 then 1 else 2 * Pow2(n - 1)
  }

  /** Bitwise or of the low `n` bits of `a` and `b`. */
  function OrBits(a: nat, b: nat, n: nat): nat
    decreases n
  {
    if n == 0 then 0 else (if a % 2 == 1 || b % 2 == 1 then 1 else 0) + 2 * OrBits(a / 2, b / 2, n - 1)
  }

  /** Or-ing in nothing keeps the low `n` bits. */
  lemma {:induction false} OrZero(b: nat, n: nat)
    requires b < Pow2(n)
    ensures OrBits(0, b, n) == b
    decreases n
  {
    if n > 0 {
      OrZero(b / 2, n - 1);
    }
  }

  /** Or-ing a value below 2^k into a multiple of 2^k adds them: their
      bits do not overlap. */
  lemma {:induction false} OrOfDisjoint(a: nat, q: nat, k: nat, n: nat)
    requires k <= n && a < Pow2(k) && q * Pow2(k) < Pow2(n)
    ensures OrBits(a, q * Pow2(k), n) == a + q * Pow2(k)
    decreases n
  {
    var b := q * Pow2(k);
    if k == 0 {
      OrZero(b, n);
    } else {
      var p := Pow2(k - 1);
      var h := q * p;
      assert Pow2(k) == 2 * p;
      DoubleFactor(q, p);
      assert b == 2 * h;
      assert Pow2(n) == 2 * Pow2(n - 1);
      assert a / 2 < p && h < Pow2(n - 1);
      OrOfDisjoint(a / 2, q, k - 1, n - 1);
      OrBitsEvenStep(a, h, n);
      assert OrBits(a, b, n) == a % 2 + 2 * (a / 2 + h);
    }
  }

  lemma DoubleFactor(q: nat, p: nat)
    ensures q * (2 * p) == 2 * (q * p)
  {
  }

  /** One step of `OrBits` against an even value: the low bit is `a`'s. */
  lemma OrBitsEvenStep(a: nat, h: nat, n: nat)
    requires n > 0
    ensures OrBits(a, 2 * h, n) == a % 2 + 2 * OrBits(a / 2, h, n - 1)
  {
    assert (2 * h) % 2 == 0 && (2 * h) / 2 == h;
  }

  /** Exponents add under multiplication. */
  lemma {:induction false} Pow2Add(x: nat, y: nat)
    ensures Pow2(x + y) == Pow2(x) * Pow2(y)
    decreases x
  {
    if x > 0 {
      Pow2Add(x - 1, y);
    }
  }

  lemma Pow2Values()
    ensures Pow2(16) == 0x1_0000 && Pow2(32) == 0x1_0000_0000
  {
    assert Pow2(2) == 4;
    Pow2Add(2, 2);
    Pow2Add(4, 4);
    Pow2Add(8, 8);
    Pow2Add(16, 16);
  }

  /** `x << k` on a 32-bit pattern: the bits shifted past bit 31 are lost. */
  function ShiftLeft32(x: nat, k: nat): (r: nat)
    ensures r < 0x1_0000_0000
  {
    (x * Pow2(k)) % 0x1_0000_0000
  }

  /** The signed reading of a 32-bit pattern. */
  function Signed(u: nat): (r: Int32)
    requires u < 0x1_0000_0000
    ensures ToUInt32(r) == u
  {
    if u < 0x8000_0000 then u as Int32 else (u - 0x1_0000_0000) as Int32
  }

  /** `GetHashCode`: `(int)c | ((int)c << 16)` in 32-bit arithmetic, so
      the code unit fills both halves of the hash. */
  function GetHashCode(c: Char16): (h: Int32)
    ensures ToUInt32(h) % 0x1_0000 == c as int
    ensures ToUInt32(h) / 0x1_0000 == c as int
  {
    var v := c as int;
    var shifted := ShiftLeft32(v, 16);
    HashPattern(v);
    Signed(OrBits(v, shifted, 32))
  }

  lemma HashPattern(v: nat)
    requires v < 0x1_0000
    ensures var u := OrBits(v, ShiftLeft32(v, 16), 32);
            u < 0x1_0000_0000 && u % 0x1_0000 == v && u / 0x1_0000 == v
  {
    Pow2Values();
    var w := v * 0x1_0000;
    HalvesBound(v);
    ShiftInRange(v);
    OrOfDisjoint(v, v, 16, 32);
    DivModUnique(w + v, 0x1_0000, v, v);
  }

  /** A 16-bit value in both halves still fits in 32 bits. */
  lemma HalvesBound(v: nat)
    requires v < 0x1_0000
    ensures v * 0x1_0000 + v < 0x1_0000_0000
  {
    assert v * 0x1_0000 <= 0xFFFF * 0x1_0000;
  }

  /** Shifting a 16-bit value up by 16 loses nothing. */
  lemma ShiftInRange(v: nat)
    requires v < 0x1_0000 && Pow2(16) == 0x1_0000
    ensures ShiftLeft32(v, 16) == v * 0x1_0000
  {
    HalvesBound(v);
    assert v * Pow2(16) == v * 0x1_0000;
  }

  lemma MulAtLeast(a: int, m: int)
    requires a >= 1 && m > 0
    ensures a * m >= m
  {
    assert a * m == m + (a - 1) * m;
    assert (a - 1) * m >= 0;
  }

  /** Quotient and remainder are the only ones. */
  lemma DivModUnique(u: int, m: int, q: int, r: int)
    requires m > 0 && u == q * m + r && 0 <= r < m
    ensures u / m == q && u % m == r
  {
    var q' := u / m;
    var r' := u % m;
    assert u == q' * m + r';
    assert (q - q') * m == r' - r;
    if q > q' {
      MulAtLeast(q - q', m);
    } else if q < q' {
      MulAtLeast(q' - q, m);
    }
  }

  /** The hash code determines the character. */
  lemma HashInjective(c1: Char16, c2: Char16)
    requires GetHashCode(c1) == GetHashCode(c2)
    ensures c1 == c2
  {
  }
}

=== FILE: decimal.dfy ===
/** Decimal spelling of non-negative integers (.NET `long.ToString()` and
    `int.ToString()` with the invariant culture), used for array ranks,
    generic arities, interned ids and placeholder argument names. */
module Decimal {

  predicate IsDigit(c: char) {
    '0' <= c <= '9'
  }

  function DigitChar(d: nat): (c: char)
    requires d < 10
    ensures IsDigit(c)
  {
    ['0', '1', '2', '3', '4', '5', '6', '7', '8', '9'][d]
  }

  function DigitValue(c: char): (d: nat)
    requires IsDigit(c)
    ensures d < 10
  {
    (c as int - '0' as int) as nat
  }

  /** Shortest decimal spelling of `n`: digits only, no leading zero. */
  function NatToString(n: nat): (s: string)
    ensures |s| >= 1
    ensures forall i :: 0 <= i < |s| ==> IsDigit(s[i])
    ensures |s| > 1 ==> s[0] != '0'
    decreases n
  {
    if n < 10 then [DigitChar(n)] else NatToString(n / 10) + [DigitChar(n % 10)]
  }

  /** Reads a string of decimal digits back as a number. */
  function ParseDigits(s: string): (n: nat)
    requires forall i :: 0 <= i < |s| ==> IsDigit(s[i])
    decreases |s|
  {
    if |s| == 0 then 0 else 10 * ParseDigits(s[..|s| - 1]) + DigitValue(s[|s| - 1])
  }

  lemma DigitRoundTrip(d: nat)
    requires d < 10
    ensures DigitValue(DigitChar(d)) == d
  {
  }

  /** Reading the spelling back gives the number: the spelling is a faithful
      encoding. */
  lemma {:induction false} ParseOfNatToString(n: nat)
    ensures ParseDigits(NatToString(n)) == n
    decreases n
  {
    var s := NatToString(n);
    if n < 10 {
      DigitRoundTrip(n);
    } else {
      ParseOfNatToString(n / 10);
      DigitRoundTrip(n % 10);
      assert s[..|s| - 1] == NatToString(n / 10);
    }
  }

  /** Distinct numbers are spelled differently, so names that embed a
      number are distinct when the numbers are. */
  lemma NatToStringInjective(m: nat, n: nat)
    requires NatToString(m) == NatToString(n)
    ensures m == n
  {
    ParseOfNatToString(m);
    ParseOfNatToString(n);
  }
}

=== FILE: expr_writer.dfy ===
/** Expression and block framing of `CCodeWriterBase`: parenthesising a
    receiver that binds looser than a member access, choosing the access
    operator, and framing a statement as a block. */
module ExpressionWriter {
  import opened Outcomes
  import opened Symbols
  import opened Ir
  import opened Sink

  /** The expression kinds that must be parenthesised before a member
      access or a dereference: creations and operators. */
  predicate NeedsParentheses(e: Expression) {
    || e.node.ObjectCreationExpression?
    || e.node.ArrayCreation?
    || e.node.DelegateCreationExpression?
    || e.node.BinaryOperator?
    || e.node.UnaryOperator?
    || e.node.ConditionalOperator?
    || e.node.AssignmentOperator?
  }

  /** `ts` with one enclosing parenthesis pair removed, when it has one. */
  function StripParentheses(ts: seq<Token>): seq<Token> {
    if Enclosed(Parens, ts) then ts[1..|ts| - 1] else ts
  }

  /** `WriteExpressionInParenthesesIfNeeded`: the expression's own
      emission, inside one matched parenthesis pair exactly when it needs
      one. A null expression is an argument error. */
  function WriteExpressionInParenthesesIfNeeded(e: Option<Expression>): (r: Result<seq<Token>>)
    ensures r.Fail? <==> e.None?
    ensures r.Fail? ==> r.fault == ArgumentNull("expression")
    ensures r.Ok? ==> Balanced(Parens, r.value)
    ensures r.Ok? ==> (Enclosed(Parens, r.value) <==> NeedsParentheses(e.value))
    ensures r.Ok? ==> StripParentheses(r.value) == [WriteNode(Expr(e.value))]
  {
    if e.None? then Fail(ArgumentNull("expression"))
    else
      var inner := [WriteNode(Expr(e.value))];
      BalancedFree(Parens, inner);
      if NeedsParentheses(e.value) then
        BalancedWrap(Parens, TextSpan("("), inner, TextSpan(")"));
        Ok([TextSpan("(")] + inner + [TextSpan(")")])
      else
        FreeNotEnclosed(Parens, inner);
        Ok(inner)
  }

  /** The operator `WriteAccess` puts after its receiver: `::` for a base
      reference, `->` for any other reference, `.` for a value of struct or
      enum type and `->` for any other value. The type of a non-reference
      receiver is read, so a missing type is a null dereference. */
  function AccessOperator(e: Expression): Result<string> {
    if e.isReference then
      if e.node.BaseReference? then Ok("::") else Ok("->")
    else if e.exprType.None? then Fail(NullReference)
    else if Kind(e.exprType.value) == Struct || Kind(e.exprType.value) == Enum then Ok(".")
    else Ok("->")
  }

  /** `WriteAccess`: the receiver, parenthesised if needed, then the access
      operator. */
  function WriteAccess(e: Option<Expression>): (r: Result<seq<Token>>)
    ensures e.None? ==> r == Fail(ArgumentNull("expression"))
    ensures e.Some? ==> (r.Fail? <==> !e.value.isReference && e.value.exprType.None?)
    ensures e.Some? && r.Fail? ==> r.fault == NullReference
    ensures r.Ok? ==> |r.value| >= 2 && Balanced(Parens, r.value)
    ensures r.Ok? ==> StripParentheses(r.value[..|r.value| - 1]) == [WriteNode(Expr(e.value))]
    ensures r.Ok? ==> (Enclosed(Parens, r.value[..|r.value| - 1]) <==> NeedsParentheses(e.value))
    ensures r.Ok? ==> (r.value[|r.value| - 1] == TextSpan("::") <==> e.value.isReference && e.value.node.BaseReference?)
    ensures r.Ok? ==> (r.value[|r.value| - 1] == TextSpan(".") <==>
                        !e.value.isReference && Kind(e.value.exprType.value) in {Struct, Enum})
    ensures r.Ok? ==> r.value[|r.value| - 1] in {TextSpan("::"), TextSpan("->"), TextSpan(".")}
  {
    var receiver :- WriteExpressionInParenthesesIfNeeded(e);
    var op :- AccessOperator(e.value);
    var ts := receiver + [TextSpan(op)];
    assert ts[..|ts| - 1] == receiver;
    BalancedFree(Parens, [TextSpan(op)]);
    BalancedAppend(Parens, receiver, [TextSpan(op)]);
    Ok(ts)
  }

  /** The tokens end by closing a block without a new line, either as
      a closing marker or as a block node told to suppress its new line. */
  predicate EndsWithoutNewLine(ts: seq<Token>) {
    && |ts| >= 1
    && (|| ts[|ts| - 1].EndBlockWithoutNewLine?
        || (ts[|ts| - 1].WriteNode? && ts[|ts| - 1].node.Stat? && ts[|ts| - 1].node.stmt.Block?
            && ts[|ts| - 1].node.stmt.suppressNewLineAtEnd))
  }

  /** The tokens written for a node and the node as the writer leaves it:
      writing a block stores the new-line flag on the block itself, so the
      caller's node keeps it for every later write. */
  datatype BlockWritten = BlockWritten(tokens: seq<Token>, node: Node)

  /** `WriteBlockOrStatementsAsBlock`: a block is written by itself after
      being told whether to suppress its closing new line; any other node is
      framed by an opened block and its end. A null node is dereferenced. */
  function WriteBlockOrStatementsAsBlock(n: Option<Node>, noNewLineAtEnd: bool): (r: Result<BlockWritten>)
    ensures r.Fail? <==> n.None?
    ensures r.Fail? ==> r.fault == NullReference
    ensures r.Ok? ==> Balanced(Braces, r.value.tokens)
    ensures r.Ok? ==> (EndsWithoutNewLine(r.value.tokens) <==> noNewLineAtEnd)
    ensures r.Ok? && n.value.Stat? && n.value.stmt.Block? ==>
              && r.value.node == Stat(n.value.stmt.(suppressNewLineAtEnd := noNewLineAtEnd))
              && r.value.tokens == [WriteNode(r.value.node)]
    ensures r.Ok? && !(n.value.Stat? && n.value.stmt.Block?) ==>
              && r.value.node == n.value
              && Enclosed(Braces, r.value.tokens) && r.value.tokens[1..|r.value.tokens| - 1] == [WriteNode(n.value)]
  {
    if n.None? then Fail(NullReference)
    else if n.value.Stat? && n.value.stmt.Block? then
      var block := Stat(n.value.stmt.(suppressNewLineAtEnd := noNewLineAtEnd));
      var ts := [WriteNode(block)];
      BalancedFree(Braces, ts);
      Ok(BlockWritten(ts, block))
    else
      var inner := [WriteNode(n.value)];
      var close := if noNewLineAtEnd then EndBlockWithoutNewLine else EndBlock;
      BalancedFree(Braces, inner);
      BalancedWrap(Braces, OpenBlock, inner, close);
      var ts := [OpenBlock] + inner + [close];
      assert ts[1..|ts| - 1] == inner;
      Ok(BlockWritten(ts, n.value))
  }

  /** The flag a write leaves on a block is the one asked for: writing the
      node it leaves again with the same request writes the same tokens and
      leaves the node as it is, and a later write with the other request
      changes how the block ends. */
  lemma BlockWriteSettles(n: Node, noNewLineAtEnd: bool)
    ensures var r := WriteBlockOrStatementsAsBlock(Some(n), noNewLineAtEnd);
            && r.Ok?
            && WriteBlockOrStatementsAsBlock(Some(r.value.node), noNewLineAtEnd) == r
            && WriteBlockOrStatementsAsBlock(Some(r.value.node), !noNewLineAtEnd).value.tokens != r.value.tokens
  {
    var r := WriteBlockOrStatementsAsBlock(Some(n), noNewLineAtEnd);
    var again := WriteBlockOrStatementsAsBlock(Some(r.value.node), !noNewLineAtEnd);
    assert EndsWithoutNewLine(r.value.tokens) != EndsWithoutNewLine(again.value.tokens);
  }
}

=== FILE: foreach.dfy ===
/** The foreach recogniser (`ForEachIteratorStatement`): the lowered
    `foreach` arrives as a statement list — initialisation statements,
    `goto`s, then a try statement whose try block holds the loop. `Parse`
    runs a small stage machine over that list, and `WriteTo` prints the
    result as one C++ block. */
module ForEach {
  import opened Outcomes
  import opened Ir
  import opened Sink

  /** `Stages`. `End` is declared but never entered. */
  datatype Stage = Initialization | TryBody | End

  /** The recognised statement: the declarations of the loop's locals, the
      merged initialisation, and the try statement around the loop. */
  datatype ForEachStatement = ForEachStatement(locals: seq<Stmt>, initialization: Option<Stmt>, tryStatement: Option<Stmt>)

  /** The state `Parse` carries from statement to statement. */
  datatype Machine = Machine(stage: Stage, initialization: Option<Stmt>, tryStatement: Option<Stmt>)

  const Start: Machine := Machine(Initialization, None, None)

  // ---------------------------------------------------------------------
  // Locals
  // ---------------------------------------------------------------------

  /** `ParseLocals`: one declaration per local, in order. */
  function Declarations(names: seq<string>): (r: seq<Stmt>)
    ensures |r| == |names|
    ensures forall i :: 0 <= i < |r| ==> r[i] == LocalDeclaration(names[i])
  {
    seq(|names|, i requires 0 <= i < |names| => LocalDeclaration(names[i]))
  }

  /** The declarations of the locals of every block directly in `bs`, in
      order. */
  function BlockLocals(bs: seq<BoundStmt>): seq<Stmt>
    decreases |bs|
  {
    if |bs| == 0 then []
    else
      var last := bs[|bs| - 1];
      BlockLocals(bs[..|bs| - 1]) + (if last.BoundBlock? then Declarations(last.locals) else [])
  }

  /** Locals are collected piecewise: those of a concatenation are those of
      each part, in order; a block contributes its own, anything else none. */
  lemma {:induction false} BlockLocalsAppend(a: seq<BoundStmt>, b: seq<BoundStmt>)
    ensures BlockLocals(a + b) == BlockLocals(a) + BlockLocals(b)
    decreases |b|
  {
    if |b| == 0 {
      assert a + b == a;
    } else {
      assert (a + b)[..|a + b| - 1] == a + b[..|b| - 1];
      BlockLocalsAppend(a, b[..|b| - 1]);
    }
  }

  lemma BlockLocalsOfOne(s: BoundStmt)
    ensures BlockLocals([s]) == if s.BoundBlock? then Declarations(s.locals) else []
  {
    assert [s][..0] == [];
  }

  // ---------------------------------------------------------------------
  // The stage machine
  // ---------------------------------------------------------------------

  /** The rejection guard: the last statement is a block but not every
      statement before it is one (a multi-dimensional array loop, which the
      caller lowers differently). */
  predicate Rejects(bs: seq<BoundStmt>)
    requires |bs| > 0
  {
    bs[|bs| - 1].BoundBlock? && !(forall i :: 0 <= i < |bs| - 1 ==> bs[i].BoundBlock?)
  }

  /** `MergeOrSet`: the first statement is kept as is; a second one turns it
      into a block of both; later ones are appended to that block. */
  function MergeOrSet(current: Option<Stmt>, s: Stmt): Stmt {
    match current
    case None => s
    case Some(Block(ss, f)) => Block(ss + [s], f)
    case Some(c) => Block([c, s], false)
  }

  /** The statement lists directly in a try block. */
  function StatementLists(bs: seq<BoundStmt>): (r: seq<BoundStmt>)
    ensures forall i :: 0 <= i < |r| ==> r[i].BoundStatementList? && r[i] in bs
    ensures |r| == 0 <==> forall i :: 0 <= i < |bs| ==> !bs[i].BoundStatementList?
    ensures |bs| > 0 && bs[0].BoundStatementList? ==> |r| > 0 && r[0] == bs[0]
    ensures |bs| > 0 && !bs[0].BoundStatementList? ==> r == StatementLists(bs[1..])
  {
    if |bs| == 0 then []
    else if bs[0].BoundStatementList? then [bs[0]] + StatementLists(bs[1..])
    else
      var r := StatementLists(bs[1..]);
      assert forall i :: 1 <= i < |bs| ==> bs[i] == bs[1..][i - 1];
      r
  }

  /** The try statement built from a bound try: its try block is the loop
      parsed from the first statement list of the bound try block, its
      finally block the lowered bound finally block, when there is one.
      `First` on a try block without a statement list throws. */
  function TryFrom(t: BoundStmt): (r: Result<Stmt>)
    requires t.BoundTry?
    ensures r.Fail? <==> forall i :: 0 <= i < |t.tryBlock| ==> !t.tryBlock[i].BoundStatementList?
    ensures r.Fail? ==> r.fault == InvalidOperation
    ensures r.Ok? ==> r.value.TryStatement? && r.value.tryBlock.WhileStatement?
    ensures r.Ok? ==> exists i :: 0 <= i < |t.tryBlock| && r.value.tryBlock.source == t.tryBlock[i]
                                  && t.tryBlock[i].BoundStatementList?
                                  && forall j :: 0 <= j < i ==> !t.tryBlock[j].BoundStatementList?
    ensures r.Ok? ==> (r.value.finallyBlockOpt.Some? <==> t.finallyBlockOpt.Some?)
    ensures r.Ok? && t.finallyBlockOpt.Some? ==> r.value.finallyBlockOpt == Some(Lowered(t.finallyBlockOpt.value))
  {
    var lists := StatementLists(t.tryBlock);
    if |lists| == 0 then Fail(InvalidOperation)
    else
      FirstStatementList(t.tryBlock);
      Ok(TryStatement(WhileStatement(lists[0]),
                      if t.finallyBlockOpt.Some? then Some(Lowered(t.finallyBlockOpt.value)) else None))
  }

  lemma {:induction false} FirstStatementList(bs: seq<BoundStmt>)
    requires |StatementLists(bs)| > 0
    ensures exists i :: 0 <= i < |bs| && StatementLists(bs)[0] == bs[i] && bs[i].BoundStatementList?
                        && forall j :: 0 <= j < i ==> !bs[j].BoundStatementList?
  {
    if bs[0].BoundStatementList? {
      assert StatementLists(bs)[0] == bs[0];
    } else {
      FirstStatementList(bs[1..]);
      var i :| 0 <= i < |bs[1..]| && StatementLists(bs[1..])[0] == bs[1..][i] && bs[1..][i].BoundStatementList?
                && forall j :: 0 <= j < i ==> !bs[1..][j].BoundStatementList?;
      assert StatementLists(bs)[0] == bs[i + 1];
      forall j | 0 <= j < i + 1
        ensures !bs[j].BoundStatementList?
      {
        if j > 0 {
          assert bs[j] == bs[1..][j - 1];
        }
      }
    }
  }

  /** One turn of the loop in `Parse`. In Initialization a try moves the
      machine to TryBody and a `goto` is skipped; any other statement is
      lowered and merged into the initialisation. In TryBody the bound try
      is only known on the turn that saw it, so any later statement
      dereferences null. */
  function Step(m: Machine, b: BoundStmt): (r: Result<Machine>)
    ensures m.stage == Initialization && b.BoundGoto? ==> r == Ok(m)
    ensures m.stage == Initialization && b.BoundTry? ==>
              r.Ok? == TryFrom(b).Ok?
              && (r.Ok? ==> r.value == Machine(TryBody, m.initialization, Some(TryFrom(b).value)))
    ensures m.stage == Initialization && !b.BoundGoto? && !b.BoundTry? ==>
              r == Ok(m.(initialization := Some(MergeOrSet(m.initialization, Lowered(b)))))
    ensures m.stage == TryBody ==> r == Fail(NullReference)
    ensures m.stage != End && r.Ok? ==> r.value.stage != End
  {
    var boundTry := if m.stage == Initialization && b.BoundTry? then Some(b) else None;
    var stage := if boundTry.Some? then TryBody else m.stage;
    if m.stage == Initialization && boundTry.None? && b.BoundGoto? then Ok(m)
    else
      match stage
      case Initialization => Ok(m.(initialization := Some(MergeOrSet(m.initialization, Lowered(b)))))
      case TryBody =>
        if boundTry.None? then Fail(NullReference)
        else
          var t :- TryFrom(boundTry.value);
          Ok(Machine(TryBody, m.initialization, Some(t)))
      case End => Fail(ArgumentOutOfRange(""))
  }

  /** The machine after every statement of `bs`, from `Start`. */
  function Run(bs: seq<BoundStmt>): Result<Machine>
    decreases |bs|
  {
    if |bs| == 0 then Ok(Start)
    else
      var m :- Run(bs[..|bs| - 1]);
      Step(m, bs[|bs| - 1])
  }

  /** `Parse`: the locals of the direct blocks, then the rejection guard,
      then the stage machine over the statements. `Last` on an empty list
      throws. Returns whether the list was recognised, and the statement. */
  function Parse(list: Option<seq<BoundStmt>>): (r: Result<(bool, ForEachStatement)>)
    ensures list.None? ==> r == Fail(ArgumentNull(""))
    ensures list.Some? && |list.value| == 0 ==> r == Fail(InvalidOperation)
    ensures list.Some? && |list.value| > 0 ==> (r.Ok? && !r.value.0 <==> Rejects(list.value))
    ensures r.Ok? ==> r.value.1.locals == BlockLocals(list.value)
    ensures r.Ok? && !r.value.0 ==> r.value.1.initialization.None? && r.value.1.tryStatement.None?
  {
    if list.None? then Fail(ArgumentNull(""))
    else
      var bs := list.value;
      var locals := BlockLocals(bs);
      if |bs| == 0 then Fail(InvalidOperation)
      else if Rejects(bs) then Ok((false, ForEachStatement(locals, None, None)))
      else
        var m :- Run(bs);
        Ok((true, ForEachStatement(locals, m.initialization, m.tryStatement)))
  }

  // ---------------------------------------------------------------------
  // What the stage machine computes
  // ---------------------------------------------------------------------

  /** The position of the first try statement, if any. */
  function FirstTry(bs: seq<BoundStmt>): (r: Option<nat>)
    ensures r.None? <==> forall i :: 0 <= i < |bs| ==> !bs[i].BoundTry?
    ensures r.Some? ==> r.value < |bs| && bs[r.value].BoundTry?
                        && forall j :: 0 <= j < r.value ==> !bs[j].BoundTry?
  {
    if |bs| == 0 then None
    else if bs[0].BoundTry? then Some(0)
    else
      var rest := FirstTry(bs[1..]);
      assert forall i :: 1 <= i < |bs| ==> bs[i] == bs[1..][i - 1];
      if rest.None? then None else Some(rest.value + 1)
  }

  /** The lowered statements of `bs` that are not `goto`s, in order. */
  function InitialItems(bs: seq<BoundStmt>): (r: seq<Stmt>)
    ensures forall i :: 0 <= i < |r| ==> r[i].Lowered? && !r[i].source.BoundGoto?
    decreases |bs|
  {
    if |bs| == 0 then []
    else InitialItems(bs[..|bs| - 1]) + (if bs[|bs| - 1].BoundGoto? then [] else [Lowered(bs[|bs| - 1])])
  }

  /** Every item merged in order, from nothing. */
  function MergeAll(items: seq<Stmt>): Option<Stmt>
    decreases |items|
  {
    if |items| == 0 then None else Some(MergeOrSet(MergeAll(items[..|items| - 1]), items[|items| - 1]))
  }

  /** Merging statements that are not blocks gives nothing, the one
      statement itself, or a block of all of them in order. */
  lemma {:induction false} MergedInitialization(items: seq<Stmt>)
    requires forall i :: 0 <= i < |items| ==> !items[i].Block?
    ensures MergeAll(items) == if |items| == 0 then None
                               else if |items| == 1 then Some(items[0])
                               else Some(Block(items, false))
    decreases |items|
  {
    if |items| >= 2 {
      var init := items[..|items| - 1];
      MergedInitialization(init);
      if |items| == 2 {
        assert init == [items[0]];
        assert [items[0], items[1]] == items;
      } else {
        assert init + [items[|items| - 1]] == items;
      }
    }
  }

  /** The reference definition of what `Run` computes: without a try, the
      initialisation merged from the non-`goto` statements; with one, the
      same over the statements before the first try, which must then be the
      last statement. */
  function Expected(bs: seq<BoundStmt>): Result<Machine> {
    match FirstTry(bs)
    case None => Ok(Machine(Initialization, MergeAll(InitialItems(bs)), None))
    case Some(k) =>
      var t :- TryFrom(bs[k]);
      if k < |bs| - 1 then Fail(NullReference)
      else Ok(Machine(TryBody, MergeAll(InitialItems(bs[..k])), Some(t)))
  }

  lemma {:induction false} RunWithoutTry(bs: seq<BoundStmt>)
    requires forall i :: 0 <= i < |bs| ==> !bs[i].BoundTry?
    ensures Run(bs) == Ok(Machine(Initialization, MergeAll(InitialItems(bs)), None))
    decreases |bs|
  {
    if |bs| > 0 {
      var init := bs[..|bs| - 1];
      RunWithoutTry(init);
      var last := bs[|bs| - 1];
      var m := Run(init).value;
      assert Run(bs) == Step(m, last);
      if !last.BoundGoto? {
        var items := InitialItems(init) + [Lowered(last)];
        assert InitialItems(bs) == items;
        assert items[..|items| - 1] == InitialItems(init);
        assert MergeAll(items) == Some(MergeOrSet(MergeAll(InitialItems(init)), Lowered(last)));
      } else {
        assert InitialItems(bs) == InitialItems(init) + [] == InitialItems(init);
        assert Run(bs) == Ok(m);
      }
    }
  }

  /** After TryBody is entered, every further statement fails. */
  lemma {:induction false} RunAfterTry(pre: seq<BoundStmt>, post: seq<BoundStmt>)
    requires Run(pre).Ok? && Run(pre).value.stage == TryBody
    requires |post| > 0
    ensures Run(pre + post) == Fail(NullReference)
    decreases |post|
  {
    var bs := pre + post;
    var init := pre + post[..|post| - 1];
    assert bs[..|bs| - 1] == init;
    assert bs[|bs| - 1] == post[|post| - 1];
    RunLast(bs);
    if |post| > 1 {
      RunAfterTry(pre, post[..|post| - 1]);
    } else {
      assert init == pre;
    }
  }

  /** The last statement of a non-empty list is one step after the rest. */
  lemma RunLast(bs: seq<BoundStmt>)
    requires |bs| > 0
    ensures var r := Run(bs[..|bs| - 1]);
            Run(bs) == if r.Ok? then Step(r.value, bs[|bs| - 1]) else Fail(r.fault)
  {
  }

  /** Up to and including the first try, the machine merges what precedes
      it and then builds the try statement from it. */
  lemma RunThroughFirstTry(bs: seq<BoundStmt>, k: nat)
    requires k < |bs| && FirstTry(bs) == Some(k)
    ensures Run(bs[..k + 1]).Ok? == TryFrom(bs[k]).Ok?
    ensures Run(bs[..k + 1]).Ok? ==>
              Run(bs[..k + 1]).value == Machine(TryBody, MergeAll(InitialItems(bs[..k])), Some(TryFrom(bs[k]).value))
    ensures Run(bs[..k + 1]).Fail? ==> Run(bs[..k + 1]) == Fail(InvalidOperation)
  {
    var pre := bs[..k];
    forall i | 0 <= i < |pre|
      ensures !pre[i].BoundTry?
    {
      assert pre[i] == bs[i];
    }
    RunWithoutTry(pre);
    var m := Machine(Initialization, MergeAll(InitialItems(pre)), None);
    var upTo := bs[..k + 1];
    assert upTo[..|upTo| - 1] == pre;
    assert upTo[|upTo| - 1] == bs[k];
    assert Run(upTo) == Step(m, bs[k]);
  }

  /** `Run` agrees with the reference definition on every list. */
  lemma RunIsExpected(bs: seq<BoundStmt>)
    ensures Run(bs) == Expected(bs)
  {
    match FirstTry(bs)
    case None =>
      RunWithoutTry(bs);
    case Some(k) =>
      RunThroughFirstTry(bs, k);
      var upTo := bs[..k + 1];
      if k < |bs| - 1 {
        assert bs == upTo + bs[k + 1..];
        if TryFrom(bs[k]).Ok? {
          RunAfterTry(upTo, bs[k + 1..]);
        } else {
          RunFailurePersists(upTo, bs[k + 1..]);
        }
      } else {
        assert upTo == bs;
      }
  }

  /** A failure is final: no later statement undoes it. */
  lemma {:induction false} RunFailurePersists(pre: seq<BoundStmt>, post: seq<BoundStmt>)
    requires Run(pre).Fail?
    ensures Run(pre + post) == Run(pre)
    decreases |post|
  {
    if |post| == 0 {
      assert pre + post == pre;
    } else {
      var bs := pre + post;
      assert bs[..|bs| - 1] == pre + post[..|post| - 1];
      RunFailurePersists(pre, post[..|post| - 1]);
      RunLast(bs);
    }
  }

  /** The stage never goes back and never reaches End: a recognised loop
      ends in TryBody exactly when it holds a try statement. */
  lemma StagesOnlyAdvance(bs: seq<BoundStmt>)
    ensures Run(bs).Ok? ==> Run(bs).value.stage != End
    ensures Run(bs).Ok? ==> (Run(bs).value.stage == TryBody <==> exists i :: 0 <= i < |bs| && bs[i].BoundTry?)
    ensures Run(bs).Ok? ==> (Run(bs).value.tryStatement.Some? <==> Run(bs).value.stage == TryBody)
  {
    RunIsExpected(bs);
  }

  /** A recognised list has its first try as its last statement, or none;
      its initialisation is merged from the non-`goto` statements before
      the try, and its try statement is built from that try. */
  lemma ParseAccepted(bs: seq<BoundStmt>)
    requires |bs| > 0 && !Rejects(bs)
    ensures var r := Parse(Some(bs));
            && (r.Ok? <==> Expected(bs).Ok?)
            && (r.Ok? ==> r.value.0
                          && r.value.1.initialization == Expected(bs).value.initialization
                          && r.value.1.tryStatement == Expected(bs).value.tryStatement)
  {
    RunIsExpected(bs);
  }

  // ---------------------------------------------------------------------
  // Emission
  // ---------------------------------------------------------------------

  /** The items of a block initialisation, each printed as an expression,
      separated by `, `. */
  function JoinItems(ss: seq<Stmt>): (r: seq<Token>)
    ensures |r| == if |ss| == 0 then 0 else 3 * |ss| - 2
    ensures forall i :: 0 <= i < |ss| ==> r[3 * i] == StatementAsExpression(Some(ss[i]))
    ensures forall i :: 0 <= i < |ss| - 1 ==> r[3 * i + 1] == TextSpan(",") && r[3 * i + 2] == WhiteSpace
    decreases |ss|
  {
    if |ss| == 0 then []
    else if |ss| == 1 then [StatementAsExpression(Some(ss[0]))]
    else
      var init := JoinItems(ss[..|ss| - 1]);
      assert forall i :: 0 <= i < |ss| - 1 ==> ss[..|ss| - 1][i] == ss[i];
      init + [TextSpan(","), WhiteSpace, StatementAsExpression(Some(ss[|ss| - 1]))]
  }

  /** The initialisation: a block's items joined, anything else printed as
      one expression. */
  function InitializerTokens(init: Option<Stmt>): seq<Token> {
    if init.Some? && init.value.Block? then JoinItems(init.value.statements) else [StatementAsExpression(init)]
  }

  /** Tokens that open or close nothing. */
  predicate Plain(t: Token) {
    t.WriteNode? || t.StatementAsExpression? || t == TextSpan(",") || t.WhiteSpace?
  }

  lemma InitializerPlain(init: Option<Stmt>)
    ensures forall i :: 0 <= i < |InitializerTokens(init)| ==> Plain(InitializerTokens(init)[i])
  {
    if init.Some? && init.value.Block? {
      var ss := init.value.statements;
      var r := JoinItems(ss);
      forall i | 0 <= i < |r|
        ensures Plain(r[i])
      {
        var q := i / 3;
        if i % 3 == 0 {
          assert r[3 * q] == StatementAsExpression(Some(ss[q]));
        } else if i % 3 == 1 {
          assert q < |ss| - 1;
          assert r[3 * q + 1] == TextSpan(",");
        } else {
          assert q < |ss| - 1;
          assert r[3 * q + 2] == WhiteSpace;
        }
      }
    }
  }

  /** The body of the block `WriteTo` opens: the locals' declarations, the
      initialisation and the try statement. */
  function BlockBody(locals: seq<Stmt>, init: Option<Stmt>, tryStatement: Stmt): (r: seq<Token>)
    ensures |r| == |locals| + |InitializerTokens(init)| + 1
    ensures forall i :: 0 <= i < |locals| ==> r[i] == WriteNode(Stat(locals[i]))
    ensures r[|locals|..|r| - 1] == InitializerTokens(init)
    ensures r[|r| - 1] == WriteNode(Stat(tryStatement))
    ensures forall i :: 0 <= i < |r| ==> Plain(r[i])
  {
    var ls := seq(|locals|, i requires 0 <= i < |locals| => WriteNode(Stat(locals[i])));
    var it := InitializerTokens(init);
    var r := ls + it + [WriteNode(Stat(tryStatement))];
    InitializerPlain(init);
    assert forall i :: |ls| <= i < |ls| + |it| ==> r[i] == it[i - |ls|];
    assert r[|locals|..|r| - 1] == it;
    r
  }

  /** `WriteTo`: an opened block holding the locals' declarations, the
      initialisation and the try statement, closed and then separated —
      no statement terminator. A missing try statement is dereferenced. */
  function WriteTo(fe: ForEachStatement): (r: Result<seq<Token>>)
    ensures r.Fail? <==> fe.tryStatement.None?
    ensures r.Fail? ==> r.fault == NullReference
    ensures r.Ok? ==> |r.value| == 1 + |fe.locals| + |InitializerTokens(fe.initialization)| + 3
    ensures r.Ok? ==> r.value[0] == OpenBlock && r.value[|r.value| - 2] == EndBlock && r.value[|r.value| - 1] == Separate
    ensures r.Ok? ==> Enclosed(Braces, r.value[..|r.value| - 1]) && Balanced(Braces, r.value)
    ensures r.Ok? ==> r.value[1..|r.value| - 2] == BlockBody(fe.locals, fe.initialization, fe.tryStatement.value)
    ensures r.Ok? ==> EndStatement !in r.value
  {
    if fe.tryStatement.None? then Fail(NullReference)
    else
      var inner := BlockBody(fe.locals, fe.initialization, fe.tryStatement.value);
      Framed(inner);
      Ok([OpenBlock] + inner + [EndBlock] + [Separate])
  }

  /** A body of plain tokens, framed as `WriteTo` frames it. */
  lemma Framed(inner: seq<Token>)
    requires forall i :: 0 <= i < |inner| ==> Plain(inner[i])
    ensures var ts := [OpenBlock] + inner + [EndBlock] + [Separate];
            && Enclosed(Braces, ts[..|ts| - 1]) && Balanced(Braces, ts)
            && ts[1..|ts| - 2] == inner
            && EndStatement !in ts
  {
    BalancedFree(Braces, inner);
    BalancedWrap(Braces, OpenBlock, inner, EndBlock);
    var body := [OpenBlock] + inner + [EndBlock];
    var ts := body + [Separate];
    assert ts[..|ts| - 1] == body;
    assert ts[1..|ts| - 2] == inner;
    BalancedFree(Braces, [Separate]);
    BalancedAppend(Braces, body, [Separate]);
    forall i | 0 <= i < |ts|
      ensures ts[i] != EndStatement
    {
      if 1 <= i < |ts| - 2 {
        assert ts[i] == inner[i - 1];
      }
    }
  }

  /** A recognised loop is printable exactly when its list holds a try
      statement. */
  lemma WriteAfterParse(bs: seq<BoundStmt>)
    requires Parse(Some(bs)).Ok? && Parse(Some(bs)).value.0
    ensures WriteTo(Parse(Some(bs)).value.1).Ok? <==> exists i :: 0 <= i < |bs| && bs[i].BoundTry?
  {
    StagesOnlyAdvance(bs);
  }
}

=== FILE: interning.dfy ===
/** The string-interning registry behind `CCodeWriterBase.GetId(string)`:
    each distinct string gets a positive id, assigned in the order the
    strings are first seen. The source keeps it in a process-wide dictionary
    under a lock; here it is a value threaded through the writers. */
module Interning {
  import opened Seqs

  datatype Registry = Registry(ids: map<string, nat>)

  const Empty: Registry := Registry(map[])

  /** The id `GetId` returned and the registry after the call. */
  datatype Interned = Interned(id: nat, reg: Registry)

  /** Ids are positive, at most the number of strings, and never shared. */
  predicate Valid(r: Registry) {
    && (forall s :: s in r.ids ==> 1 <= r.ids[s] <= |r.ids|)
    && (forall s, t :: s in r.ids && t in r.ids && r.ids[s] == r.ids[t] ==> s == t)
  }

  /** `r2` keeps every id `r1` handed out. */
  predicate Extends(r1: Registry, r2: Registry) {
    forall s :: s in r1.ids ==> s in r2.ids && r2.ids[s] == r1.ids[s]
  }

  /** `GetId(string)`: the stored id of a known string, otherwise the next
      id, `Count + 1`, recorded for it. */
  function GetId(r: Registry, s: string): (res: Interned)
    ensures s in res.reg.ids && res.reg.ids[s] == res.id
    ensures res.reg.ids.Keys == r.ids.Keys + {s}
    ensures Extends(r, res.reg)
    ensures s !in r.ids ==> res.id == |r.ids| + 1
    ensures |res.reg.ids| == if s in r.ids then |r.ids| else |r.ids| + 1
    ensures Valid(r) ==> Valid(res.reg)
  {
    if s in r.ids then Interned(r.ids[s], r)
    else
      var id := |r.ids| + 1;
      Interned(id, Registry(r.ids[s := id]))
  }

  /** Asking twice for the same string gives the same id and leaves the
      registry as the first call left it. */
  lemma GetIdIdempotent(r: Registry, s: string)
    ensures GetId(GetId(r, s).reg, s) == GetId(r, s)
  {
  }

  /** The registry after interning `xs` in order, starting from `r`. */
  function InternAll(r: Registry, xs: seq<string>): Registry
    decreases |xs|
  {
    if |xs| == 0 then r else GetId(InternAll(r, xs[..|xs| - 1]), xs[|xs| - 1]).reg
  }

  lemma IndexOfAppend(d: seq<string>, x: string, s: string)
    requires s in d
    ensures IndexOf(d + [x], s) == IndexOf(d, s)
  {
    var i := IndexOf(d, s);
    var j := IndexOf(d + [x], s);
    assert (d + [x])[i] == s;
    assert j <= i;
    assert d[j] == s;
  }

  /** Ids of `r` are exactly those of the strings of `xs`, numbered by first
      appearance. */
  ghost predicate NumberedInFirstSeenOrder(r: Registry, xs: seq<string>) {
    && (forall s :: s in r.ids <==> s in xs)
    && |r.ids| == |Dedup(xs)|
    && (forall s :: s in r.ids ==> r.ids[s] == 1 + IndexOf(Dedup(xs), s))
  }

  /** Interning a string already seen changes neither the registry nor
      the distinct strings. */
  lemma FirstSeenKnown(r: Registry, xs: seq<string>, x: string)
    requires NumberedInFirstSeenOrder(r, xs) && x in xs
    ensures NumberedInFirstSeenOrder(GetId(r, x).reg, xs + [x])
  {
    assert GetId(r, x).reg == r;
    DedupSnoc(xs, x);
    forall s
      ensures s in r.ids <==> s in xs + [x]
    {
      assert s in xs + [x] <==> s in xs || s == x;
    }
  }

  /** The next id numbers a new string by its position after the distinct
      strings seen so far. */
  lemma AppendedIds(ids: map<string, nat>, d: seq<string>, x: string)
    requires x !in d && |ids| == |d|
    requires forall s :: s in ids ==> s in d && ids[s] == 1 + IndexOf(d, s)
    ensures forall s :: s in ids[x := |ids| + 1] ==> ids[x := |ids| + 1][s] == 1 + IndexOf(d + [x], s)
  {
    var ids2 := ids[x := |ids| + 1];
    forall s | s in ids2
      ensures ids2[s] == 1 + IndexOf(d + [x], s)
    {
      if s == x {
        assert (d + [x])[|d|] == x;
        assert IndexOf(d + [x], x) == |d|;
      } else {
        IndexOfAppend(d, x, s);
      }
    }
  }

  /** Interning a new string appends it to the distinct strings with the
      next id. */
  lemma FirstSeenNew(r: Registry, xs: seq<string>, x: string)
    requires NumberedInFirstSeenOrder(r, xs) && x !in xs
    ensures NumberedInFirstSeenOrder(GetId(r, x).reg, xs + [x])
  {
    NewKeys(r, xs, x);
    DedupSnoc(xs, x);
    assert x !in Dedup(xs) && x !in r.ids;
    NewNumbers(r, Dedup(xs), x);
  }

  /** The new string joins the interned ones. */
  lemma NewKeys(r: Registry, xs: seq<string>, x: string)
    requires NumberedInFirstSeenOrder(r, xs) && x !in xs
    ensures forall s :: s in GetId(r, x).reg.ids <==> s in xs + [x]
  {
    forall s
      ensures s in GetId(r, x).reg.ids <==> s in xs + [x]
    {
      assert s in xs + [x] <==> s in xs || s == x;
    }
  }

  /** Old ids keep their positions and the new string takes the next one. */
  lemma NewNumbers(r: Registry, d: seq<string>, x: string)
    requires x !in d && x !in r.ids && |r.ids| == |d|
    requires forall s :: s in r.ids ==> s in d && r.ids[s] == 1 + IndexOf(d, s)
    ensures forall s :: s in GetId(r, x).reg.ids ==> GetId(r, x).reg.ids[s] == 1 + IndexOf(d + [x], s)
  {
    AppendedIds(r.ids, d, x);
    assert GetId(r, x).reg.ids == r.ids[x := |r.ids| + 1];
  }

  lemma FirstSeenStep(r: Registry, xs: seq<string>, x: string)
    requires NumberedInFirstSeenOrder(r, xs)
    ensures NumberedInFirstSeenOrder(GetId(r, x).reg, xs + [x])
  {
    if x in xs {
      FirstSeenKnown(r, xs, x);
    } else {
      FirstSeenNew(r, xs, x);
    }
  }

  /** Ids run contiguously from 1 in first-seen order: starting from the
      empty registry, the id of every string interned is one more than its
      position among the distinct strings in the order they first appeared. */
  lemma {:induction false} InternAllFirstSeen(xs: seq<string>)
    ensures NumberedInFirstSeenOrder(InternAll(Empty, xs), xs)
    decreases |xs|
  {
    if |xs| > 0 {
      var init := xs[..|xs| - 1];
      assert xs == init + [xs[|xs| - 1]];
      InternAllFirstSeen(init);
      FirstSeenStep(InternAll(Empty, init), init, xs[|xs| - 1]);
    }
  }

  /** Ids read back from the registry after interning `xs` identify the
      strings: equal ids, equal strings. */
  lemma IdsIdentifyStrings(xs: seq<string>, i: nat, j: nat)
    requires i < |xs| && j < |xs|
    requires NumberedInFirstSeenOrder(InternAll(Empty, xs), xs)
    requires IndexOf(Dedup(xs), xs[i]) == IndexOf(Dedup(xs), xs[j])
    ensures xs[i] == xs[j]
  {
  }

  /** Ids read back for every entry of `xs` after interning all of them. */
  lemma IdsFromRegistry(xs: seq<string>, ids: seq<nat>)
    requires |ids| == |xs|
    requires forall i :: 0 <= i < |xs| ==> xs[i] in InternAll(Empty, xs).ids && ids[i] == InternAll(Empty, xs).ids[xs[i]]
    ensures forall i :: 0 <= i < |xs| ==> ids[i] == 1 + IndexOf(Dedup(xs), xs[i])
    ensures forall i, j :: 0 <= i < |xs| && 0 <= j < |xs| ==> (ids[i] == ids[j] <==> xs[i] == xs[j])
  {
    InternAllFirstSeen(xs);
    forall i, j | 0 <= i < |xs| && 0 <= j < |xs| && ids[i] == ids[j]
      ensures xs[i] == xs[j]
    {
      IdsIdentifyStrings(xs, i, j);
    }
  }

  /** One more string interned keeps every earlier string's id and records
      the new one's. */
  lemma InternStep(xs: seq<string>, k: nat, ids: seq<nat>, reg: Registry)
    requires k < |xs| && |ids| == k
    requires reg == InternAll(Empty, xs[..k])
    requires forall i :: 0 <= i < k ==> xs[i] in reg.ids && ids[i] == reg.ids[xs[i]]
    ensures var res := GetId(reg, xs[k]);
            && res.reg == InternAll(Empty, xs[..k + 1])
            && forall i :: 0 <= i < k + 1 ==> xs[i] in res.reg.ids && (ids + [res.id])[i] == res.reg.ids[xs[i]]
  {
    assert xs[..k + 1][..k] == xs[..k];
    var res := GetId(reg, xs[k]);
    forall i | 0 <= i < k + 1
      ensures xs[i] in res.reg.ids && (ids + [res.id])[i] == res.reg.ids[xs[i]]
    {
      if i < k {
        assert (ids + [res.id])[i] == ids[i];
      }
    }
  }

  /** Interning a list of strings one after the other, as the driver does;
      `ids[i]` is the id returned for `xs[i]`. */
  method GetIds(xs: seq<string>) returns (ids: seq<nat>, reg: Registry)
    ensures |ids| == |xs|
    ensures forall i :: 0 <= i < |xs| ==> ids[i] == 1 + IndexOf(Dedup(xs), xs[i])
    ensures forall i, j :: 0 <= i < |xs| && 0 <= j < |xs| ==> (ids[i] == ids[j] <==> xs[i] == xs[j])
    ensures reg == InternAll(Empty, xs)
  {
    ids := [];
    reg := Empty;
    var k := 0;
    while k < |xs|
      invariant 0 <= k <= |xs|
      invariant |ids| == k
      invariant reg == InternAll(Empty, xs[..k])
      invariant forall i :: 0 <= i < k ==> xs[i] in reg.ids && ids[i] == reg.ids[xs[i]]
    {
      var res := GetId(reg, xs[k]);
      InternStep(xs, k, ids, reg);
      ids := ids + [res.id];
      reg := res.reg;
      k := k + 1;
    }
    assert xs[..k] == xs;
    IdsFromRegistry(xs, ids);
  }
}

=== FILE: ir.dfy ===
/** The lowered node model (the code generator's DOM) and the bound
    statements of the front end it is lowered from, restricted to the node
    kinds the modelled core builds, inspects or emits. */
module Ir {
  import opened Outcomes
  import opened Symbols

  /** Bound statements as the front end delivers them. */
  datatype BoundStmt =
    | BoundBlock(locals: seq<string>, statements: seq<BoundStmt>)
      /** `tryBlock` holds the statements of the try block. */
    | BoundTry(tryBlock: seq<BoundStmt>, finallyBlockOpt: Option<BoundStmt>)
    | BoundGoto(target: string)
    | BoundStatementList(statements: seq<BoundStmt>)
    | BoundOther(tag: string)

  /** An expression node: its kind and children, with the `Type` and
      `IsReference` computed when it was lowered (`Type` may be left null by
      the synthesizer). */
  datatype Expression = Expression(node: ExprNode, exprType: Option<TypeSym>, isReference: bool)

  datatype ExprNode =
    | ThisReference
    | BaseReference
    | FieldAccess(receiverOpt: Option<Expression>, field: string)
    | Parameter(parameterName: string)
    | AssignmentOperator(left: Expression, right: Expression)
    | ObjectCreationExpression(arguments: seq<Expression>)
    | ArrayCreation
    | DelegateCreationExpression
    | BinaryOperator
    | UnaryOperator
    | ConditionalOperator
    | PointerIndirectionOperator(operand: Option<Expression>)
      /** Any other expression kind; `tag` names it. */
    | OtherExpression(tag: string)

  /** A statement node. `Lowered(b)` is whatever the generic lowering
      (`Deserialize`) makes of `b` and `WhileStatement(b)` the loop that
      `WhileStatement.Parse` builds from `b`; both lie outside the model. */
  datatype Stmt =
    | Block(statements: seq<Stmt>, suppressNewLineAtEnd: bool)
    | ExpressionStatement(expression: Expression)
    | LocalDeclaration(local: string)
    | WhileStatement(source: BoundStmt)
    | TryStatement(tryBlock: Stmt, finallyBlockOpt: Option<Stmt>)
    | Lowered(source: BoundStmt)

  /** Any node (`Base`). */
  datatype Node = Expr(expr: Expression) | Stat(stmt: Stmt)
}

=== FILE: method_writer.dfy ===
/** Method spelling of `CCodeWriterBase`: mangled method names (ref/out
    suffixes, conversion-operator suffixes, `T<arity>` for virtual generic
    methods), parameter lists, return types, declaration suffixes and the
    `template <...>` declarations of generic types and methods. */
module MethodWriter {
  import opened Outcomes
  import opened Symbols
  import opened Sink
  import opened Interning
  import opened Decimal
  import opened Seqs
  import opened TypeWriter

  // ---------------------------------------------------------------------
  // Method names
  // ---------------------------------------------------------------------

  /** `template ` in front of a generic method name written with its
      argument list. */
  function TemplateKeyword(m: MethodSym, addTemplate: bool): seq<Token> {
    if addTemplate && IsGenericMethod(m) then [TextSpan("template"), WhiteSpace] else []
  }

  /** An interface member is prefixed with the interface's full name and `_`. */
  function InterfacePrefix(m: MethodSym, o: Oracle): seq<Token> {
    if m.containingType.kind.Interface? then [TextSpan(o.typeFullName(m.containingType)), TextSpan("_")] else []
  }

  /** Explicit conversions always, implicit ones only when static. */
  predicate HasConversionSuffix(m: MethodSym) {
    m.name == "op_Explicit" || (m.isStatic && m.name == "op_Implicit")
  }

  /** Abstract, virtual and overriding generic methods are erased: they are
      named by their arity instead of being templated. */
  predicate IsErasedGeneric(m: MethodSym) {
    IsGenericMethod(m) && (m.isAbstract || m.isVirtual || m.isOverride)
  }

  /** `_` and the type suffix of the target type of a conversion operator;
      a missing return type is a null dereference. */
  function ConversionSuffix(m: MethodSym, o: Oracle): (r: Result<seq<Token>>)
    ensures !HasConversionSuffix(m) ==> r == Ok([])
    ensures HasConversionSuffix(m) ==> (r.Ok? <==> m.returnType.Some?)
    ensures HasConversionSuffix(m) && r.Ok? ==> |r.value| >= 2 && r.value[0] == TextSpan("_")
    ensures HasConversionSuffix(m) && m.returnType.Some? ==> r.Ok? && r.value[1..] == WriteTypeSuffix(m.returnType.value, o)
    ensures r.Fail? ==> r.fault == NullReference
  {
    if !HasConversionSuffix(m) then Ok([])
    else if m.returnType.None? then Fail(NullReference)
    else Ok([TextSpan("_")] + WriteTypeSuffix(m.returnType.value, o))
  }

  /** The ref kinds of the by-reference parameters, in declaration order
      (`Parameters.Where(p => p.RefKind != RefKind.None)`). */
  function ByRefKinds(ps: seq<ParamSym>): (ks: seq<RefKind>)
    ensures |ks| <= |ps|
    ensures forall i :: 0 <= i < |ks| ==> ks[i] != ByValue
  {
    if |ps| == 0 then []
    else ByRefKinds(ps[..|ps| - 1]) + (if ps[|ps| - 1].refKind != ByValue then [ps[|ps| - 1].refKind] else [])
  }

  /** One `_` and `Ref`/`Out` pair per by-reference parameter. */
  function RefSuffixes(ps: seq<ParamSym>): (r: seq<Token>)
    ensures |r| == 2 * |ByRefKinds(ps)|
    ensures forall i :: 0 <= i < |r| ==>
              r[i] == if i % 2 == 0 then TextSpan("_") else TextSpan(RefKindName(ByRefKinds(ps)[i / 2]))
  {
    if |ps| == 0 then []
    else
      var init := RefSuffixes(ps[..|ps| - 1]);
      var k := ps[|ps| - 1].refKind;
      var r := init + (if k != ByValue then [TextSpan("_"), TextSpan(RefKindName(k))] else []);
      assert forall i :: 0 <= i < |init| ==> r[i] == init[i];
      r
  }

  /** The tail of a generic method name: `T` and the arity when erased,
      otherwise the argument list `<A, B>` when asked for, otherwise
      nothing. */
  function GenericSuffix(m: MethodSym, addTemplate: bool, reg: Registry, o: Oracle): (r: Result<Emitted>)
    ensures !IsGenericMethod(m) ==> r == Ok(Emitted([], reg))
    ensures IsErasedGeneric(m) ==> r == Ok(Emitted([TextSpan("T"), TextSpan(NatToString(|m.typeParameters|))], reg))
    ensures IsGenericMethod(m) && !IsErasedGeneric(m) && !addTemplate ==> r == Ok(Emitted([], reg))
    ensures IsGenericMethod(m) && !IsErasedGeneric(m) && addTemplate && r.Ok? ==>
              && |r.value.tokens| >= 2 && r.value.tokens[0] == TextSpan("<")
              && r.value.tokens[|r.value.tokens| - 1] == TextSpan(">")
    ensures IsGenericMethod(m) && !IsErasedGeneric(m) && addTemplate ==>
              var w := WriteEach(m.typeArguments, reg, o);
              && (r.Ok? <==> w.Ok?)
              && (r.Ok? ==> r.value == Emitted([TextSpan("<")] + JoinComma(w.value.parts) + [TextSpan(">")],
                                               w.value.regs[|m.typeArguments|]))
    ensures r.Ok? ==> Extends(reg, r.value.reg)
    ensures r.Ok? && Valid(reg) ==> Valid(r.value.reg)
    ensures r.Fail? ==> r.fault == NotImplemented
  {
    if !IsGenericMethod(m) then Ok(Emitted([], reg))
    else if IsErasedGeneric(m) then
      Ok(Emitted([TextSpan("T"), TextSpan(NatToString(|m.typeParameters|))], reg))
    else if addTemplate then
      TypesJoinedEntries(m.typeArguments, reg, o);
      var args :- WriteTypesJoined(m.typeArguments, reg, o);
      Ok(Emitted([TextSpan("<")] + args.tokens + [TextSpan(">")], args.reg))
    else Ok(Emitted([], reg))
  }

  /** `WriteMethodName`: a constructor is named after its receiver type and
      nothing else; any other method by its own name (or `forName`'s), the
      conversion suffix, the ref/out suffixes and the generic suffix. */
  function WriteMethodName(m: MethodSym, addTemplate: bool, forName: Option<MethodSym>,
                           reg: Registry, o: Oracle): (r: Result<Emitted>)
    ensures r.Ok? ==> Extends(reg, r.value.reg)
    ensures r.Ok? && Valid(reg) ==> Valid(r.value.reg)
    ensures r.Fail? ==> r.fault.InvalidCast? || r.fault.NullReference? || r.fault.NotImplemented?
    ensures m.kind.Constructor? ==>
              (r.Ok? <==> m.receiverType.NamedT?)
              && (r.Ok? ==> r.value.reg == reg && |r.value.tokens| >= 1
                            && r.value.tokens[|r.value.tokens| - 1] == TextSpan(o.cleanUpName(m.receiverType.named.name)))
    ensures m.kind.Constructor? && m.receiverType.NamedT? ==>
              r == Ok(Emitted(TemplateKeyword(m, addTemplate) + InterfacePrefix(m, o)
                              + WriteTypeName(m.receiverType.named, false, false, o), reg))
    ensures r.Ok? && addTemplate && IsGenericMethod(m) ==> |r.value.tokens| >= 2 && r.value.tokens[..2] == [TextSpan("template"), WhiteSpace]
    ensures r.Ok? && !m.kind.Constructor? && IsErasedGeneric(m) ==>
              && r.value.reg == reg && |r.value.tokens| >= 2
              && r.value.tokens[|r.value.tokens| - 2..] == [TextSpan("T"), TextSpan(NatToString(|m.typeParameters|))]
  {
    if m.kind.Constructor? then ConstructorName(m, addTemplate, reg, o)
    else OrdinaryName(m, addTemplate, forName, reg, o)
  }

  /** A constructor's name: the receiver type's name after the template
      keyword and interface prefix; a receiver that is not a named type is
      an invalid cast. */
  function ConstructorName(m: MethodSym, addTemplate: bool, reg: Registry, o: Oracle): (r: Result<Emitted>)
    ensures r.Ok? <==> m.receiverType.NamedT?
    ensures r.Ok? ==> r.value.reg == reg && |r.value.tokens| >= 1
                      && r.value.tokens[|r.value.tokens| - 1] == TextSpan(o.cleanUpName(m.receiverType.named.name))
    ensures r.Ok? && addTemplate && IsGenericMethod(m) ==> |r.value.tokens| >= 2 && r.value.tokens[..2] == [TextSpan("template"), WhiteSpace]
    ensures m.receiverType.NamedT? ==>
              r == Ok(Emitted(TemplateKeyword(m, addTemplate) + InterfacePrefix(m, o)
                              + WriteTypeName(m.receiverType.named, false, false, o), reg))
    ensures r.Fail? ==> r.fault.InvalidCast?
  {
    match m.receiverType
    case NamedT(receiver) =>
      var template := TemplateKeyword(m, addTemplate);
      var name := WriteTypeName(receiver, false, false, o);
      Framed(template, InterfacePrefix(m, o), name);
      Ok(Emitted(template + InterfacePrefix(m, o) + name, reg))
    case _ => Fail(InvalidCast)
  }

  /** Any other method's name: the template keyword, interface prefix, own
      (or `forName`'s) name, conversion suffix, ref/out suffixes and generic
      suffix. */
  function OrdinaryName(m: MethodSym, addTemplate: bool, forName: Option<MethodSym>,
                        reg: Registry, o: Oracle): (r: Result<Emitted>)
    ensures r.Ok? ==> Extends(reg, r.value.reg)
    ensures r.Ok? && Valid(reg) ==> Valid(r.value.reg)
    ensures r.Fail? ==> r.fault.NullReference? || r.fault.NotImplemented?
    ensures r.Ok? && addTemplate && IsGenericMethod(m) ==> |r.value.tokens| >= 2 && r.value.tokens[..2] == [TextSpan("template"), WhiteSpace]
    ensures r.Ok? && IsErasedGeneric(m) ==>
              && r.value.reg == reg && |r.value.tokens| >= 2
              && r.value.tokens[|r.value.tokens| - 2..] == [TextSpan("T"), TextSpan(NatToString(|m.typeParameters|))]
  {
    var template := TemplateKeyword(m, addTemplate);
    var conversion :- ConversionSuffix(m, o);
    var generic :- GenericSuffix(m, addTemplate, reg, o);
    var nameSource := if forName.Some? then forName.value else m;
    var middle := InterfacePrefix(m, o) + WriteName(nameSource.name, o) + conversion + RefSuffixes(m.parameters);
    Framed(template, middle, generic.tokens);
    Ok(Emitted(template + middle + generic.tokens, generic.reg))
  }

  /** The ends of `a + b + c` are the ends of `a` and `c`. */
  lemma Framed(a: seq<Token>, b: seq<Token>, c: seq<Token>)
    ensures |a| >= 2 ==> |a + b + c| >= 2 && (a + b + c)[..2] == a[..2]
    ensures |c| >= 1 ==> (a + b + c)[|a + b + c| - 1] == c[|c| - 1]
    ensures |c| >= 2 ==> (a + b + c)[|a + b + c| - 2..] == c[|c| - 2..]
  {
  }

  /** A constructor of a nested type is named after the whole chain of its
      receiver's containing types, outermost first and joined by `_`, after
      the template keyword and the interface prefix. */
  lemma ConstructorNamedByChain(m: MethodSym, addTemplate: bool, forName: Option<MethodSym>, reg: Registry, o: Oracle)
    requires m.kind.Constructor? && m.receiverType.NamedT?
    requires forall c :: c in ContainerChain(m.receiverType.named) ==> c.special !in {Object, String}
    ensures WriteMethodName(m, addTemplate, forName, reg, o)
            == Ok(Emitted(TemplateKeyword(m, addTemplate) + InterfacePrefix(m, o)
                          + UnderscoreJoin(ContainerChain(m.receiverType.named), o), reg))
  {
    TypeNameIsChain(m.receiverType.named, false, o);
  }

  /** Constructors stop after the receiver's name: their parameters, and so
      their ref/out kinds, never reach the name, and two constructors that
      differ only in them are spelled alike. */
  lemma ConstructorIgnoresParameters(m: MethodSym, ps: seq<ParamSym>, addTemplate: bool, forName: Option<MethodSym>,
                                     reg: Registry, o: Oracle)
    requires m.kind.Constructor?
    ensures WriteMethodName(m.(parameters := ps), addTemplate, forName, reg, o) == WriteMethodName(m, addTemplate, forName, reg, o)
  {
  }

  /** A non-static `op_Implicit` has no conversion suffix: its name does not
      depend on its return type. */
  lemma InstanceImplicitIgnoresReturnType(m: MethodSym, rt: Option<TypeSym>, addTemplate: bool,
                                          forName: Option<MethodSym>, reg: Registry, o: Oracle)
    requires m.name == "op_Implicit" && !m.isStatic
    ensures WriteMethodName(m.(returnType := rt), addTemplate, forName, reg, o) == WriteMethodName(m, addTemplate, forName, reg, o)
  {
    var m2 := m.(returnType := rt);
    assert TemplateKeyword(m2, addTemplate) == TemplateKeyword(m, addTemplate);
    assert InterfacePrefix(m2, o) == InterfacePrefix(m, o);
    assert ConversionSuffix(m2, o) == Ok([]) == ConversionSuffix(m, o);
    assert GenericSuffix(m2, addTemplate, reg, o) == GenericSuffix(m, addTemplate, reg, o);
  }

  /** Explicit conversions (and static implicit ones) to two different
      well-known types get different suffixes, so the two overloads get
      different names. */
  lemma ConversionsToSpecialTypesDiffer(m: MethodSym, t1: TypeSym, t2: TypeSym, o: Oracle)
    requires HasConversionSuffix(m)
    requires WriteSpecialType(t1).0 && WriteSpecialType(t2).0 && Special(t1) != Special(t2)
    ensures ConversionSuffix(m.(returnType := Some(t1)), o) != ConversionSuffix(m.(returnType := Some(t2)), o)
  {
    if WriteTypeSuffix(t1, o) == WriteTypeSuffix(t2, o) {
      SpecialSpellingsDistinct(t1, t2);
    }
  }

  /** The text one by-reference parameter adds to a name. */
  function RefChunk(k: RefKind): (c: string)
    ensures |c| == if k == ByValue then 5 else 4
  {
    "_" + RefKindName(k)
  }

  /** The text of the ref/out suffixes: `_Ref` or `_Out` per kind. */
  function RefText(ks: seq<RefKind>): string {
    if |ks| == 0 then "" else RefText(ks[..|ks| - 1]) + RefChunk(ks[|ks| - 1])
  }

  lemma FlatPair(a: string, b: string)
    ensures Flat([TextSpan(a), TextSpan(b)]) == a + b
  {
    var ts := [TextSpan(a), TextSpan(b)];
    var tail := [TextSpan(b)];
    assert ts[1..] == tail;
    assert tail[1..] == [];
    assert Flat(tail) == b + Flat(tail[1..]) == b;
    assert Flat(ts) == a + Flat(ts[1..]);
  }

  lemma {:induction false} RefSuffixesText(ps: seq<ParamSym>)
    ensures Flat(RefSuffixes(ps)) == RefText(ByRefKinds(ps))
    decreases |ps|
  {
    if |ps| > 0 {
      var init := ps[..|ps| - 1];
      var k := ps[|ps| - 1].refKind;
      RefSuffixesText(init);
      if k != ByValue {
        var tail := [TextSpan("_"), TextSpan(RefKindName(k))];
        assert RefSuffixes(ps) == RefSuffixes(init) + tail;
        FlatAppend(RefSuffixes(init), tail);
        FlatPair("_", RefKindName(k));
        var ks := ByRefKinds(ps);
        assert ks == ByRefKinds(init) + [k];
        assert ks[..|ks| - 1] == ByRefKinds(init);
        assert RefText(ks) == RefText(ByRefKinds(init)) + RefChunk(k);
        assert RefChunk(k) == "_" + RefKindName(k);
      } else {
        assert RefSuffixes(ps) == RefSuffixes(init) + [] == RefSuffixes(init);
        assert ByRefKinds(ps) == ByRefKinds(init) + [] == ByRefKinds(init);
      }
    }
  }

  lemma {:induction false} RefTextLength(ks: seq<RefKind>)
    requires forall i :: 0 <= i < |ks| ==> ks[i] != ByValue
    ensures |RefText(ks)| == 4 * |ks|
    decreases |ks|
  {
    if |ks| > 0 {
      RefTextLength(ks[..|ks| - 1]);
    }
  }

  /** Two splits of one string with equally long tails are the same split. */
  lemma SplitEqual(a1: string, b1: string, a2: string, b2: string)
    requires a1 + b1 == a2 + b2 && |b1| == |b2|
    ensures a1 == a2 && b1 == b2
  {
    var t := a1 + b1;
    assert a1 == t[..|a1|];
    assert a2 == (a2 + b2)[..|a2|];
    assert b1 == t[|a1|..];
    assert b2 == (a2 + b2)[|a2|..];
  }

  /** Different by-reference kinds add different text. */
  lemma ChunkInjective(k1: RefKind, k2: RefKind)
    requires RefChunk(k1) == RefChunk(k2)
    ensures k1 == k2
  {
    assert RefKindName(k1) == RefChunk(k1)[1..];
    assert RefKindName(k2) == RefChunk(k2)[1..];
  }

  /** The suffix text determines the by-reference kinds. */
  lemma {:induction false} RefTextInjective(ks1: seq<RefKind>, ks2: seq<RefKind>)
    requires forall i :: 0 <= i < |ks1| ==> ks1[i] != ByValue
    requires forall i :: 0 <= i < |ks2| ==> ks2[i] != ByValue
    requires RefText(ks1) == RefText(ks2)
    ensures ks1 == ks2
    decreases |ks1|
  {
    RefTextLength(ks1);
    RefTextLength(ks2);
    if |ks1| > 0 {
      var n := |ks1|;
      var k1 := ks1[n - 1];
      var k2 := ks2[n - 1];
      var i1 := ks1[..n - 1];
      var i2 := ks2[..n - 1];
      SplitEqual(RefText(i1), RefChunk(k1), RefText(i2), RefChunk(k2));
      ChunkInjective(k1, k2);
      RefTextInjective(i1, i2);
      assert ks1 == i1 + [k1] && ks2 == i2 + [k2];
    }
  }

  lemma {:induction false} ByRefKindsAppend(a: seq<ParamSym>, b: seq<ParamSym>)
    ensures ByRefKinds(a + b) == ByRefKinds(a) + ByRefKinds(b)
    decreases |b|
  {
    if |b| == 0 {
      assert a + b == a;
    } else {
      assert (a + b)[..|a + b| - 1] == a + b[..|b| - 1];
      ByRefKindsAppend(a, b[..|b| - 1]);
    }
  }

  /** Changing the ref kind of one parameter changes the by-reference kinds. */
  lemma ByRefKindsChange(ps: seq<ParamSym>, j: nat, k: RefKind)
    requires j < |ps| && k != ps[j].refKind
    ensures ByRefKinds(ps) != ByRefKinds(ps[j := ps[j].(refKind := k)])
  {
    var qs := ps[j := ps[j].(refKind := k)];
    assert ps == ps[..j] + [ps[j]] + ps[j + 1..];
    assert qs == ps[..j] + [qs[j]] + ps[j + 1..];
    ByRefKindsAppend(ps[..j] + [ps[j]], ps[j + 1..]);
    ByRefKindsAppend(ps[..j], [ps[j]]);
    ByRefKindsAppend(ps[..j] + [qs[j]], ps[j + 1..]);
    ByRefKindsAppend(ps[..j], [qs[j]]);
    assert [ps[j]][..0] == [] && [qs[j]][..0] == [];
    var a := ByRefKinds(ps[..j]);
    var c := ByRefKinds(ps[j + 1..]);
    if ps[j].refKind != ByValue && k != ByValue {
      assert ByRefKinds(ps)[|a|] == ps[j].refKind;
      assert ByRefKinds(qs)[|a|] == k;
    } else {
      assert |ByRefKinds(ps)| != |ByRefKinds(qs)|;
    }
  }

  /** Two strings that agree on a common prefix and suffix around their
      middles are equal only if the middles are. */
  lemma CancelAround(p: string, x: string, y: string, s: string)
    requires p + x + s == p + y + s
    ensures x == y
  {
    var t := p + x + s;
    assert |x| == |y|;
    assert x == t[|p|..|p| + |x|];
    assert y == (p + y + s)[|p|..|p| + |y|];
  }

  /** Changing the ref kind of one parameter changes the text of the ref/out
      suffixes. */
  lemma RefSuffixTextChanges(ps: seq<ParamSym>, j: nat, k: RefKind)
    requires j < |ps| && k != ps[j].refKind
    ensures Flat(RefSuffixes(ps)) != Flat(RefSuffixes(ps[j := ps[j].(refKind := k)]))
  {
    var qs := ps[j := ps[j].(refKind := k)];
    RefSuffixesText(ps);
    RefSuffixesText(qs);
    ByRefKindsChange(ps, j, k);
    if Flat(RefSuffixes(ps)) == Flat(RefSuffixes(qs)) {
      RefTextInjective(ByRefKinds(ps), ByRefKinds(qs));
    }
  }

  /** Everything a non-constructor name puts before its ref/out suffixes. */
  function NamePrefix(m: MethodSym, addTemplate: bool, forName: Option<MethodSym>, o: Oracle): seq<Token>
    requires ConversionSuffix(m, o).Ok?
  {
    var nameSource := if forName.Some? then forName.value else m;
    TemplateKeyword(m, addTemplate) + InterfacePrefix(m, o) + WriteName(nameSource.name, o) + ConversionSuffix(m, o).value
  }

  lemma NameAroundRefSuffixes(m: MethodSym, addTemplate: bool, forName: Option<MethodSym>, reg: Registry, o: Oracle)
    requires !m.kind.Constructor?
    requires WriteMethodName(m, addTemplate, forName, reg, o).Ok?
    ensures ConversionSuffix(m, o).Ok? && GenericSuffix(m, addTemplate, reg, o).Ok?
    ensures WriteMethodName(m, addTemplate, forName, reg, o).value.tokens
            == NamePrefix(m, addTemplate, forName, o) + RefSuffixes(m.parameters) + GenericSuffix(m, addTemplate, reg, o).value.tokens
  {
    var nameSource := if forName.Some? then forName.value else m;
    var conversion := ConversionSuffix(m, o).value;
    var generic := GenericSuffix(m, addTemplate, reg, o).value;
    var template := TemplateKeyword(m, addTemplate);
    Regroup(template, InterfacePrefix(m, o), WriteName(nameSource.name, o), conversion, RefSuffixes(m.parameters), generic.tokens);
  }

  /** Moving the ref/out suffixes out of the middle of a name. */
  lemma Regroup(a: seq<Token>, b: seq<Token>, c: seq<Token>, d: seq<Token>, e: seq<Token>, f: seq<Token>)
    ensures a + (b + c + d + e) + f == (a + b + c + d) + e + f
  {
  }

  /** Ref/out mangling tells overloads apart: for a method that is not a
      constructor, changing the ref kind of one parameter changes the text
      of its name. */
  lemma RefKindChangesName(m: MethodSym, j: nat, k: RefKind, addTemplate: bool, forName: Option<MethodSym>,
                           reg: Registry, o: Oracle)
    requires !m.kind.Constructor?
    requires j < |m.parameters| && k != m.parameters[j].refKind
    ensures var m2 := m.(parameters := m.parameters[j := m.parameters[j].(refKind := k)]);
            var r1 := WriteMethodName(m, addTemplate, forName, reg, o);
            var r2 := WriteMethodName(m2, addTemplate, forName, reg, o);
            (r1.Ok? <==> r2.Ok?) && (r1.Ok? ==> Flat(r1.value.tokens) != Flat(r2.value.tokens))
  {
    var ps := m.parameters;
    var qs := ps[j := ps[j].(refKind := k)];
    var m2 := m.(parameters := qs);
    assert ConversionSuffix(m2, o) == ConversionSuffix(m, o);
    assert GenericSuffix(m2, addTemplate, reg, o) == GenericSuffix(m, addTemplate, reg, o);
    var r1 := WriteMethodName(m, addTemplate, forName, reg, o);
    if r1.Ok? {
      NameAroundRefSuffixes(m, addTemplate, forName, reg, o);
      NameAroundRefSuffixes(m2, addTemplate, forName, reg, o);
      var p := NamePrefix(m, addTemplate, forName, o);
      assert NamePrefix(m2, addTemplate, forName, o) == p;
      var g := GenericSuffix(m, addTemplate, reg, o).value.tokens;
      FlatAppend(p + RefSuffixes(ps), g);
      FlatAppend(p, RefSuffixes(ps));
      FlatAppend(p + RefSuffixes(qs), g);
      FlatAppend(p, RefSuffixes(qs));
      RefSuffixTextChanges(ps, j, k);
      if Flat(p + RefSuffixes(ps) + g) == Flat(p + RefSuffixes(qs) + g) {
        CancelAround(Flat(p), Flat(RefSuffixes(ps)), Flat(RefSuffixes(qs)), Flat(g));
      }
    }
  }

  // ---------------------------------------------------------------------
  // Parameters, return type, suffixes
  // ---------------------------------------------------------------------

  function ParameterNames(ps: seq<ParamSym>): (names: seq<string>)
    ensures |names| == |ps| && forall i :: 0 <= i < |ps| ==> names[i] == ps[i].name
  {
    seq(|ps|, i requires 0 <= i < |ps| => ps[i].name)
  }

  /** Outside a class declaration, repeated parameter names are replaced by
      positional ones. */
  predicate NamesClash(m: MethodSym, declarationWithinClass: bool) {
    !declarationWithinClass && |Dedup(ParameterNames(m.parameters))| != |m.parameters|
  }

  /** The names are replaced exactly when two parameters share a name. */
  lemma NamesClashIffRepeated(m: MethodSym)
    ensures NamesClash(m, false) <==> !NoDuplicates(ParameterNames(m.parameters))
  {
    DedupKeepsAllIffDistinct(ParameterNames(m.parameters));
  }

  /** The name written for parameter `index`. */
  function ParameterName(name: string, index: nat, clash: bool, o: Oracle): Token {
    if clash then TextSpan("__arg" + NatToString(index)) else TextSpan(o.ensureCompatible(o.cleanUpName(name)))
  }

  /** Positional names never collide. */
  lemma PositionalNamesDistinct(n1: string, n2: string, i: nat, j: nat, o: Oracle)
    requires i != j
    ensures ParameterName(n1, i, true, o) != ParameterName(n2, j, true, o)
  {
    if ParameterName(n1, i, true, o) == ParameterName(n2, j, true, o) {
      assert NatToString(i) == ("__arg" + NatToString(i))[5..];
      assert NatToString(j) == ("__arg" + NatToString(j))[5..];
      NatToStringInjective(i, j);
    }
  }

  /** A value written where a virtual generic method is erased: a type
      parameter becomes `object*`. */
  predicate Erased(m: MethodSym, t: TypeSym, o: Oracle) {
    o.isVirtualGenericMethod(m) && t.ParamT?
  }

  /** The type of a parameter or return value, keywords allowed outside a
      class declaration. */
  function MemberType(m: MethodSym, t: TypeSym, declarationWithinClass: bool, reg: Registry, o: Oracle): (r: Result<Emitted>)
    ensures Erased(m, t, o) ==> r == Ok(Emitted([TextSpan("object*")], reg))
    ensures !Erased(m, t, o) ==> r == WriteType(t, false, !declarationWithinClass, false, reg, o)
    ensures r.Ok? ==> Extends(reg, r.value.reg) && |r.value.tokens| >= 1
    ensures r.Ok? && Valid(reg) ==> Valid(r.value.reg)
    ensures r.Fail? ==> r.fault == NotImplemented
  {
    if Erased(m, t, o) then WriteType(BareType(Object), false, !declarationWithinClass, false, reg, o)
    else WriteType(t, false, !declarationWithinClass, false, reg, o)
  }

  /** What follows a parameter's type: `&` when it is passed by reference,
      then — outside a class declaration, or with a body — a space and its
      name. */
  function ParameterTail(p: ParamSym, index: nat, declarationWithinClass: bool, hasBody: bool, clash: bool,
                         o: Oracle): (r: seq<Token>)
    ensures p.refKind != ByValue <==> |r| > 0 && r[0] == TextSpan("&")
    ensures !declarationWithinClass || hasBody ==> |r| >= 2 && r[|r| - 2..] == [WhiteSpace, ParameterName(p.name, index, clash, o)]
    ensures declarationWithinClass && !hasBody ==> |r| == if p.refKind != ByValue then 1 else 0
  {
    (if p.refKind != ByValue then [TextSpan("&")] else [])
    + (if !declarationWithinClass || hasBody then [WhiteSpace, ParameterName(p.name, index, clash, o)] else [])
  }

  /** One parameter: its type (`object*` where erased) and its tail. */
  function WriteParameter(m: MethodSym, index: nat, declarationWithinClass: bool, hasBody: bool, clash: bool,
                          reg: Registry, o: Oracle): (r: Result<Emitted>)
    requires index < |m.parameters|
    ensures var ty := MemberType(m, m.parameters[index].paramType, declarationWithinClass, reg, o);
            && (r.Ok? <==> ty.Ok?)
            && (r.Ok? ==> r.value == Emitted(ty.value.tokens
                                             + ParameterTail(m.parameters[index], index, declarationWithinClass, hasBody, clash, o),
                                             ty.value.reg))
    ensures r.Fail? ==> r.fault == NotImplemented
  {
    var p := m.parameters[index];
    var ty :- MemberType(m, p.paramType, declarationWithinClass, reg, o);
    Ok(Emitted(ty.tokens + ParameterTail(p, index, declarationWithinClass, hasBody, clash, o), ty.reg))
  }

  /** The parameters from `from` on, each after `, ` except the first of
      the whole list. */
  function WriteParameterList(m: MethodSym, from: nat, declarationWithinClass: bool, hasBody: bool, clash: bool,
                              reg: Registry, o: Oracle): (r: Result<Emitted>)
    requires from <= |m.parameters|
    ensures r.Ok? ==> Extends(reg, r.value.reg)
    ensures r.Ok? && Valid(reg) ==> Valid(r.value.reg)
    ensures r.Fail? ==> r.fault == NotImplemented
    decreases |m.parameters| - from
  {
    if from == |m.parameters| then Ok(Emitted([], reg))
    else
      var p :- WriteParameter(m, from, declarationWithinClass, hasBody, clash, reg, o);
      var rest :- WriteParameterList(m, from + 1, declarationWithinClass, hasBody, clash, p.reg, o);
      Ok(Emitted((if from > 0 then [TextSpan(", ")] else []) + p.tokens + rest.tokens, rest.reg))
  }

  /** `WriteMethodPatameters`: the parameter list in parentheses, with
      `...` after the last parameter of a varargs method. */
  function WriteMethodParameters(m: MethodSym, declarationWithinClass: bool, hasBody: bool,
                                 reg: Registry, o: Oracle): (r: Result<Emitted>)
    ensures r.Ok? ==> Extends(reg, r.value.reg)
    ensures r.Ok? && Valid(reg) ==> Valid(r.value.reg)
    ensures r.Fail? ==> r.fault == NotImplemented
    ensures r.Ok? ==> |r.value.tokens| >= 2 && r.value.tokens[0] == TextSpan("(")
                      && r.value.tokens[|r.value.tokens| - 1] == TextSpan(")")
    ensures |m.parameters| == 0 ==> r == Ok(Emitted([TextSpan("("), TextSpan(")")], reg))
    ensures r.Ok? && |m.parameters| > 0 && m.isVararg ==> r.value.tokens[|r.value.tokens| - 2] == TextSpan("...")
  {
    var list :- WriteParameterList(m, 0, declarationWithinClass, hasBody, NamesClash(m, declarationWithinClass), reg, o);
    assert |m.parameters| == 0 ==> list.tokens == [] && [TextSpan("(")] + [] + [] + [TextSpan(")")] == [TextSpan("("), TextSpan(")")];
    Ok(Emitted([TextSpan("(")] + list.tokens
               + (if |m.parameters| > 0 && m.isVararg then [TextSpan("...")] else []) + [TextSpan(")")],
               list.reg))
  }

  /** `n - from` copies of `object*` separated by `, `, the first preceded by
      `, ` unless `from` is 0. */
  function ObjectList(from: nat, n: nat): (r: seq<Token>)
    requires from <= n
    ensures |r| == if from == 0 && n > 0 then 2 * n - 1 else 2 * (n - from)
    ensures forall i :: 0 <= i < |r| ==> r[i] == if (i % 2 == 0) == (from == 0) then TextSpan("object*") else TextSpan(", ")
    decreases n - from
  {
    if from == n then []
    else
      var rest := ObjectList(from + 1, n);
      var r := (if from > 0 then [TextSpan(", ")] else []) + [TextSpan("object*")] + rest;
      assert from > 0 ==> forall i :: 2 <= i < |r| ==> r[i] == rest[i - 2];
      assert from == 0 ==> forall i :: 1 <= i < |r| ==> r[i] == rest[i - 1];
      r
  }

  lemma ParameterListStep(m: MethodSym, from: nat, declarationWithinClass: bool, hasBody: bool, clash: bool,
                          reg: Registry, o: Oracle, first: seq<Token>, rest: seq<Token>)
    requires from < |m.parameters|
    requires WriteParameter(m, from, declarationWithinClass, hasBody, clash, reg, o) == Ok(Emitted(first, reg))
    requires WriteParameterList(m, from + 1, declarationWithinClass, hasBody, clash, reg, o) == Ok(Emitted(rest, reg))
    ensures WriteParameterList(m, from, declarationWithinClass, hasBody, clash, reg, o)
            == Ok(Emitted((if from > 0 then [TextSpan(", ")] else []) + first + rest, reg))
  {
  }

  lemma ParametersAroundList(m: MethodSym, declarationWithinClass: bool, hasBody: bool, reg: Registry, o: Oracle,
                             list: seq<Token>, reg2: Registry)
    requires WriteParameterList(m, 0, declarationWithinClass, hasBody, NamesClash(m, declarationWithinClass), reg, o)
             == Ok(Emitted(list, reg2))
    ensures WriteMethodParameters(m, declarationWithinClass, hasBody, reg, o)
            == Ok(Emitted([TextSpan("(")] + list + (if |m.parameters| > 0 && m.isVararg then [TextSpan("...")] else [])
                          + [TextSpan(")")], reg2))
  {
  }

  /** The indices `lo`, `lo + 1`, ..., `hi - 1`. */
  function Range(lo: nat, hi: nat): (r: seq<nat>)
    requires lo <= hi
    ensures |r| == hi - lo
    ensures forall k :: 0 <= k < |r| ==> r[k] == lo + k
    decreases hi - lo
  {
    if lo == hi then [] else [lo] + Range(lo + 1, hi)
  }

  /** Parameter `i` of `m` written from `before` gives `part` and leaves
      `after`. */
  predicate ParameterWritten(m: MethodSym, declarationWithinClass: bool, hasBody: bool, clash: bool, o: Oracle,
                             i: nat, before: Registry, part: seq<Token>, after: Registry) {
    && i < |m.parameters|
    && WriteParameter(m, i, declarationWithinClass, hasBody, clash, before, o) == Ok(Emitted(part, after))
  }

  /** `w` holds the parameters of `m` from `from` on, written one after
      another, each from the registry the previous one left. */
  predicate ParametersInTurn(m: MethodSym, from: nat, declarationWithinClass: bool, hasBody: bool, clash: bool,
                             w: EachWritten, o: Oracle)
    requires from <= |m.parameters|
  {
    InTurn((i, before, part, after) => ParameterWritten(m, declarationWithinClass, hasBody, clash, o, i, before, part, after),
           Range(from, |m.parameters|), w.parts, w.regs)
  }

  /** The parameters of `m` from `from` on, written one after another and
      kept apart. */
  function WriteEachParameter(m: MethodSym, from: nat, declarationWithinClass: bool, hasBody: bool, clash: bool,
                              reg: Registry, o: Oracle): (r: Result<EachWritten>)
    requires from <= |m.parameters|
    ensures r.Fail? ==> r.fault == NotImplemented
    ensures r.Ok? ==> && |r.value.parts| == |m.parameters| - from
                      && |r.value.regs| == |m.parameters| - from + 1
                      && r.value.regs[0] == reg
    decreases |m.parameters| - from
  {
    if from == |m.parameters| then Ok(EachWritten([], [reg]))
    else
      var first :- WriteParameter(m, from, declarationWithinClass, hasBody, clash, reg, o);
      var rest :- WriteEachParameter(m, from + 1, declarationWithinClass, hasBody, clash, first.reg, o);
      Ok(EachWritten([first.tokens] + rest.parts, [reg] + rest.regs))
  }

  /** Each entry of `WriteEachParameter` is its parameter written from the
      registry the previous entry left. */
  lemma {:induction false} EachParameterInTurn(m: MethodSym, from: nat, declarationWithinClass: bool, hasBody: bool,
                                               clash: bool, reg: Registry, o: Oracle)
    requires from <= |m.parameters|
    ensures InTurnFrom(m, from, declarationWithinClass, hasBody, clash, reg, o)
    decreases |m.parameters| - from, 0
  {
    if from == |m.parameters| {
      EachInTurnEnd(m, declarationWithinClass, hasBody, clash, reg, o);
    } else {
      EachInTurnAnyRegistry(m, from + 1, declarationWithinClass, hasBody, clash, o);
      EachInTurnStep(m, from, declarationWithinClass, hasBody, clash, reg, o);
    }
  }

  /** Nothing left to write is trivially in turn. */
  lemma EachInTurnEnd(m: MethodSym, declarationWithinClass: bool, hasBody: bool, clash: bool, reg: Registry, o: Oracle)
    ensures InTurnFrom(m, |m.parameters|, declarationWithinClass, hasBody, clash, reg, o)
  {
    assert WriteEachParameter(m, |m.parameters|, declarationWithinClass, hasBody, clash, reg, o) == Ok(EachWritten([], [reg]));
    assert Range(|m.parameters|, |m.parameters|) == [];
  }

  /** The parameters from `from` on are written in turn whatever registry
      they start from. */
  lemma {:induction false} EachInTurnAnyRegistry(m: MethodSym, from: nat, declarationWithinClass: bool, hasBody: bool,
                                                 clash: bool, o: Oracle)
    requires from <= |m.parameters|
    ensures InTurnFromAny(m, from, declarationWithinClass, hasBody, clash, o)
    decreases |m.parameters| - from, 1
  {
    forall reg | true
      ensures InTurnFrom(m, from, declarationWithinClass, hasBody, clash, reg, o)
    {
      EachParameterInTurn(m, from, declarationWithinClass, hasBody, clash, reg, o);
    }
  }

  /** Writing each parameter from `from` on, starting from `reg`, gives the
      parameters in turn whenever it succeeds. */
  predicate InTurnFrom(m: MethodSym, from: nat, declarationWithinClass: bool, hasBody: bool, clash: bool,
                       reg: Registry, o: Oracle)
    requires from <= |m.parameters|
  {
    var w := WriteEachParameter(m, from, declarationWithinClass, hasBody, clash, reg, o);
    w.Ok? ==> ParametersInTurn(m, from, declarationWithinClass, hasBody, clash, w.value, o)
  }

  /** `InTurnFrom` whatever registry the writing starts from. */
  ghost predicate InTurnFromAny(m: MethodSym, from: nat, declarationWithinClass: bool, hasBody: bool, clash: bool, o: Oracle)
    requires from <= |m.parameters|
  {
    forall reg :: InTurnFrom(m, from, declarationWithinClass, hasBody, clash, reg, o)
  }

  lemma EachInTurnStep(m: MethodSym, from: nat, declarationWithinClass: bool, hasBody: bool, clash: bool,
                       reg: Registry, o: Oracle)
    requires from < |m.parameters|
    requires InTurnFromAny(m, from + 1, declarationWithinClass, hasBody, clash, o)
    ensures InTurnFrom(m, from, declarationWithinClass, hasBody, clash, reg, o)
  {
    var q := WriteParameter(m, from, declarationWithinClass, hasBody, clash, reg, o);
    if q.Ok? {
      var p := q.value;
      assert InTurnFrom(m, from + 1, declarationWithinClass, hasBody, clash, p.reg, o);
      EachParameterStep(m, from, declarationWithinClass, hasBody, clash, reg, o);
      var rest := WriteEachParameter(m, from + 1, declarationWithinClass, hasBody, clash, p.reg, o);
      if rest.Ok? {
        ParametersInTurnCons(m, from, declarationWithinClass, hasBody, clash, o, reg, p.tokens, rest.value);
      }
    } else {
      assert WriteEachParameter(m, from, declarationWithinClass, hasBody, clash, reg, o).Fail?;
    }
  }

  /** One more parameter written in front keeps the parameters in turn. */
  lemma ParametersInTurnCons(m: MethodSym, from: nat, declarationWithinClass: bool, hasBody: bool, clash: bool, o: Oracle,
                             reg: Registry, first: seq<Token>, rest: EachWritten)
    requires from < |m.parameters|
    requires ParametersInTurn(m, from + 1, declarationWithinClass, hasBody, clash, rest, o)
    requires ParameterWritten(m, declarationWithinClass, hasBody, clash, o, from, reg, first, rest.regs[0])
    ensures ParametersInTurn(m, from, declarationWithinClass, hasBody, clash, EachWritten([first] + rest.parts, [reg] + rest.regs), o)
  {
    var ts := Range(from, |m.parameters|);
    assert ts[1..] == Range(from + 1, |m.parameters|);
    InTurnCons((i, before, part, after) => ParameterWritten(m, declarationWithinClass, hasBody, clash, o, i, before, part, after),
               ts, reg, first, rest.parts, rest.regs);
  }

  /** `, ` in front of a list that continues one already started. */
  function Lead(from: nat, parts: seq<seq<Token>>): seq<Token> {
    if from > 0 && |parts| > 0 then [TextSpan(", ")] else []
  }

  /** One step of the parameter list: the first parameter, then the rest. */
  lemma ListStep(m: MethodSym, from: nat, declarationWithinClass: bool, hasBody: bool, clash: bool,
                 reg: Registry, o: Oracle)
    requires from < |m.parameters|
    requires WriteParameter(m, from, declarationWithinClass, hasBody, clash, reg, o).Ok?
    ensures var f := WriteParameter(m, from, declarationWithinClass, hasBody, clash, reg, o).value;
            var r := WriteParameterList(m, from, declarationWithinClass, hasBody, clash, reg, o);
            var rest := WriteParameterList(m, from + 1, declarationWithinClass, hasBody, clash, f.reg, o);
            && (r.Ok? <==> rest.Ok?)
            && (r.Ok? ==> r.value == Emitted((if from > 0 then [TextSpan(", ")] else []) + f.tokens + rest.value.tokens,
                                             rest.value.reg))
  {
  }

  /** One step of writing each parameter: the first, then the rest. */
  lemma EachParameterStep(m: MethodSym, from: nat, declarationWithinClass: bool, hasBody: bool, clash: bool,
                          reg: Registry, o: Oracle)
    requires from < |m.parameters|
    requires WriteParameter(m, from, declarationWithinClass, hasBody, clash, reg, o).Ok?
    ensures var f := WriteParameter(m, from, declarationWithinClass, hasBody, clash, reg, o).value;
            var w := WriteEachParameter(m, from, declarationWithinClass, hasBody, clash, reg, o);
            var rest := WriteEachParameter(m, from + 1, declarationWithinClass, hasBody, clash, f.reg, o);
            && (w.Ok? <==> rest.Ok?)
            && (w.Ok? ==> w.value == EachWritten([f.tokens] + rest.value.parts, [reg] + rest.value.regs))
  {
  }

  /** A written list `r` agrees with entries `w` written one by one and
      joined by `, `, `count` of them, starting at position `from`. */
  predicate Agrees(from: nat, count: nat, r: Result<Emitted>, w: Result<EachWritten>) {
    && (r.Ok? <==> w.Ok?)
    && (r.Ok? ==> |w.value.regs| > count
                  && r.value == Emitted(Lead(from, w.value.parts) + JoinComma(w.value.parts), w.value.regs[count]))
  }

  /** The parameter list from `from` on agrees with the parameters written
      one by one and joined by `, `. */
  predicate ListAgrees(m: MethodSym, from: nat, declarationWithinClass: bool, hasBody: bool, clash: bool,
                       reg: Registry, o: Oracle)
    requires from <= |m.parameters|
  {
    Agrees(from, |m.parameters| - from,
           WriteParameterList(m, from, declarationWithinClass, hasBody, clash, reg, o),
           WriteEachParameter(m, from, declarationWithinClass, hasBody, clash, reg, o))
  }

  /** Putting one more parameter in front of a list that continues it. */
  lemma LeadJoin(from: nat, first: seq<Token>, rp: seq<seq<Token>>, restTokens: seq<Token>)
    requires restTokens == Lead(from + 1, rp) + JoinComma(rp)
    ensures (if from > 0 then [TextSpan(", ")] else []) + first + restTokens
            == Lead(from, [first] + rp) + JoinComma([first] + rp)
  {
    var parts := [first] + rp;
    assert parts[1..] == rp;
    var lead := if from > 0 then [TextSpan(", ")] else [];
    assert Lead(from, parts) == lead;
    if |rp| == 0 {
      assert JoinComma(parts) == first;
    } else {
      assert JoinComma(parts) == first + [TextSpan(", ")] + JoinComma(rp);
      AppendRegroup(lead, first, [TextSpan(", ")], JoinComma(rp));
    }
  }

  /** Agreement survives putting one more entry in front of both sides. */
  lemma AgreesCons(from: nat, count: nat, first: seq<Token>, reg: Registry,
                   r: Result<Emitted>, w: Result<EachWritten>, restR: Result<Emitted>, restW: Result<EachWritten>)
    requires r.Ok? <==> restR.Ok?
    requires r.Ok? ==> r.value == Emitted((if from > 0 then [TextSpan(", ")] else []) + first + restR.value.tokens,
                                          restR.value.reg)
    requires w.Ok? <==> restW.Ok?
    requires w.Ok? ==> w.value == EachWritten([first] + restW.value.parts, [reg] + restW.value.regs)
    requires Agrees(from + 1, count, restR, restW)
    ensures Agrees(from, count + 1, r, w)
  {
    if r.Ok? {
      LeadJoin(from, first, restW.value.parts, restR.value.tokens);
      assert ([reg] + restW.value.regs)[count + 1] == restW.value.regs[count];
    }
  }

  lemma ListAgreesStep(m: MethodSym, from: nat, declarationWithinClass: bool, hasBody: bool, clash: bool,
                       reg: Registry, o: Oracle)
    requires from < |m.parameters|
    requires var p := WriteParameter(m, from, declarationWithinClass, hasBody, clash, reg, o);
             p.Ok? ==> ListAgrees(m, from + 1, declarationWithinClass, hasBody, clash, p.value.reg, o)
    ensures ListAgrees(m, from, declarationWithinClass, hasBody, clash, reg, o)
  {
    var p := WriteParameter(m, from, declarationWithinClass, hasBody, clash, reg, o);
    if p.Ok? {
      var f := p.value;
      ListStep(m, from, declarationWithinClass, hasBody, clash, reg, o);
      EachParameterStep(m, from, declarationWithinClass, hasBody, clash, reg, o);
      AgreesCons(from, |m.parameters| - (from + 1), f.tokens, reg,
                 WriteParameterList(m, from, declarationWithinClass, hasBody, clash, reg, o),
                 WriteEachParameter(m, from, declarationWithinClass, hasBody, clash, reg, o),
                 WriteParameterList(m, from + 1, declarationWithinClass, hasBody, clash, f.reg, o),
                 WriteEachParameter(m, from + 1, declarationWithinClass, hasBody, clash, f.reg, o));
    } else {
      ListAgreesFails(m, from, declarationWithinClass, hasBody, clash, reg, o);
    }
  }

  /** The list agrees when its first parameter fails. */
  lemma ListAgreesFails(m: MethodSym, from: nat, declarationWithinClass: bool, hasBody: bool, clash: bool,
                        reg: Registry, o: Oracle)
    requires from < |m.parameters|
    requires WriteParameter(m, from, declarationWithinClass, hasBody, clash, reg, o).Fail?
    ensures ListAgrees(m, from, declarationWithinClass, hasBody, clash, reg, o)
  {
    assert WriteParameterList(m, from, declarationWithinClass, hasBody, clash, reg, o).Fail?;
    assert WriteEachParameter(m, from, declarationWithinClass, hasBody, clash, reg, o).Fail?;
  }

  /** The empty rest of a list agrees. */
  lemma ListAgreesEnd(m: MethodSym, declarationWithinClass: bool, hasBody: bool, clash: bool, reg: Registry, o: Oracle)
    ensures ListAgrees(m, |m.parameters|, declarationWithinClass, hasBody, clash, reg, o)
  {
    var n := |m.parameters|;
    assert WriteParameterList(m, n, declarationWithinClass, hasBody, clash, reg, o) == Ok(Emitted([], reg));
    assert WriteEachParameter(m, n, declarationWithinClass, hasBody, clash, reg, o) == Ok(EachWritten([], [reg]));
  }

  /** A parameter list is the parameters written one by one, each from the
      registry the previous one left, joined by `, ` (and led by `, ` when
      it continues a list); it fails exactly when one of them does. */
  lemma {:induction false} ParameterListEntries(m: MethodSym, from: nat, declarationWithinClass: bool, hasBody: bool,
                                          clash: bool, reg: Registry, o: Oracle)
    requires from <= |m.parameters|
    ensures ListAgrees(m, from, declarationWithinClass, hasBody, clash, reg, o)
    decreases |m.parameters| - from, 0
  {
    if from == |m.parameters| {
      ListAgreesEnd(m, declarationWithinClass, hasBody, clash, reg, o);
    } else {
      ListAgreesAnyRegistry(m, from + 1, declarationWithinClass, hasBody, clash, o);
      ListAgreesStep(m, from, declarationWithinClass, hasBody, clash, reg, o);
    }
  }

  /** The list from `from` on agrees whatever registry it starts from. */
  lemma {:induction false} ListAgreesAnyRegistry(m: MethodSym, from: nat, declarationWithinClass: bool, hasBody: bool,
                                                 clash: bool, o: Oracle)
    requires from <= |m.parameters|
    ensures forall reg :: ListAgrees(m, from, declarationWithinClass, hasBody, clash, reg, o)
    decreases |m.parameters| - from, 1
  {
    forall reg | true
      ensures ListAgrees(m, from, declarationWithinClass, hasBody, clash, reg, o)
    {
      ParameterListEntries(m, from, declarationWithinClass, hasBody, clash, reg, o);
    }
  }

  /** The parameter list in parentheses is every parameter written in turn
      and joined by `, `, then `...` for a varargs method with parameters;
      it fails exactly when one parameter does. */
  lemma MethodParametersEntries(m: MethodSym, declarationWithinClass: bool, hasBody: bool, reg: Registry, o: Oracle)
    ensures var r := WriteMethodParameters(m, declarationWithinClass, hasBody, reg, o);
            var w := WriteEachParameter(m, 0, declarationWithinClass, hasBody, NamesClash(m, declarationWithinClass), reg, o);
            && (r.Ok? <==> w.Ok?)
            && (r.Ok? ==> r.value == Emitted([TextSpan("(")] + JoinComma(w.value.parts)
                                             + (if |m.parameters| > 0 && m.isVararg then [TextSpan("...")] else [])
                                             + [TextSpan(")")], w.value.regs[|m.parameters|]))
  {
    var clash := NamesClash(m, declarationWithinClass);
    ParameterListEntries(m, 0, declarationWithinClass, hasBody, clash, reg, o);
    ParametersAroundResult(m, declarationWithinClass, hasBody, reg, o);
    WrapAgrees(|m.parameters|, if |m.parameters| > 0 && m.isVararg then [TextSpan("...")] else [],
               WriteMethodParameters(m, declarationWithinClass, hasBody, reg, o),
               WriteParameterList(m, 0, declarationWithinClass, hasBody, clash, reg, o),
               WriteEachParameter(m, 0, declarationWithinClass, hasBody, clash, reg, o));
  }

  /** The parenthesised list succeeds exactly when the bare list does. */
  lemma ParametersAroundResult(m: MethodSym, declarationWithinClass: bool, hasBody: bool, reg: Registry, o: Oracle)
    ensures var r := WriteMethodParameters(m, declarationWithinClass, hasBody, reg, o);
            var l := WriteParameterList(m, 0, declarationWithinClass, hasBody, NamesClash(m, declarationWithinClass), reg, o);
            && (r.Ok? <==> l.Ok?)
            && (r.Ok? ==> r.value == Emitted([TextSpan("(")] + l.value.tokens
                                             + (if |m.parameters| > 0 && m.isVararg then [TextSpan("...")] else [])
                                             + [TextSpan(")")], l.value.reg))
  {
    var l := WriteParameterList(m, 0, declarationWithinClass, hasBody, NamesClash(m, declarationWithinClass), reg, o);
    if l.Ok? {
      ParametersAroundList(m, declarationWithinClass, hasBody, reg, o, l.value.tokens, l.value.reg);
    }
  }

  /** Wrapping an agreeing list from the start in fixed tokens. */
  lemma WrapAgrees(count: nat, varargs: seq<Token>, r: Result<Emitted>, l: Result<Emitted>, w: Result<EachWritten>)
    requires Agrees(0, count, l, w)
    requires r.Ok? <==> l.Ok?
    requires r.Ok? ==> r.value == Emitted([TextSpan("(")] + l.value.tokens + varargs + [TextSpan(")")], l.value.reg)
    ensures r.Ok? <==> w.Ok?
    ensures r.Ok? ==> |w.value.regs| > count
                      && r.value == Emitted([TextSpan("(")] + JoinComma(w.value.parts) + varargs + [TextSpan(")")],
                                            w.value.regs[count])
  {
    if r.Ok? {
      assert Lead(0, w.value.parts) == [];
      assert l.value.tokens == JoinComma(w.value.parts);
    }
  }

  lemma {:induction false} ErasedParameterList(m: MethodSym, from: nat, clash: bool, reg: Registry, o: Oracle)
    requires from <= |m.parameters|
    requires o.isVirtualGenericMethod(m)
    requires forall i :: 0 <= i < |m.parameters| ==> m.parameters[i].paramType.ParamT? && m.parameters[i].refKind == ByValue
    ensures WriteParameterList(m, from, true, false, clash, reg, o) == Ok(Emitted(ObjectList(from, |m.parameters|), reg))
    decreases |m.parameters| - from
  {
    if from < |m.parameters| {
      var p := m.parameters[from];
      assert MemberType(m, p.paramType, true, reg, o) == Ok(Emitted([TextSpan("object*")], reg));
      assert ParameterTail(p, from, true, false, clash, o) == [];
      var w := WriteParameter(m, from, true, false, clash, reg, o);
      assert w.Ok? && w.value.reg == reg;
      assert w.value.tokens == [TextSpan("object*")] + [] == [TextSpan("object*")];
      assert w == Ok(Emitted([TextSpan("object*")], reg));
      ErasedParameterList(m, from + 1, clash, reg, o);
      ParameterListStep(m, from, true, false, clash, reg, o, [TextSpan("object*")], ObjectList(from + 1, |m.parameters|));
    }
  }



  /** In the declaration of an erased virtual generic method inside its
      class, by-value parameters of type-parameter type are all written as
      `object*`, comma separated, without names. */
  lemma ErasedParameters(m: MethodSym, reg: Registry, o: Oracle)
    requires o.isVirtualGenericMethod(m) && !m.isVararg
    requires forall i :: 0 <= i < |m.parameters| ==> m.parameters[i].paramType.ParamT? && m.parameters[i].refKind == ByValue
    ensures WriteMethodParameters(m, true, false, reg, o)
            == Ok(Emitted([TextSpan("(")] + ObjectList(0, |m.parameters|) + [TextSpan(")")], reg))
  {
    var l := ObjectList(0, |m.parameters|);
    ErasedParameterList(m, 0, NamesClash(m, true), reg, o);
    ParametersAroundList(m, true, false, reg, o, l, reg);
    assert [TextSpan("(")] + l + [] + [TextSpan(")")] == [TextSpan("(")] + l + [TextSpan(")")];
  }

  /** `WriteMethodReturn`: nothing for a constructor; otherwise `void`, or
      `object*` for an erased type-parameter result, or the return type,
      then a space. A missing return type is a null dereference. */
  function WriteMethodReturn(m: MethodSym, declarationWithinClass: bool, reg: Registry, o: Oracle): (r: Result<Emitted>)
    ensures m.kind.Constructor? ==> r == Ok(Emitted([], reg))
    ensures !m.kind.Constructor? && r.Ok? ==> |r.value.tokens| >= 2 && r.value.tokens[|r.value.tokens| - 1] == WhiteSpace
    ensures !m.kind.Constructor? && m.returnsVoid ==> r == Ok(Emitted([TextSpan("void"), WhiteSpace], reg))
    ensures !m.kind.Constructor? && !m.returnsVoid ==> (m.returnType.None? ==> r == Fail(NullReference))
    ensures !m.kind.Constructor? && !m.returnsVoid && m.returnType.Some? && Erased(m, m.returnType.value, o) ==>
              r == Ok(Emitted([TextSpan("object*"), WhiteSpace], reg))
    ensures !m.kind.Constructor? && !m.returnsVoid && m.returnType.Some? ==>
              var t := MemberType(m, m.returnType.value, declarationWithinClass, reg, o);
              && (r.Ok? <==> t.Ok?)
              && (r.Ok? ==> r.value == Emitted(t.value.tokens + [WhiteSpace], t.value.reg))
    ensures r.Ok? ==> Extends(reg, r.value.reg)
    ensures r.Ok? && Valid(reg) ==> Valid(r.value.reg)
    ensures r.Fail? ==> r.fault.NullReference? || r.fault.NotImplemented?
  {
    if m.kind.Constructor? then Ok(Emitted([], reg))
    else if m.returnsVoid then Ok(Emitted([TextSpan("void"), WhiteSpace], reg))
    else if m.returnType.None? then Fail(NullReference)
    else
      var t :- MemberType(m, m.returnType.value, declarationWithinClass, reg, o);
      var ts := t.tokens + [WhiteSpace];
      assert ts[|ts| - 1] == WhiteSpace;
      assert Erased(m, m.returnType.value, o) ==> ts == [TextSpan("object*"), WhiteSpace];
      Ok(Emitted(ts, t.reg))
  }

  /** `WriteMethodSuffixes`: inside a class declaration, ` override` for an
      override, otherwise ` = 0` for an abstract method; nothing elsewhere. */
  function WriteMethodSuffixes(m: MethodSym, declarationWithinClass: bool): (r: seq<Token>)
    ensures |r| <= 1
    ensures r == [TextSpan(" = 0")] <==> declarationWithinClass && m.isAbstract && !m.isOverride
    ensures r == [TextSpan(" override")] <==> declarationWithinClass && m.isOverride
    ensures !declarationWithinClass ==> r == []
  {
    if declarationWithinClass then
      if m.isOverride then [TextSpan(" override")]
      else if m.isAbstract then [TextSpan(" = 0")]
      else []
    else []
  }

  // ---------------------------------------------------------------------
  // Template declarations
  // ---------------------------------------------------------------------

  /** `EnumerateTemplateParametersRecursive`: the type parameters of the
      outermost containing type first, down to the type's own. */
  function EnumerateTemplateParameters(nt: NamedTypeSym): (r: seq<TypeParam>)
    ensures nt.containingType.None? ==> r == nt.typeParameters
    ensures |r| >= |nt.typeParameters| && r[|r| - |nt.typeParameters|..] == nt.typeParameters
    ensures nt.containingType.Some? ==>
              var outer := EnumerateTemplateParameters(nt.containingType.value);
              |outer| <= |r| && r[..|outer|] == outer
  {
    (if nt.containingType.Some? then EnumerateTemplateParameters(nt.containingType.value) else []) + nt.typeParameters
  }

  function ParameterCount(chain: seq<NamedTypeSym>): nat {
    if |chain| == 0 then 0 else ParameterCount(chain[..|chain| - 1]) + |chain[|chain| - 1].typeParameters|
  }

  /** Before deduplication there is one entry per type parameter of every
      type in the containing chain, the outermost type's first. */
  lemma {:induction false} TemplateParameterCount(nt: NamedTypeSym)
    ensures |EnumerateTemplateParameters(nt)| == ParameterCount(ContainerChain(nt))
    decreases nt
  {
    if nt.containingType.Some? {
      TemplateParameterCount(nt.containingType.value);
      var chain := ContainerChain(nt);
      assert chain[..|chain| - 1] == ContainerChain(nt.containingType.value);
    } else {
      assert ContainerChain(nt)[..0] == [];
    }
  }

  /** The name of a template parameter: made unique by its containing
      type's id when that type is itself nested. */
  function TemplateParameterName(tp: TypeParam, reg: Registry, o: Oracle): (r: Emitted)
    ensures |r.tokens| == 1
    ensures Extends(reg, r.reg)
    ensures Valid(reg) ==> Valid(r.reg)
    ensures !(tp.owner.Some? && tp.owner.value.nested) ==> r == Emitted([TextSpan(o.cleanUpName(tp.name))], reg)
  {
    if tp.owner.Some? && tp.owner.value.nested then WriteUniqueNameByContainingType(tp, reg, o)
    else Emitted(WriteName(tp.name, o), reg)
  }

  /** The names of `tps`, one token each, written left to right. */
  function TemplateParameterNames(tps: seq<TypeParam>, reg: Registry, o: Oracle): (r: Emitted)
    ensures |r.tokens| == |tps|
    ensures Extends(reg, r.reg)
    ensures Valid(reg) ==> Valid(r.reg)
  {
    if |tps| == 0 then Emitted([], reg)
    else
      var first := TemplateParameterName(tps[0], reg, o);
      var rest := TemplateParameterNames(tps[1..], first.reg, o);
      Emitted(first.tokens + rest.tokens, rest.reg)
  }

  /** Without nested owners the names are the plain cleaned names, in
      order, and no id is interned. */
  lemma {:induction false} PlainTemplateParameterNames(tps: seq<TypeParam>, reg: Registry, o: Oracle)
    requires forall i :: 0 <= i < |tps| ==> !(tps[i].owner.Some? && tps[i].owner.value.nested)
    ensures var r := TemplateParameterNames(tps, reg, o);
            && r.reg == reg
            && forall i :: 0 <= i < |tps| ==> r.tokens[i] == TextSpan(o.cleanUpName(tps[i].name))
    decreases |tps|
  {
    if |tps| > 0 {
      var first := TemplateParameterName(tps[0], reg, o);
      assert first == Emitted([TextSpan(o.cleanUpName(tps[0].name))], reg);
      assert forall i :: 0 <= i < |tps[1..]| ==> tps[1..][i] == tps[i + 1];
      PlainTemplateParameterNames(tps[1..], reg, o);
      var rest := TemplateParameterNames(tps[1..], reg, o);
      var r := TemplateParameterNames(tps, reg, o);
      assert r == Emitted(first.tokens + rest.tokens, rest.reg);
      forall i | 0 <= i < |tps|
        ensures r.tokens[i] == TextSpan(o.cleanUpName(tps[i].name))
      {
        if i > 0 {
          assert r.tokens[i] == rest.tokens[i - 1];
        }
      }
    }
  }

  /** `typename N` per name, separated by `,` and a space. */
  function TypenameList(names: seq<Token>): (r: seq<Token>)
    ensures |r| == if |names| == 0 then 0 else 5 * |names| - 2
    ensures forall i :: 0 <= i < |names| ==>
              r[5 * i] == TextSpan("typename") && r[5 * i + 1] == WhiteSpace && r[5 * i + 2] == names[i]
    ensures forall i :: 0 < i < |names| ==> r[5 * i - 2] == TextSpan(",") && r[5 * i - 1] == WhiteSpace
    decreases |names|
  {
    if |names| == 0 then []
    else if |names| == 1 then [TextSpan("typename"), WhiteSpace, names[0]]
    else
      var init := TypenameList(names[..|names| - 1]);
      var r := init + [TextSpan(","), WhiteSpace, TextSpan("typename"), WhiteSpace, names[|names| - 1]];
      assert forall i :: 0 <= i < |names| - 1 ==> names[i] == names[..|names| - 1][i];
      r
  }

  /** `template <`, the `typename` list of `names`, `> `. */
  function TemplateDeclarationTokens(names: seq<Token>): (r: seq<Token>)
    ensures |r| == 2 + (if |names| == 0 then 0 else 5 * |names| - 2)
    ensures r[0] == TextSpan("template <") && r[|r| - 1] == TextSpan("> ")
    ensures forall i :: 0 <= i < |names| ==> r[5 * i + 1] == TextSpan("typename") && r[5 * i + 3] == names[i]
  {
    var l := TypenameList(names);
    var ts := [TextSpan("template <")] + l + [TextSpan("> ")];
    forall i | 0 <= i < |names|
      ensures ts[5 * i + 1] == TextSpan("typename") && ts[5 * i + 3] == names[i]
    {
      assert l[5 * i + 2] == names[i];
      assert ts[5 * i + 1] == l[5 * i];
      assert ts[5 * i + 3] == l[5 * i + 2];
    }
    ts
  }

  /** `WriteTemplateDeclaration` of a type: `template <`, one
      `typename N` per distinct template parameter of the type and its
      containing types (outermost first), `> `. */
  function WriteTemplateDeclaration(nt: NamedTypeSym, reg: Registry, o: Oracle): (r: Emitted)
    ensures var ps := Dedup(EnumerateTemplateParameters(nt));
            var names := TemplateParameterNames(ps, reg, o);
            r == Emitted(TemplateDeclarationTokens(names.tokens), names.reg)
    ensures Extends(reg, r.reg)
    ensures Valid(reg) ==> Valid(r.reg)
  {
    var names := TemplateParameterNames(Dedup(EnumerateTemplateParameters(nt)), reg, o);
    Emitted(TemplateDeclarationTokens(names.tokens), names.reg)
  }

  /** A type parameter reached twice through the containing chain is
      declared once; without repetitions there is one `typename` per
      enumerated parameter. */
  lemma TemplateDeclarationDeduplicates(nt: NamedTypeSym, reg: Registry, o: Oracle)
    ensures var n := |Dedup(EnumerateTemplateParameters(nt))|;
            var r := WriteTemplateDeclaration(nt, reg, o);
            && (NoDuplicates(EnumerateTemplateParameters(nt)) <==> n == |EnumerateTemplateParameters(nt)|)
            && |r.tokens| == 2 + (if n == 0 then 0 else 5 * n - 2)
  {
    DedupKeepsAllIffDistinct(EnumerateTemplateParameters(nt));
  }

  /** Without nested owners every declared name is the plain cleaned name of
      the parameter, in first-seen order, and no id is interned. */
  lemma TemplateDeclarationNames(nt: NamedTypeSym, reg: Registry, o: Oracle)
    requires forall tp :: tp in EnumerateTemplateParameters(nt) ==> !(tp.owner.Some? && tp.owner.value.nested)
    ensures var ps := Dedup(EnumerateTemplateParameters(nt));
            var r := WriteTemplateDeclaration(nt, reg, o);
            && r.reg == reg
            && forall i :: 0 <= i < |ps| ==> r.tokens[5 * i + 3] == TextSpan(o.cleanUpName(ps[i].name))
  {
    var all := EnumerateTemplateParameters(nt);
    var ps := Dedup(all);
    forall i | 0 <= i < |ps|
      ensures !(ps[i].owner.Some? && ps[i].owner.value.nested)
    {
      assert ps[i] in all;
    }
    PlainTemplateParameterNames(ps, reg, o);
    var names := TemplateParameterNames(ps, reg, o);
    var r := WriteTemplateDeclaration(nt, reg, o);
    assert r == Emitted(TemplateDeclarationTokens(names.tokens), names.reg);
    forall i | 0 <= i < |ps|
      ensures r.tokens[5 * i + 3] == TextSpan(o.cleanUpName(ps[i].name))
    {
      assert r.tokens[5 * i + 3] == names.tokens[i];
    }
  }

  /** `typename N` per name, separated by `, `. */
  function TypenameListOfMethod(names: seq<Token>): (r: seq<Token>)
    ensures |r| == if |names| == 0 then 0 else 3 * |names| - 1
    ensures forall i :: 0 <= i < |names| ==> r[3 * i] == TextSpan("typename ") && r[3 * i + 1] == names[i]
    ensures forall i :: 0 < i < |names| ==> r[3 * i - 1] == TextSpan(", ")
    decreases |names|
  {
    if |names| == 0 then []
    else if |names| == 1 then [TextSpan("typename "), names[0]]
    else
      var init := TypenameListOfMethod(names[..|names| - 1]);
      var r := init + [TextSpan(", "), TextSpan("typename "), names[|names| - 1]];
      assert forall i :: 0 <= i < |names| - 1 ==> names[i] == names[..|names| - 1][i];
      r
  }

  /** `WriteTemplateDeclaration` of a method: `template <`, one
      `typename N` per type parameter of the method — repetitions are not
      removed here — `> `. */
  function WriteMethodTemplateDeclaration(m: MethodSym, reg: Registry, o: Oracle): (r: Emitted)
    ensures var n := |m.typeParameters|;
            && |r.tokens| == 2 + (if n == 0 then 0 else 3 * n - 1)
            && r.tokens[0] == TextSpan("template <") && r.tokens[|r.tokens| - 1] == TextSpan("> ")
            && forall i :: 0 <= i < n ==> r.tokens[3 * i + 1] == TextSpan("typename ")
    ensures var names := TemplateParameterNames(m.typeParameters, reg, o);
            && r.reg == names.reg
            && forall i :: 0 <= i < |m.typeParameters| ==> r.tokens[3 * i + 2] == names.tokens[i]
    ensures Extends(reg, r.reg)
    ensures Valid(reg) ==> Valid(r.reg)
  {
    var names := TemplateParameterNames(m.typeParameters, reg, o);
    var ts := [TextSpan("template <")] + TypenameListOfMethod(names.tokens) + [TextSpan("> ")];
    MethodTemplatePositions(names.tokens);
    Emitted(ts, names.reg)
  }

  /** Positions in the bracketed `typename` list. */
  lemma MethodTemplatePositions(names: seq<Token>)
    ensures var ts := [TextSpan("template <")] + TypenameListOfMethod(names) + [TextSpan("> ")];
            && |ts| == 2 + (if |names| == 0 then 0 else 3 * |names| - 1)
            && forall i :: 0 <= i < |names| ==> ts[3 * i + 1] == TextSpan("typename ") && ts[3 * i + 2] == names[i]
  {
    var l := TypenameListOfMethod(names);
    var ts := [TextSpan("template <")] + l + [TextSpan("> ")];
    forall i | 0 <= i < |names|
      ensures ts[3 * i + 1] == TextSpan("typename ") && ts[3 * i + 2] == names[i]
    {
      assert l[3 * i + 1] == names[i];
      assert ts[3 * i + 1] == l[3 * i];
      assert ts[3 * i + 2] == l[3 * i + 1];
    }
  }

  /** Without nested owners, entry i of a method's template declaration
      names the method's i-th type parameter by its cleaned name, and no id
      is interned. */
  lemma MethodTemplateDeclarationNames(m: MethodSym, reg: Registry, o: Oracle)
    requires forall i :: 0 <= i < |m.typeParameters| ==>
               !(m.typeParameters[i].owner.Some? && m.typeParameters[i].owner.value.nested)
    ensures var r := WriteMethodTemplateDeclaration(m, reg, o);
            && r.reg == reg
            && forall i :: 0 <= i < |m.typeParameters| ==>
                 r.tokens[3 * i + 2] == TextSpan(o.cleanUpName(m.typeParameters[i].name))
  {
    PlainTemplateParameterNames(m.typeParameters, reg, o);
  }
}

=== FILE: outcomes.dfy ===
/** Failure-compatible result types shared by every module of the model.

    The code generator signals malformed input and violated preconditions by
    throwing .NET exceptions; the model returns a `Fail` carrying the kind of
    exception instead, so that every error path is an ordinary value.
 */
module Outcomes {

  /** The conventional Some/None datatype, standing in for a nullable reference. */
  datatype Option<+T> = None | Some(value: T)

  /** The .NET exceptions the modelled code raises, with the parameter name
      where the source passes one. */
  datatype Fault =
    | ArgumentNull(param: string)
    | ArgumentOutOfRange(param: string)
    | Format
    | NotImplemented
    | InvalidOperation
    | InvalidCast
    | NullReference

  /** Either a value or the exception that replaced it. */
  datatype Result<+T> = Ok(value: T) | Fail(fault: Fault) {

    predicate IsFailure() {
      Fail?
    }

    function PropagateFailure<U>(): Result<U>
      requires Fail?
    {
      Fail(fault)
    }

    function Extract(): T
      requires Ok?
    {
      value
    }
  }
}

=== FILE: pointer_indirection.dfy ===
/** The pointer dereference node (`PointerIndirectionOperator`): its
    operand is the lowered bound operand when that is an expression, and it
    is written as `*` followed by the operand, parenthesised when needed. */
module PointerIndirection {
  import opened Outcomes
  import opened Symbols
  import opened Ir
  import opened Sink
  import opened ExpressionWriter

  /** `Parse`: the node with the type and reference flag the shared
      expression parsing reads from the bound node, and as operand the
      lowered bound operand cast to an expression — null when the lowering
      gave anything else. */
  function Parse(exprType: Option<TypeSym>, isReference: bool, loweredOperand: Option<Node>): (r: Expression)
    ensures r.node.PointerIndirectionOperator?
    ensures r.exprType == exprType && r.isReference == isReference
    ensures r.node.operand.Some? <==> loweredOperand.Some? && loweredOperand.value.Expr?
    ensures r.node.operand.Some? ==> loweredOperand == Some(Expr(r.node.operand.value))
  {
    var operand := if loweredOperand.Some? && loweredOperand.value.Expr? then Some(loweredOperand.value.expr) else None;
    Expression(PointerIndirectionOperator(operand), exprType, isReference)
  }

  /** `WriteTo`: `*`, then the operand, wrapped in one matched parenthesis
      pair exactly when it is a creation or an operator. A null operand is
      an argument error. */
  function WriteTo(operand: Option<Expression>): (r: Result<seq<Token>>)
    ensures r.Fail? <==> operand.None?
    ensures r.Fail? ==> r.fault == ArgumentNull("expression")
    ensures r.Ok? ==> |r.value| >= 2 && r.value[0] == TextSpan("*")
    ensures r.Ok? ==> Balanced(Parens, r.value)
    ensures r.Ok? ==> (Enclosed(Parens, r.value[1..]) <==> NeedsParentheses(operand.value))
    ensures r.Ok? ==> StripParentheses(r.value[1..]) == [WriteNode(Expr(operand.value))]
  {
    var inner :- WriteExpressionInParenthesesIfNeeded(operand);
    var star := [TextSpan("*")];
    BalancedFree(Parens, star);
    BalancedAppend(Parens, star, inner);
    assert (star + inner)[1..] == inner;
    Ok(star + inner)
  }

  /** Writing a parsed dereference fails exactly when the lowered operand
      was not an expression; otherwise the operand written after `*` is the
      lowered one. */
  lemma ParseThenWrite(exprType: Option<TypeSym>, isReference: bool, loweredOperand: Option<Node>)
    ensures var w := WriteTo(Parse(exprType, isReference, loweredOperand).node.operand);
            && (w.Fail? <==> !(loweredOperand.Some? && loweredOperand.value.Expr?))
            && (w.Ok? ==> StripParentheses(w.value[1..]) == [WriteNode(loweredOperand.value)])
  {
  }
}

=== FILE: runtime_type_ctor.dfy ===
/** The synthesized constructor of a runtime type
    (`CCodeRuntimeTypeConstructorDeclaration`): a constructor taking one
    `void*` named `value` whose body stores a new handle, built from
    `value`, in the type's `m_handle` field. With `cppConst` it is named
    after the type and has no return type; without, it is `_ctor` returning
    void. */
module RuntimeTypeConstructor {
  import opened Outcomes
  import opened Symbols
  import opened Ir
  import opened Sink
  import opened Interning
  import opened Seqs
  import opened TypeWriter
  import opened MethodWriter

  /** The declaration: the synthesized method symbol and its body. */
  datatype Declaration = Declaration(symbol: MethodSym, body: seq<Stmt>)

  const HandleField: string := "m_handle"
  const ValueParameter: string := "value"

  /** `RuntimeTypeConstructorMethod`: the symbol's settings. Fields the
      synthesized symbol leaves unset keep their defaults. */
  function RuntimeTypeConstructorMethod(t: NamedTypeSym, cppConst: bool, o: Oracle): (m: MethodSym)
    ensures m.kind == Constructor && m.returnsVoid
    ensures m.receiverType == NamedT(t) && m.containingType == t
    ensures m.name == if cppConst then o.typeName(t) else "_ctor"
    ensures m.returnType.None? <==> cppConst
    ensures m.returnType.Some? ==> Special(m.returnType.value) == Void
    ensures |m.parameters| == 1 && m.parameters[0].name == ValueParameter && m.parameters[0].refKind == ByValue
    ensures m.parameters[0].paramType.PointerT? && Special(m.parameters[0].paramType.pointee) == Void
    ensures !IsGenericMethod(m) && !m.isVararg && !m.isStatic && !m.isAbstract && !m.isVirtual && !m.isOverride
  {
    MethodSym(
      name := if cppConst then o.typeName(t) else "_ctor",
      kind := Constructor,
      isStatic := false,
      isAbstract := false,
      isVirtual := false,
      isOverride := false,
      isVararg := false,
      returnsVoid := true,
      returnType := if !cppConst then Some(BareType(Void)) else None,
      receiverType := NamedT(t),
      containingType := t,
      containingNamespace := None,
      parameters := [ParamSym(ValueParameter, PointerT(BareType(Void)), ByValue)],
      typeParameters := [],
      typeArguments := [])
  }

  /** The position of the first field named `m_handle`, if any. */
  function FirstHandle(fields: seq<FieldSym>): (r: Option<nat>)
    ensures r.None? <==> forall i :: 0 <= i < |fields| ==> fields[i].name != HandleField
    ensures r.Some? ==> r.value < |fields| && fields[r.value].name == HandleField
                        && forall j :: 0 <= j < r.value ==> fields[j].name != HandleField
  {
    if |fields| == 0 then None
    else if fields[0].name == HandleField then Some(0)
    else
      var rest := FirstHandle(fields[1..]);
      assert forall i :: 1 <= i < |fields| ==> fields[i] == fields[1..][i - 1];
      if rest.None? then None else Some(rest.value + 1)
  }

  /** `this.m_handle = new <type of m_handle>(value)`. */
  function HandleAssignment(t: NamedTypeSym, handleType: TypeSym): Stmt {
    ExpressionStatement(Expression(
      AssignmentOperator(
        Expression(FieldAccess(Some(Expression(ThisReference, Some(NamedT(t)), false)), HandleField), None, false),
        Expression(ObjectCreationExpression([Expression(Parameter(ValueParameter), None, false)]), Some(handleType), false)),
      None, false))
  }

  /** The constructor body: one statement assigning the handle. The type
      of `m_handle` is looked up among the type's fields, in declaration
      order; `First` throws when there is none. */
  function Body(t: NamedTypeSym, fields: seq<FieldSym>): (r: Result<seq<Stmt>>)
    ensures r.Fail? <==> forall i :: 0 <= i < |fields| ==> fields[i].name != HandleField
    ensures r.Fail? ==> r.fault == InvalidOperation
    ensures r.Ok? ==> |r.value| == 1 && r.value[0].ExpressionStatement?
    ensures r.Ok? ==> exists i :: 0 <= i < |fields| && fields[i].name == HandleField
                                  && (forall j :: 0 <= j < i ==> fields[j].name != HandleField)
                                  && r.value == [HandleAssignment(t, fields[i].fieldType)]
  {
    var k := FirstHandle(fields);
    if k.None? then Fail(InvalidOperation)
    else Ok([HandleAssignment(t, fields[k.value].fieldType)])
  }

  /** `new CCodeRuntimeTypeConstructorDeclaration(type, cppConst)`; `fields`
      are the type's field members in declaration order. */
  function New(t: NamedTypeSym, cppConst: bool, fields: seq<FieldSym>, o: Oracle): (r: Result<Declaration>)
    ensures r.Ok? <==> Body(t, fields).Ok?
    ensures r.Fail? ==> r.fault == InvalidOperation
    ensures r.Ok? ==> r.value.symbol == RuntimeTypeConstructorMethod(t, cppConst, o) && r.value.body == Body(t, fields).value
  {
    var body :- Body(t, fields);
    Ok(Declaration(RuntimeTypeConstructorMethod(t, cppConst, o), body))
  }

  /** The assignment reads as the source writes it: its left side is the
      `m_handle` field of `this`, typed as the constructed type; its right
      side a creation of the field's type from the `value` parameter alone;
      and the creation is parenthesised when written as a receiver. */
  lemma AssignmentShape(t: NamedTypeSym, handleType: TypeSym)
    ensures var e := HandleAssignment(t, handleType).expression;
            && e.node.AssignmentOperator?
            && e.node.left.node.FieldAccess? && e.node.left.node.field == HandleField
            && e.node.left.node.receiverOpt.Some?
            && e.node.left.node.receiverOpt.value.node.ThisReference?
            && e.node.left.node.receiverOpt.value.exprType == Some(NamedT(t))
            && e.node.right.node.ObjectCreationExpression?
            && e.node.right.exprType == Some(handleType)
            && |e.node.right.node.arguments| == 1
            && e.node.right.node.arguments[0].node == Parameter(ValueParameter)
  {
  }

  /** The two variants differ only in the name and return type the symbol
      records, and the method writer spells their names and return types
      alike: a constructor is named after its receiver and written without
      a return type. */
  lemma VariantsWrittenAlike(t: NamedTypeSym, addTemplate: bool, forName: Option<MethodSym>,
                             declarationWithinClass: bool, reg: Registry, o: Oracle)
    ensures var m1 := RuntimeTypeConstructorMethod(t, true, o);
            var m2 := RuntimeTypeConstructorMethod(t, false, o);
            && m1.(name := m2.name, returnType := m2.returnType) == m2
            && WriteMethodName(m1, addTemplate, forName, reg, o) == WriteMethodName(m2, addTemplate, forName, reg, o)
            && WriteMethodName(m1, addTemplate, forName, reg, o)
               == Ok(Emitted(InterfacePrefix(m1, o) + WriteTypeName(t, false, false, o), reg))
            && WriteMethodReturn(m1, declarationWithinClass, reg, o) == Ok(Emitted([], reg))
            && WriteMethodReturn(m2, declarationWithinClass, reg, o) == Ok(Emitted([], reg))
  {
    var m1 := RuntimeTypeConstructorMethod(t, true, o);
    var m2 := RuntimeTypeConstructorMethod(t, false, o);
    assert TemplateKeyword(m1, addTemplate) == [] && TemplateKeyword(m2, addTemplate) == [];
    assert InterfacePrefix(m1, o) == InterfacePrefix(m2, o);
    assert [] + InterfacePrefix(m1, o) == InterfacePrefix(m1, o);
  }

  /** `void*`, whatever keywords are allowed. */
  lemma VoidPointer(allowKeywords: bool, reg: Registry, o: Oracle)
    ensures WriteType(PointerT(BareType(Void)), false, allowKeywords, false, reg, o)
            == Ok(Emitted([TextSpan("void"), TextSpan("*")], reg))
  {
    assert WriteType(BareType(Void), false, allowKeywords, false, reg, o) == Ok(Emitted([TextSpan("void")], reg));
    assert !WriteSpecialType(PointerT(BareType(Void))).0;
    assert [TextSpan("void")] + [TextSpan("*")] == [TextSpan("void"), TextSpan("*")];
  }

  /** The only parameter: `void*`, then where the name is written a space
      and `value`. */
  lemma ValueParameterSpelling(m: MethodSym, declarationWithinClass: bool, hasBody: bool, reg: Registry, o: Oracle)
    requires |m.parameters| == 1 && m.parameters[0] == ParamSym(ValueParameter, PointerT(BareType(Void)), ByValue)
    ensures !NamesClash(m, declarationWithinClass)
    ensures WriteParameter(m, 0, declarationWithinClass, hasBody, false, reg, o)
            == Ok(Emitted([TextSpan("void"), TextSpan("*")]
                          + (if !declarationWithinClass || hasBody
                             then [WhiteSpace, TextSpan(o.ensureCompatible(o.cleanUpName(ValueParameter)))] else []),
                          reg))
  {
    assert ParameterNames(m.parameters) == [ValueParameter];
    DedupOfDistinct([ValueParameter]);
    VoidPointer(!declarationWithinClass, reg, o);
    assert !Erased(m, m.parameters[0].paramType, o);
  }

  /** The names written after the only parameter, where names are written. */
  function ValueTail(declarationWithinClass: bool, hasBody: bool, o: Oracle): seq<Token> {
    if !declarationWithinClass || hasBody
    then [WhiteSpace, TextSpan(o.ensureCompatible(o.cleanUpName(ValueParameter)))] else []
  }

  /** The list inside the parentheses holds the one parameter alone. */
  lemma SingleValueParameter(m: MethodSym, declarationWithinClass: bool, hasBody: bool, reg: Registry, o: Oracle)
    requires m.parameters == [ParamSym(ValueParameter, PointerT(BareType(Void)), ByValue)]
    ensures WriteParameterList(m, 0, declarationWithinClass, hasBody, NamesClash(m, declarationWithinClass), reg, o)
            == Ok(Emitted([TextSpan("void"), TextSpan("*")] + ValueTail(declarationWithinClass, hasBody, o), reg))
  {
    ValueParameterSpelling(m, declarationWithinClass, hasBody, reg, o);
    var one := [TextSpan("void"), TextSpan("*")] + ValueTail(declarationWithinClass, hasBody, o);
    var clash := NamesClash(m, declarationWithinClass);
    assert WriteParameter(m, 0, declarationWithinClass, hasBody, clash, reg, o) == Ok(Emitted(one, reg));
    assert WriteParameterList(m, 1, declarationWithinClass, hasBody, clash, reg, o) == Ok(Emitted([], reg));
    ParameterListStep(m, 0, declarationWithinClass, hasBody, clash, reg, o, one, []);
    assert [] + one + [] == one;
  }

  /** A method whose only parameter is `void* value` lists it alone. */
  lemma SingleValueParameterList(m: MethodSym, declarationWithinClass: bool, hasBody: bool, reg: Registry, o: Oracle)
    requires m.parameters == [ParamSym(ValueParameter, PointerT(BareType(Void)), ByValue)] && !m.isVararg
    ensures WriteMethodParameters(m, declarationWithinClass, hasBody, reg, o)
            == Ok(Emitted([TextSpan("("), TextSpan("void"), TextSpan("*")] + ValueTail(declarationWithinClass, hasBody, o)
                          + [TextSpan(")")], reg))
  {
    var one := [TextSpan("void"), TextSpan("*")] + ValueTail(declarationWithinClass, hasBody, o);
    SingleValueParameter(m, declarationWithinClass, hasBody, reg, o);
    ParametersAroundList(m, declarationWithinClass, hasBody, reg, o, one, reg);
    Regroup(TextSpan("("), TextSpan("void"), TextSpan("*"), ValueTail(declarationWithinClass, hasBody, o), TextSpan(")"));
  }

  lemma Regroup<X>(a: X, b: X, c: X, t: seq<X>, d: X)
    ensures [a] + ([b, c] + t) + [] + [d] == [a, b, c] + t + [d]
  {
    assert [a] + ([b, c] + t) == [a, b, c] + t;
  }

  /** The parameter list is `(void* value)` where the name is written, and
      `(void*)` in a class declaration without a body, for either variant. */
  lemma ParameterListSpelling(t: NamedTypeSym, cppConst: bool, declarationWithinClass: bool, hasBody: bool,
                              reg: Registry, o: Oracle)
    ensures WriteMethodParameters(RuntimeTypeConstructorMethod(t, cppConst, o), declarationWithinClass, hasBody, reg, o)
            == Ok(Emitted([TextSpan("("), TextSpan("void"), TextSpan("*")]
                          + (if !declarationWithinClass || hasBody
                             then [WhiteSpace, TextSpan(o.ensureCompatible(o.cleanUpName(ValueParameter)))] else [])
                          + [TextSpan(")")], reg))
  {
    SingleValueParameterList(RuntimeTypeConstructorMethod(t, cppConst, o), declarationWithinClass, hasBody, reg, o);
  }
}

=== FILE: seqs.dfy ===
/** Sequence helpers used by several writers: duplicate removal in
    first-occurrence order (LINQ `Distinct`) and the facts about it. */
module Seqs {

  /** No element occurs twice. */
  predicate NoDuplicates<T(==)>(s: seq<T>) {
    forall i, j :: 0 <= i < j < |s| ==> s[i] != s[j]
  }

  /** `s` with every repeated element dropped after its first occurrence,
      order preserved. */
  function Dedup<T(==)>(s: seq<T>): (r: seq<T>)
    ensures forall i :: 0 <= i < |r| ==> r[i] in s
    ensures forall i :: 0 <= i < |s| ==> s[i] in r
    ensures NoDuplicates(r)
    ensures |r| <= |s|
    decreases |s|
  {
    if |s| == 0 then []
    else
      var init := s[..|s| - 1];
      var last := s[|s| - 1];
      assert s == init + [last];
      var d := Dedup(init);
      if last in init then d else d + [last]
  }

  /** Position of the first occurrence of `x` in `s`. */
  function IndexOf<T(==)>(s: seq<T>, x: T): (i: nat)
    requires x in s
    ensures i < |s| && s[i] == x
    ensures forall j :: 0 <= j < i ==> s[j] != x
  {
    if s[0] == x then 0 else 1 + IndexOf(s[1..], x)
  }

  /** On a sequence without repetitions `Dedup` changes nothing, so applying
      it twice is the same as applying it once. */
  lemma {:induction false} DedupOfDistinct<T>(s: seq<T>)
    requires NoDuplicates(s)
    ensures Dedup(s) == s
    decreases |s|
  {
    if |s| > 0 {
      var init := s[..|s| - 1];
      assert NoDuplicates(init);
      DedupOfDistinct(init);
      assert s[|s| - 1] !in init;
      assert s == init + [s[|s| - 1]];
    }
  }

  /** Appending an element that is already present leaves `Dedup` unchanged;
      appending a new one appends it. */
  lemma DedupSnoc<T>(s: seq<T>, x: T)
    ensures Dedup(s + [x]) == if x in s then Dedup(s) else Dedup(s) + [x]
  {
    assert (s + [x])[..|s + [x]| - 1] == s;
  }

  /** A sequence without repetitions has as many distinct elements as entries. */
  lemma {:induction false} CardOfDistinct<T>(s: seq<T>)
    requires NoDuplicates(s)
    ensures |set x | x in s| == |s|
    decreases |s|
  {
    if |s| > 0 {
      var init := s[..|s| - 1];
      assert NoDuplicates(init);
      CardOfDistinct(init);
      assert s == init + [s[|s| - 1]];
      assert (set x | x in s) == (set x | x in init) + {s[|s| - 1]};
    }
  }

  /** `Dedup` drops nothing exactly when nothing repeats, which is how a
      `Distinct().Count()` comparison detects a repetition. */
  lemma {:induction false} DedupKeepsAllIffDistinct<T>(s: seq<T>)
    ensures |Dedup(s)| == |s| <==> NoDuplicates(s)
    decreases |s|
  {
    if |s| > 0 {
      var init := s[..|s| - 1];
      var last := s[|s| - 1];
      assert s == init + [last];
      DedupKeepsAllIffDistinct(init);
      if NoDuplicates(s) {
        DedupOfDistinct(s);
      } else if last !in init {
        assert !NoDuplicates(init);
      }
    }
  }
}

=== FILE: sink.dfy ===
/** The emitter contract: the abstract text sink the code writer drives.
    An emission is modelled as the sequence of sink calls it makes. */
module Sink {
  import opened Outcomes
  import opened Ir

  /** One call on the sink. `WriteNode(n)` stands for the emission of a
      node by its own `WriteTo` and `StatementAsExpression(s)` for
      `PrintStatementAsExpression(c, s)`; neither is modelled further. */
  datatype Token =
    | TextSpan(text: string)
    | TextSpanNewLine(text: string)
    | OpenBlock
    | EndBlock
    | EndBlockWithoutNewLine
    | EndStatement
    | WhiteSpace
    | NewLine
    | Separate
    | IncrementIndent
    | DecrementIndent
    | SaveAndSet0Indent
    | RestoreIndent
    | RequireEmptyStatement
    | WriteNode(node: Node)
    | StatementAsExpression(statement: Option<Stmt>)

  /** The text a run of tokens puts on the current line: spans and single
      spaces. */
  function Flat(ts: seq<Token>): string {
    if |ts| == 0 then ""
    else
      (match ts[0]
       case TextSpan(s) => s
       case WhiteSpace => " "
       case _ => "") + Flat(ts[1..])
  }

  lemma {:induction false} FlatAppend(a: seq<Token>, b: seq<Token>)
    ensures Flat(a + b) == Flat(a) + Flat(b)
    decreases |a|
  {
    if |a| == 0 {
      assert a + b == b;
    } else {
      assert (a + b)[0] == a[0];
      assert (a + b)[1..] == a[1..] + b;
      FlatAppend(a[1..], b);
    }
  }

  /** The two kinds of bracket the writers must keep matched: sink blocks
      (`OpenBlock` ... `EndBlock`) and parenthesis spans. */
  datatype Bracket = Braces | Parens

  function Delta(br: Bracket, t: Token): int {
    match br
    case Braces =>
      if t.OpenBlock? then 1 else if t.EndBlock? || t.EndBlockWithoutNewLine? then -1 else 0
    case Parens =>
      if t == TextSpan("(") then 1 else if t == TextSpan(")") then -1 else 0
  }

  /** Opening minus closing brackets of kind `br` in `ts`. */
  function Net(br: Bracket, ts: seq<Token>): int {
    if |ts| == 0 then 0 else Net(br, ts[..|ts| - 1]) + Delta(br, ts[|ts| - 1])
  }

  /** Every closing bracket matches an earlier opening one and none is left
      open. */
  predicate Balanced(br: Bracket, ts: seq<Token>) {
    && Net(br, ts) == 0
    && forall k :: 0 <= k <= |ts| ==> Net(br, ts[..k]) >= 0
  }

  lemma {:induction false} NetAppend(br: Bracket, a: seq<Token>, b: seq<Token>)
    ensures Net(br, a + b) == Net(br, a) + Net(br, b)
    decreases |b|
  {
    if |b| == 0 {
      assert a + b == a;
    } else {
      assert (a + b)[..|a + b| - 1] == a + b[..|b| - 1];
      NetAppend(br, a, b[..|b| - 1]);
    }
  }

  /** Concatenating balanced runs gives a balanced run. */
  lemma BalancedAppend(br: Bracket, a: seq<Token>, b: seq<Token>)
    requires Balanced(br, a) && Balanced(br, b)
    ensures Balanced(br, a + b)
  {
    NetAppend(br, a, b);
    forall k | 0 <= k <= |a + b|
      ensures Net(br, (a + b)[..k]) >= 0
    {
      if k <= |a| {
        assert (a + b)[..k] == a[..k];
      } else {
        assert (a + b)[..k] == a + b[..k - |a|];
        NetAppend(br, a, b[..k - |a|]);
      }
    }
  }

  /** A run without brackets of kind `br` is balanced. */
  lemma {:induction false} BalancedFree(br: Bracket, ts: seq<Token>)
    requires forall i :: 0 <= i < |ts| ==> Delta(br, ts[i]) == 0
    ensures Balanced(br, ts)
    ensures forall k :: 0 <= k <= |ts| ==> Net(br, ts[..k]) == 0
    decreases |ts|
  {
    if |ts| > 0 {
      BalancedFree(br, ts[..|ts| - 1]);
      assert ts[..|ts|] == ts;
      forall k | 0 <= k <= |ts|
        ensures Net(br, ts[..k]) == 0
      {
        if k < |ts| {
          assert ts[..k] == ts[..|ts| - 1][..k];
        }
      }
    }
  }

  /** `ts` is one bracket pair around a balanced run: the bracket opened at
      its head is closed only by the one at its end. */
  predicate Enclosed(br: Bracket, ts: seq<Token>) {
    && |ts| >= 2
    && Delta(br, ts[0]) == 1
    && Delta(br, ts[|ts| - 1]) == -1
    && Balanced(br, ts)
    && forall k :: 0 < k < |ts| ==> Net(br, ts[..k]) >= 1
  }

  /** Wrapping a balanced run in one opening and one closing bracket gives
      an enclosed run. */
  lemma BalancedWrap(br: Bracket, open: Token, inner: seq<Token>, close: Token)
    requires Delta(br, open) == 1 && Delta(br, close) == -1
    requires Balanced(br, inner)
    ensures Enclosed(br, [open] + inner + [close])
  {
    var ts := [open] + inner + [close];
    NetAppend(br, [open], inner);
    NetAppend(br, [open] + inner, [close]);
    assert Net(br, [open]) == 1 by {
      assert [open][..0] == [];
    }
    assert Net(br, [close]) == -1 by {
      assert [close][..0] == [];
    }
    forall k | 0 < k <= |ts|
      ensures Net(br, ts[..k]) >= (if k < |ts| then 1 else 0)
    {
      if k <= |inner| + 1 {
        assert ts[..k] == [open] + inner[..k - 1];
        NetAppend(br, [open], inner[..k - 1]);
      } else {
        assert ts[..k] == ts;
      }
    }
    assert ts[..0] == [];
  }

  /** An enclosed run is not bracket-free: no run without brackets is
      enclosed. */
  lemma FreeNotEnclosed(br: Bracket, ts: seq<Token>)
    requires forall i :: 0 <= i < |ts| ==> Delta(br, ts[i]) == 0
    ensures !Enclosed(br, ts)
  {
    if |ts| >= 2 {
      assert Delta(br, ts[0]) == 0;
    }
  }
}

=== FILE: symbols.dfy ===
/** The front end's resolved symbols, reduced to the fields the code writer
    queries. Roslyn owns these objects and never lets the code generator
    mutate them, so they are plain immutable values here. */
module Symbols {
  import opened Outcomes

  /** Roslyn's `TypeKind`. */
  datatype TypeKind =
    | Unknown | ArrayType | Class | Delegate | DynamicType | Enum | Error
    | Interface | Module | PointerType | Struct | TypeParameter | Submission

  /** The kinds a named type can have: arrays, pointers and type parameters
      are separate symbol shapes. */
  type NamedKind = k: TypeKind | !(k.ArrayType? || k.PointerType? || k.TypeParameter?)
    witness Class

  /** Roslyn's `SpecialType`, with the well-known types the writer treats
      specially and a catch-all for the rest (decimal, IntPtr, ...). */
  datatype SpecialType =
    | NotSpecial | Object | Void | Boolean | Char | SByte | Byte | Int16 | UInt16
    | Int32 | UInt32 | Int64 | UInt64 | Single | Double | String | OtherSpecial

  /** One step of a namespace chain: the global namespace is written as the
      name of its assembly, any other namespace by its metadata name. */
  datatype NamespaceNode = GlobalNamespace(assemblyName: string) | NamedNamespace(metadataName: string)

  /** A namespace symbol; `path` holds what `EnumNamespaces` yields for it,
      in that order. */
  datatype NamespaceSym = NamespaceSym(path: seq<NamespaceNode>)

  /** What a type parameter knows of its containing type: `key` is that
      type's `ToKeyString()`, `nested` whether it has a containing type
      itself. */
  datatype Owner = Owner(key: string, nested: bool)

  /** A type parameter symbol; `name` is its metadata name. */
  datatype TypeParam = TypeParam(name: string, owner: Option<Owner>)

  /** A named type symbol (class, struct, enum, interface, delegate, ...). */
  datatype NamedTypeSym = NamedTypeSym(
    kind: NamedKind,
    special: SpecialType,
    name: string,
    isReferenceType: bool,
    containingNamespace: Option<NamespaceSym>,
    containingType: Option<NamedTypeSym>,
    typeParameters: seq<TypeParam>,
    typeArguments: seq<TypeSym>)

  /** Any type symbol. */
  datatype TypeSym =
    | NamedT(named: NamedTypeSym)
    | ArrayT(element: TypeSym, rank: nat)
    | PointerT(pointee: TypeSym)
    | ParamT(param: TypeParam)

  function Kind(t: TypeSym): TypeKind {
    match t
    case NamedT(nt) => nt.kind
    case ArrayT(_, _) => ArrayType
    case PointerT(_) => PointerType
    case ParamT(_) => TypeParameter
  }

  function Special(t: TypeSym): SpecialType {
    if t.NamedT? then t.named.special else NotSpecial
  }

  /** Roslyn's `IsGenericType`: this type or one of its containing types has
      type arguments. */
  predicate IsGenericType(nt: NamedTypeSym) {
    |nt.typeArguments| > 0 || (nt.containingType.Some? && IsGenericType(nt.containingType.value))
  }

  /** `new TypeImpl { SpecialType = ... }`: a bare synthesized type whose kind
      is the default `Unknown`. */
  function BareType(sp: SpecialType): TypeSym {
    NamedT(NamedTypeSym(Unknown, sp, "", false, None, None, [], []))
  }

  /** Roslyn's `RefKind`; `ByValue` is `RefKind.None`. */
  datatype RefKind = ByValue | Ref | Out

  /** `RefKind.ToString()`. */
  function RefKindName(k: RefKind): string {
    match k
    case ByValue => "None"
    case Ref => "Ref"
    case Out => "Out"
  }

  datatype ParamSym = ParamSym(name: string, paramType: TypeSym, refKind: RefKind)

  datatype MethodKind = Constructor | Ordinary | Conversion | UserDefinedOperator | OtherMethodKind

  /** A method symbol; `name` is its metadata name, `returnType` is `None`
      where a synthesized method leaves it null. */
  datatype MethodSym = MethodSym(
    name: string,
    kind: MethodKind,
    isStatic: bool,
    isAbstract: bool,
    isVirtual: bool,
    isOverride: bool,
    isVararg: bool,
    returnsVoid: bool,
    returnType: Option<TypeSym>,
    receiverType: TypeSym,
    containingType: NamedTypeSym,
    containingNamespace: Option<NamespaceSym>,
    parameters: seq<ParamSym>,
    typeParameters: seq<TypeParam>,
    typeArguments: seq<TypeSym>)

  predicate IsGenericMethod(m: MethodSym) {
    |m.typeParameters| > 0
  }

  /** A field symbol: the synthesizer looks fields up by name and reads their type. */
  datatype FieldSym = FieldSym(name: string, fieldType: TypeSym)

  /** The string helpers of the code generator whose definitions lie outside
      the modelled core (`CleanUpName`, `EnsureCompatible`, `GetTypeFullName`,
      `GetTypeName`, `IsVirtualGenericMethod`), taken as given total functions. */
  datatype Oracle = Oracle(
    cleanUpName: string -> string,
    ensureCompatible: string -> string,
    typeFullName: NamedTypeSym -> string,
    typeName: NamedTypeSym -> string,
    isVirtualGenericMethod: MethodSym -> bool)

  /** Structural sizes, used only to show that the mutually recursive type
      writers terminate. */
  function Size(t: TypeSym): (s: nat)
    ensures s >= 1
  {
    match t
    case NamedT(nt) => 1 + SizeN(nt)
    case ArrayT(e, _) => 1 + Size(e)
    case PointerT(p) => 1 + Size(p)
    case ParamT(_) => 1
  }

  function SizeN(nt: NamedTypeSym): nat {
    1 + (if nt.containingType.Some? then SizeN(nt.containingType.value) else 0) + SizeSeq(nt.typeArguments)
  }

  function SizeSeq(ts: seq<TypeSym>): nat {
    if |ts| == 0 then 0 else Size(ts[0]) + SizeSeq(ts[1..])
  }

  lemma {:induction false} SizeSeqAppend(a: seq<TypeSym>, b: seq<TypeSym>)
    ensures SizeSeq(a + b) == SizeSeq(a) + SizeSeq(b)
    decreases |a|
  {
    if |a| == 0 {
      assert a + b == b;
    } else {
      assert (a + b)[0] == a[0];
      assert (a + b)[1..] == a[1..] + b;
      SizeSeqAppend(a[1..], b);
    }
  }
}

=== FILE: type_writer.dfy ===
/** Type and name spelling of `CCodeWriterBase`: the special-type table, the
    structural type writer with its array templates, qualified names,
    namespaces, conversion-operator type suffixes and template argument
    lists. Writers that can reach an interned name take the registry and
    return it updated together with the tokens they emit. */
module TypeWriter {
  import opened Outcomes
  import opened Symbols
  import opened Sink
  import opened Interning
  import opened Decimal

  /** Tokens written and the registry after writing them. */
  datatype Emitted = Emitted(tokens: seq<Token>, reg: Registry)

  function StarIf(b: bool): seq<Token> {
    if b then [TextSpan("*")] else []
  }

  /** `WriteName`: the cleaned-up metadata name. */
  function WriteName(name: string, o: Oracle): seq<Token> {
    [TextSpan(o.cleanUpName(name))]
  }

  /** `WriteSpecialType`: the fixed spelling of a well-known type, and
      whether there was one. */
  function WriteSpecialType(t: TypeSym): (r: (bool, seq<Token>))
    ensures !r.0 ==> r.1 == []
    ensures r.0 ==> |r.1| == 1
    ensures Special(t) == Void ==> r == (true, [TextSpan("void")])
    ensures Special(t) == Boolean ==> r == (true, [TextSpan("bool")])
    ensures Special(t) == Char ==> r == (true, [TextSpan("wchar_t")])
    ensures Special(t) == SByte ==> r == (true, [TextSpan("int8_t")])
    ensures Special(t) == Byte ==> r == (true, [TextSpan("uint8_t")])
    ensures Special(t) == Int16 ==> r == (true, [TextSpan("int16_t")])
    ensures Special(t) == UInt16 ==> r == (true, [TextSpan("uint16_t")])
    ensures Special(t) == Int32 ==> r == (true, [TextSpan("int32_t")])
    ensures Special(t) == UInt32 ==> r == (true, [TextSpan("uint32_t")])
    ensures Special(t) == Int64 ==> r == (true, [TextSpan("int64_t")])
    ensures Special(t) == UInt64 ==> r == (true, [TextSpan("uint64_t")])
    ensures Special(t) == Single ==> r == (true, [TextSpan("float")])
    ensures Special(t) == Double ==> r == (true, [TextSpan("double")])
    ensures Special(t) == String ==> r == (true, [TextSpan("string*")])
    ensures Special(t) == Object ==> (r.0 <==> Kind(t) == Unknown)
    ensures Special(t) == Object && r.0 ==> r.1 == [TextSpan("object*")]
    ensures Special(t) in {NotSpecial, OtherSpecial} ==> !r.0
  {
    match Special(t)
    case Void => (true, [TextSpan("void")])
    case Boolean => (true, [TextSpan("bool")])
    case Char => (true, [TextSpan("wchar_t")])
    case SByte => (true, [TextSpan("int8_t")])
    case Byte => (true, [TextSpan("uint8_t")])
    case Int16 => (true, [TextSpan("int16_t")])
    case UInt16 => (true, [TextSpan("uint16_t")])
    case Int32 => (true, [TextSpan("int32_t")])
    case UInt32 => (true, [TextSpan("uint32_t")])
    case Int64 => (true, [TextSpan("int64_t")])
    case UInt64 => (true, [TextSpan("uint64_t")])
    case Single => (true, [TextSpan("float")])
    case Double => (true, [TextSpan("double")])
    case Object => if Kind(t) == Unknown then (true, [TextSpan("object*")]) else (false, [])
    case String => (true, [TextSpan("string*")])
    case _ => (false, [])
  }

  /** Every well-known type has its own spelling: two types the table spells
      alike are the same well-known type. */
  lemma SpecialSpellingsDistinct(t1: TypeSym, t2: TypeSym)
    requires WriteSpecialType(t1).0 && WriteSpecialType(t2).0
    requires WriteSpecialType(t1).1 == WriteSpecialType(t2).1
    ensures Special(t1) == Special(t2)
  {
  }

  /** Token i of a namespace chain: its name at even positions. */
  function WriteNamespaceName(n: NamespaceNode, o: Oracle): Token {
    match n
    case GlobalNamespace(assembly) => TextSpan(o.cleanUpName(assembly))
    case NamedNamespace(name) => TextSpan(name)
  }

  /** `WriteNamespace`: the names of the chain with `::` between
      consecutive ones. */
  function WriteNamespace(path: seq<NamespaceNode>, o: Oracle): (r: seq<Token>)
    ensures |r| == if |path| == 0 then 0 else 2 * |path| - 1
    ensures forall i :: 0 <= i < |r| ==>
              r[i] == if i % 2 == 0 then WriteNamespaceName(path[i / 2], o) else TextSpan("::")
  {
    if |path| == 0 then []
    else if |path| == 1 then [WriteNamespaceName(path[0], o)]
    else
      var rest := WriteNamespace(path[1..], o);
      var r := [WriteNamespaceName(path[0], o), TextSpan("::")] + rest;
      assert forall i :: 2 <= i < |r| ==> r[i] == rest[i - 2] && path[i / 2] == path[1..][(i - 2) / 2];
      r
  }

  /** `WriteTypeName`: the type's cleaned name, preceded by its containing
      types' names (outermost first) each followed by `_`; `object` and
      `string` as keywords when allowed; `enum_` in front of an enum's value
      name. */
  function WriteTypeName(nt: NamedTypeSym, allowKeywords: bool, valueName: bool, o: Oracle): (r: seq<Token>)
    ensures |r| >= 1
    ensures allowKeywords && nt.special == Object ==> r == [TextSpan("object")]
    ensures allowKeywords && nt.special == String ==> r == [TextSpan("string")]
    ensures !(allowKeywords && nt.special in {Object, String}) ==> r[|r| - 1] == TextSpan(o.cleanUpName(nt.name))
    ensures !(allowKeywords && nt.special in {Object, String}) ==>
              (r[0] == TextSpan("enum_") <== valueName && nt.kind == Enum)
  {
    if allowKeywords && nt.special == Object then [TextSpan("object")]
    else if allowKeywords && nt.special == String then [TextSpan("string")]
    else
      (if valueName && nt.kind == Enum then [TextSpan("enum_")] else [])
      + (if nt.containingType.Some? then WriteTypeName(nt.containingType.value, true, false, o) + [TextSpan("_")] else [])
      + WriteName(nt.name, o)
  }

  /** The type and its containing types, outermost first. */
  function ContainerChain(nt: NamedTypeSym): (r: seq<NamedTypeSym>)
    ensures |r| >= 1 && r[|r| - 1] == nt
  {
    (if nt.containingType.Some? then ContainerChain(nt.containingType.value) else []) + [nt]
  }

  /** Cleaned names of `chain` joined by `_`. */
  function UnderscoreJoin(chain: seq<NamedTypeSym>, o: Oracle): seq<Token> {
    if |chain| == 0 then []
    else if |chain| == 1 then WriteName(chain[0].name, o)
    else UnderscoreJoin(chain[..|chain| - 1], o) + [TextSpan("_")] + WriteName(chain[|chain| - 1].name, o)
  }

  /** One nesting level of a type name away from the keywords. */
  lemma TypeNameStep(nt: NamedTypeSym, allowKeywords: bool, o: Oracle)
    requires nt.special !in {Object, String} && nt.containingType.Some?
    ensures WriteTypeName(nt, allowKeywords, false, o)
            == WriteTypeName(nt.containingType.value, true, false, o) + [TextSpan("_")] + WriteName(nt.name, o)
  {
    assert WriteTypeName(nt, allowKeywords, false, o)
           == [] + (WriteTypeName(nt.containingType.value, true, false, o) + [TextSpan("_")]) + WriteName(nt.name, o);
  }

  /** One nesting level of the joined chain. */
  lemma ChainStep(nt: NamedTypeSym, o: Oracle)
    requires nt.containingType.Some?
    ensures UnderscoreJoin(ContainerChain(nt), o)
            == UnderscoreJoin(ContainerChain(nt.containingType.value), o) + [TextSpan("_")] + WriteName(nt.name, o)
  {
    var chain := ContainerChain(nt);
    assert chain == ContainerChain(nt.containingType.value) + [nt];
    assert chain[..|chain| - 1] == ContainerChain(nt.containingType.value);
  }

  /** Away from the `object`/`string` keywords and enum value names, a type
      name is the chain of containing-type names, outermost first, joined by
      `_`. */
  lemma {:induction false} TypeNameIsChain(nt: NamedTypeSym, allowKeywords: bool, o: Oracle)
    requires forall c :: c in ContainerChain(nt) ==> c.special !in {Object, String}
    ensures WriteTypeName(nt, allowKeywords, false, o) == UnderscoreJoin(ContainerChain(nt), o)
    decreases nt
  {
    var chain := ContainerChain(nt);
    assert nt in chain;
    if nt.containingType.Some? {
      var outer := nt.containingType.value;
      assert chain == ContainerChain(outer) + [nt];
      TypeNameIsChain(outer, true, o);
      TypeNameStep(nt, allowKeywords, o);
      ChainStep(nt, o);
    } else {
      assert chain == [nt];
    }
  }

  /** `WriteTypeSuffix`: the spelling of a type inside a mangled name —
      the special spelling, or the element/pointee suffix followed by
      `Array`/`Ptr`, or the plain type name. */
  function WriteTypeSuffix(t: TypeSym, o: Oracle): (r: seq<Token>)
    ensures |r| >= 1
    ensures WriteSpecialType(t).0 ==> r == WriteSpecialType(t).1
    ensures t.ArrayT? ==> r == WriteTypeSuffix(t.element, o) + [TextSpan("Array")]
    ensures t.PointerT? ==> r == WriteTypeSuffix(t.pointee, o) + [TextSpan("Ptr")]
    ensures !WriteSpecialType(t).0 && t.ParamT? ==> r == WriteName(t.param.name, o)
    ensures !WriteSpecialType(t).0 && t.NamedT? ==> r == WriteTypeName(t.named, true, false, o)
  {
    var sp := WriteSpecialType(t);
    if sp.0 then sp.1
    else
      match t
      case ArrayT(e, _) => WriteTypeSuffix(e, o) + [TextSpan("Array")]
      case PointerT(p) => WriteTypeSuffix(p, o) + [TextSpan("Ptr")]
      case ParamT(tp) => WriteName(tp.name, o)
      case NamedT(nt) => WriteTypeName(nt, true, false, o)
  }

  /** One layer put around a type: an array of some rank, or a pointer. */
  datatype Layer = ArrayLayer(rank: nat) | PointerLayer

  /** `base` with `layers` put around it, innermost first. */
  function Wrapped(base: TypeSym, layers: seq<Layer>): TypeSym {
    if |layers| == 0 then base
    else
      var inner := Wrapped(base, layers[..|layers| - 1]);
      match layers[|layers| - 1]
      case ArrayLayer(rank) => ArrayT(inner, rank)
      case PointerLayer => PointerT(inner)
  }

  /** The words the layers add to a mangled name, innermost first. */
  function LayerWords(layers: seq<Layer>): seq<Token> {
    if |layers| == 0 then []
    else LayerWords(layers[..|layers| - 1]) + [TextSpan(if layers[|layers| - 1].ArrayLayer? then "Array" else "Ptr")]
  }

  /** One more layer appends its word to the suffix. */
  lemma LayerStep(inner: TypeSym, layer: Layer, o: Oracle)
    ensures WriteTypeSuffix(match layer case ArrayLayer(rank) => ArrayT(inner, rank) case PointerLayer => PointerT(inner), o)
            == WriteTypeSuffix(inner, o) + [TextSpan(if layer.ArrayLayer? then "Array" else "Ptr")]
  {
  }

  /** The suffix of a type spelled independently of the recursion: a named
      type away from the keywords and the special spellings contributes the
      names of its containing chain joined by `_`, and every array or pointer
      around it appends `Array` or `Ptr`, innermost first. */
  lemma {:induction false} SuffixOfWrappedNamed(nt: NamedTypeSym, layers: seq<Layer>, o: Oracle)
    requires nt.special == NotSpecial
    requires forall c :: c in ContainerChain(nt) ==> c.special !in {Object, String}
    ensures WriteTypeSuffix(Wrapped(NamedT(nt), layers), o) == UnderscoreJoin(ContainerChain(nt), o) + LayerWords(layers)
    decreases |layers|
  {
    if |layers| == 0 {
      TypeNameIsChain(nt, true, o);
    } else {
      var init := layers[..|layers| - 1];
      SuffixOfWrappedNamed(nt, init, o);
      LayerStep(Wrapped(NamedT(nt), init), layers[|layers| - 1], o);
    }
  }

  /** `WriteUniqueNameByContainingType`: the parameter's name followed by
      the interned id of its containing type's key, cleaned up. */
  function WriteUniqueNameByContainingType(tp: TypeParam, reg: Registry, o: Oracle): (r: Emitted)
    requires tp.owner.Some?
    ensures tp.owner.value.key in r.reg.ids
    ensures r.tokens == [TextSpan(o.cleanUpName(tp.name + NatToString(r.reg.ids[tp.owner.value.key])))]
    ensures Extends(reg, r.reg)
    ensures r.reg.ids.Keys == reg.ids.Keys + {tp.owner.value.key}
    ensures Valid(reg) ==> Valid(r.reg)
  {
    var got := GetId(reg, tp.owner.value.key);
    Emitted([TextSpan(o.cleanUpName(tp.name + NatToString(got.id)))], got.reg)
  }

  /** Two type parameters of the same name whose containing types have
      different keys get different names before clean-up, whichever is
      written first: the interned id tells them apart. */
  lemma UniqueNamesDistinguishOwners(tp1: TypeParam, tp2: TypeParam, reg: Registry)
    requires Valid(reg)
    requires tp1.owner.Some? && tp2.owner.Some? && tp1.owner.value.key != tp2.owner.value.key
    requires tp1.name == tp2.name
    ensures var r1 := WriteUniqueNameByContainingType(tp1, reg, OracleId());
            var r2 := WriteUniqueNameByContainingType(tp2, r1.reg, OracleId());
            r1.tokens != r2.tokens
  {
    var r1 := WriteUniqueNameByContainingType(tp1, reg, OracleId());
    var r2 := WriteUniqueNameByContainingType(tp2, r1.reg, OracleId());
    var k1 := tp1.owner.value.key;
    var k2 := tp2.owner.value.key;
    assert r2.reg.ids[k1] == r1.reg.ids[k1];
    assert r2.reg.ids[k1] != r2.reg.ids[k2];
    if r1.tokens == r2.tokens {
      var s1 := NatToString(r1.reg.ids[k1]);
      var s2 := NatToString(r2.reg.ids[k2]);
      assert tp1.name + s1 == tp2.name + s2;
      assert s1 == (tp1.name + s1)[|tp1.name|..];
      assert s2 == (tp2.name + s2)[|tp2.name|..];
      NatToStringInjective(r1.reg.ids[k1], r2.reg.ids[k2]);
    }
  }

  /** The oracle that leaves every name as it is; used to speak about names
      before clean-up. */
  function OracleId(): Oracle {
    Oracle(s => s, s => s, (nt: NamedTypeSym) => nt.name, (nt: NamedTypeSym) => nt.name, m => false)
  }

  /** `EnumerateTemplateArgumentsRecusive`: the type arguments of the
      outermost containing type first, down to the type's own. */
  function EnumerateTemplateArguments(nt: NamedTypeSym): (r: seq<TypeSym>)
    ensures SizeSeq(r) < SizeN(nt)
    ensures nt.containingType.None? ==> r == nt.typeArguments
    ensures |r| >= |nt.typeArguments| && r[|r| - |nt.typeArguments|..] == nt.typeArguments
  {
    var outer := if nt.containingType.Some? then EnumerateTemplateArguments(nt.containingType.value) else [];
    SizeSeqAppend(outer, nt.typeArguments);
    outer + nt.typeArguments
  }

  /** Template arguments are not deduplicated: there is one per type
      argument of every type in the containing chain. */
  lemma {:induction false} TemplateArgumentCount(nt: NamedTypeSym)
    ensures |EnumerateTemplateArguments(nt)| == ArgumentCount(ContainerChain(nt))
    decreases nt
  {
    if nt.containingType.Some? {
      TemplateArgumentCount(nt.containingType.value);
      var chain := ContainerChain(nt);
      assert chain[..|chain| - 1] == ContainerChain(nt.containingType.value);
    } else {
      assert ContainerChain(nt)[..0] == [];
    }
  }

  function ArgumentCount(chain: seq<NamedTypeSym>): nat {
    if |chain| == 0 then 0 else ArgumentCount(chain[..|chain| - 1]) + |chain[|chain| - 1].typeArguments|
  }

  /** `WriteType`: the target spelling of a type, with `*` after reference
      types unless suppressed. */
  function WriteType(t: TypeSym, suppressReference: bool, allowKeywords: bool, valueTypeAsClass: bool,
                     reg: Registry, o: Oracle): (r: Result<Emitted>)
    ensures r.Ok? ==> Extends(reg, r.value.reg) && |r.value.tokens| >= 1
    ensures r.Ok? && Valid(reg) ==> Valid(r.value.reg)
    ensures r.Fail? ==> r.fault == NotImplemented
    ensures !valueTypeAsClass && WriteSpecialType(t).0 ==> r == Ok(Emitted(WriteSpecialType(t).1, reg))
    decreases Size(t), 2
  {
    var sp := WriteSpecialType(t);
    if !valueTypeAsClass && sp.0 then Ok(Emitted(sp.1, reg))
    else
      match t
      case ArrayT(_, _) => WriteCArrayTemplate(t, !suppressReference, allowKeywords, reg, o)
      case PointerT(p) =>
        var e :- WriteType(p, false, allowKeywords, false, reg, o);
        Ok(Emitted(e.tokens + [TextSpan("*")], e.reg))
      case ParamT(tp) =>
        if tp.owner.Some? && tp.owner.value.nested then Ok(WriteUniqueNameByContainingType(tp, reg, o))
        else Ok(Emitted(WriteName(tp.name, o), reg))
      case NamedT(nt) =>
        if nt.kind.Unknown? || nt.kind.DynamicType? || nt.kind.Module? || nt.kind.Submission? then
          Fail(NotImplemented)
        else if nt.kind.Delegate? || nt.kind.Interface? || nt.kind.Class? then
          var f :- WriteTypeFullName(nt, allowKeywords, false, reg, o);
          Ok(Emitted(f.tokens + StarIf(nt.isReferenceType && !suppressReference), f.reg))
        else if nt.kind.Enum? then
          if !valueTypeAsClass then WriteTypeFullName(nt, allowKeywords, true, reg, o)
          else
            var f :- WriteTypeFullName(nt, allowKeywords, false, reg, o);
            Ok(Emitted(f.tokens + StarIf(!suppressReference), f.reg))
        else if nt.kind.Error? then
          Ok(Emitted([TextSpan("__unbound_generic_type<void>")], reg))
        else
          var f :- WriteTypeFullName(nt, true, false, reg, o);
          Ok(Emitted(f.tokens + StarIf(valueTypeAsClass && !suppressReference), f.reg))
  }

  /** `WriteCArrayTemplate`: `__array<E>` for rank at most one,
      `__multi_array<E, rank>` otherwise, then `*` when `reference`. */
  function WriteCArrayTemplate(at: TypeSym, reference: bool, allowKeywords: bool, reg: Registry, o: Oracle): (r: Result<Emitted>)
    requires at.ArrayT?
    ensures r.Ok? <==> WriteType(at.element, false, allowKeywords, false, reg, o).Ok?
    ensures r.Ok? ==> Extends(reg, r.value.reg)
    ensures r.Ok? && Valid(reg) ==> Valid(r.value.reg)
    ensures r.Fail? ==> r.fault == NotImplemented
    ensures r.Ok? ==> r.value.tokens == ArrayTemplate(at.rank, WriteType(at.element, false, allowKeywords, false, reg, o).value.tokens, reference)
    decreases Size(at), 1
  {
    var e :- WriteType(at.element, false, allowKeywords, false, reg, o);
    Ok(Emitted(ArrayTemplate(at.rank, e.tokens, reference), e.reg))
  }

  /** The array template around already written element tokens. */
  function ArrayTemplate(rank: nat, element: seq<Token>, reference: bool): (ts: seq<Token>)
    ensures |ts| >= 2
    ensures ts[0] == TextSpan(if rank <= 1 then "__array<" else "__multi_array<")
    ensures ts[|ts| - 1] == TextSpan("*") <==> reference
    ensures ts[|ts| - (if reference then 2 else 1)] == TextSpan(">")
    ensures rank > 1 ==> ts[|ts| - (if reference then 3 else 2)] == TextSpan(NatToString(rank))
  {
    var body :=
      if rank <= 1 then [TextSpan("__array<")] + element + [TextSpan(">")]
      else [TextSpan("__multi_array<")] + element + [TextSpan(","), WhiteSpace, TextSpan(NatToString(rank)), TextSpan(">")];
    body + StarIf(reference)
  }

  /** The namespace chain and `::` in front of a type with a containing
      namespace, nothing otherwise. */
  function NamespacePrefix(nt: NamedTypeSym, o: Oracle): seq<Token> {
    if nt.containingNamespace.Some? then WriteNamespace(nt.containingNamespace.value.path, o) + [TextSpan("::")] else []
  }

  /** `WriteTypeFullName` for a named type: `object`/`string` keywords when
      allowed, otherwise namespace, `::`, the type name and, for a generic
      type, its template argument list. */
  function WriteTypeFullName(nt: NamedTypeSym, allowKeywords: bool, valueName: bool, reg: Registry, o: Oracle): (r: Result<Emitted>)
    ensures r.Ok? ==> Extends(reg, r.value.reg) && |r.value.tokens| >= 1
    ensures r.Ok? && Valid(reg) ==> Valid(r.value.reg)
    ensures r.Fail? ==> r.fault == NotImplemented
    ensures !IsGenericType(nt) ==> r.Ok? && r.value.reg == reg
    ensures allowKeywords && nt.special == Object ==> r == Ok(Emitted([TextSpan("object")], reg))
    ensures allowKeywords && nt.special == String ==> r == Ok(Emitted([TextSpan("string")], reg))
    ensures !(allowKeywords && nt.special in {Object, String}) ==>
              var name := NamespacePrefix(nt, o) + WriteTypeName(nt, allowKeywords, valueName, o);
              var d := WriteTemplateDefinition(nt, reg, o);
              && (!IsGenericType(nt) ==> r == Ok(Emitted(name, reg)))
              && (IsGenericType(nt) ==> (r.Ok? <==> d.Ok?) && (r.Ok? ==> r.value == Emitted(name + d.value.tokens, d.value.reg)))
    decreases SizeN(nt), 1
  {
    if allowKeywords && (nt.special == Object || nt.special == String) then
      Ok(Emitted(WriteTypeName(nt, allowKeywords, false, o), reg))
    else
      var name := NamespacePrefix(nt, o) + WriteTypeName(nt, allowKeywords, valueName, o);
      if IsGenericType(nt) then
        var d :- WriteTemplateDefinition(nt, reg, o);
        Ok(Emitted(name + d.tokens, d.reg))
      else Ok(Emitted(name, reg))
  }

  /** `WriteTemplateDefinition`: `<`, the enumerated template arguments
      separated by `, `, `>`. */
  function WriteTemplateDefinition(nt: NamedTypeSym, reg: Registry, o: Oracle): (r: Result<Emitted>)
    ensures r.Ok? ==> Extends(reg, r.value.reg)
    ensures r.Ok? && Valid(reg) ==> Valid(r.value.reg)
    ensures r.Fail? ==> r.fault == NotImplemented
    ensures r.Ok? ==> |r.value.tokens| >= 2 && r.value.tokens[0] == TextSpan("<")
                      && r.value.tokens[|r.value.tokens| - 1] == TextSpan(">")
    ensures var j := WriteTypesJoined(EnumerateTemplateArguments(nt), reg, o);
            && (r.Ok? <==> j.Ok?)
            && (r.Ok? ==> r.value.reg == j.value.reg && r.value.tokens[1..|r.value.tokens| - 1] == j.value.tokens)
    decreases SizeN(nt), 0
  {
    var args :- WriteTypesJoined(EnumerateTemplateArguments(nt), reg, o);
    var ts := [TextSpan("<")] + args.tokens + [TextSpan(">")];
    assert ts[1..|ts| - 1] == args.tokens;
    Ok(Emitted(ts, args.reg))
  }

  /** The types of `ts`, each written with the default flags, separated by
      `, `. */
  function WriteTypesJoined(ts: seq<TypeSym>, reg: Registry, o: Oracle): (r: Result<Emitted>)
    ensures r.Ok? ==> Extends(reg, r.value.reg)
    ensures r.Ok? && Valid(reg) ==> Valid(r.value.reg)
    ensures r.Fail? ==> r.fault == NotImplemented
    ensures |ts| == 0 ==> r == Ok(Emitted([], reg))
    ensures |ts| == 1 ==> r == WriteType(ts[0], false, true, false, reg, o)
    decreases SizeSeq(ts), 3
  {
    if |ts| == 0 then Ok(Emitted([], reg))
    else
      var first :- WriteType(ts[0], false, true, false, reg, o);
      if |ts| == 1 then Ok(first)
      else
        var rest :- WriteTypesJoined(ts[1..], first.reg, o);
        Ok(Emitted(first.tokens + [TextSpan(", ")] + rest.tokens, rest.reg))
  }

  /** Each type of a list written on its own, with the registry each one
      starts from: `regs[i]` before entry `i`, `regs[i + 1]` after it. */
  datatype EachWritten = EachWritten(parts: seq<seq<Token>>, regs: seq<Registry>)

  /** `t` written with the default flags from `before` gives `part` and
      leaves `after`. */
  predicate EntryWritten(t: TypeSym, before: Registry, part: seq<Token>, after: Registry, o: Oracle) {
    WriteType(t, false, true, false, before, o) == Ok(Emitted(part, after))
  }

  /** `parts` and `regs` hold the items of `ts` processed one after
      another by `step`, each from the state the previous one left. */
  predicate InTurn<T, P, R>(step: (T, R, P, R) -> bool, ts: seq<T>, parts: seq<P>, regs: seq<R>) {
    && |parts| == |ts| && |regs| == |ts| + 1
    && forall i :: 0 <= i < |ts| ==> step(ts[i], regs[i], parts[i], regs[i + 1])
  }

  /** Processing one more item in front keeps the items in turn. */
  lemma InTurnCons<T, P, R>(step: (T, R, P, R) -> bool, ts: seq<T>, reg: R, first: P, parts: seq<P>, regs: seq<R>)
    requires |ts| >= 1 && InTurn(step, ts[1..], parts, regs)
    requires step(ts[0], reg, first, regs[0])
    ensures InTurn(step, ts, [first] + parts, [reg] + regs)
  {
    var ps := [first] + parts;
    var rs := [reg] + regs;
    forall i | 0 <= i < |ts|
      ensures step(ts[i], rs[i], ps[i], rs[i + 1])
    {
      if i > 0 {
        assert ts[1..][i - 1] == ts[i];
      }
    }
  }

  /** `w` holds the types of `ts` written one after another with the
      default flags, each from the registry the previous one left. */
  predicate WrittenInTurn(ts: seq<TypeSym>, w: EachWritten, o: Oracle) {
    InTurn((t, before, part, after) => EntryWritten(t, before, part, after, o), ts, w.parts, w.regs)
  }

  /** The types of `ts` written one after another with the default flags,
      kept apart. */
  function WriteEach(ts: seq<TypeSym>, reg: Registry, o: Oracle): (r: Result<EachWritten>)
    ensures r.Fail? ==> r.fault == NotImplemented
    ensures r.Ok? ==> WrittenInTurn(ts, r.value, o) && r.value.regs[0] == reg
    decreases |ts|
  {
    if |ts| == 0 then Ok(EachWritten([], [reg]))
    else
      var first :- WriteType(ts[0], false, true, false, reg, o);
      var rest :- WriteEach(ts[1..], first.reg, o);
      InTurnCons((t, before, part, after) => EntryWritten(t, before, part, after, o),
                 ts, reg, first.tokens, rest.parts, rest.regs);
      Ok(EachWritten([first.tokens] + rest.parts, [reg] + rest.regs))
  }

  /** Token lists joined by `, `. */
  function JoinComma(parts: seq<seq<Token>>): seq<Token>
    decreases |parts|
  {
    if |parts| == 0 then []
    else if |parts| == 1 then parts[0]
    else parts[0] + [TextSpan(", ")] + JoinComma(parts[1..])
  }

  /** One step of the joined list: the first type, `, `, then the rest. */
  lemma JoinedStep(ts: seq<TypeSym>, reg: Registry, o: Oracle)
    requires |ts| > 1 && WriteType(ts[0], false, true, false, reg, o).Ok?
    ensures var f := WriteType(ts[0], false, true, false, reg, o).value;
            var r := WriteTypesJoined(ts, reg, o);
            var rest := WriteTypesJoined(ts[1..], f.reg, o);
            && (r.Ok? <==> rest.Ok?)
            && (r.Ok? ==> r.value == Emitted(f.tokens + [TextSpan(", ")] + rest.value.tokens, rest.value.reg))
  {
  }

  /** One step of writing each type: the first type, then the rest. */
  lemma EachStep(ts: seq<TypeSym>, reg: Registry, o: Oracle)
    requires |ts| > 0 && WriteType(ts[0], false, true, false, reg, o).Ok?
    ensures var f := WriteType(ts[0], false, true, false, reg, o).value;
            var w := WriteEach(ts, reg, o);
            var rest := WriteEach(ts[1..], f.reg, o);
            && (w.Ok? <==> rest.Ok?)
            && (w.Ok? ==> w.value == EachWritten([f.tokens] + rest.value.parts, [reg] + rest.value.regs))
  {
  }

  /** The joined list agrees with the types written one by one and
      joined by `, `. */
  predicate JoinedAgrees(ts: seq<TypeSym>, reg: Registry, o: Oracle) {
    var r := WriteTypesJoined(ts, reg, o);
    var w := WriteEach(ts, reg, o);
    && (r.Ok? <==> w.Ok?)
    && (r.Ok? ==> r.value == Emitted(JoinComma(w.value.parts), w.value.regs[|ts|]))
  }

  lemma JoinedAgreesSingle(ts: seq<TypeSym>, reg: Registry, o: Oracle)
    requires |ts| == 1 && WriteType(ts[0], false, true, false, reg, o).Ok?
    ensures JoinedAgrees(ts, reg, o)
  {
    var f := WriteType(ts[0], false, true, false, reg, o).value;
    EachStep(ts, reg, o);
    assert WriteEach(ts[1..], f.reg, o) == Ok(EachWritten([], [f.reg]));
  }

  lemma JoinedAgreesMore(ts: seq<TypeSym>, reg: Registry, o: Oracle)
    requires |ts| > 1 && WriteType(ts[0], false, true, false, reg, o).Ok?
    requires JoinedAgrees(ts[1..], WriteType(ts[0], false, true, false, reg, o).value.reg, o)
    ensures JoinedAgrees(ts, reg, o)
  {
    var f := WriteType(ts[0], false, true, false, reg, o).value;
    EachStep(ts, reg, o);
    JoinedStep(ts, reg, o);
    var rest := WriteEach(ts[1..], f.reg, o);
    if rest.Ok? {
      var parts := [f.tokens] + rest.value.parts;
      assert parts[1..] == rest.value.parts;
      assert JoinComma(parts) == f.tokens + [TextSpan(", ")] + JoinComma(rest.value.parts);
      assert ([reg] + rest.value.regs)[|ts|] == rest.value.regs[|ts| - 1];
    }
  }

  /** A joined type list is the types written one by one, each from the
      registry the previous one left, joined by `, `; it fails exactly when
      one of them does. */
  lemma {:induction false} TypesJoinedEntries(ts: seq<TypeSym>, reg: Registry, o: Oracle)
    ensures var r := WriteTypesJoined(ts, reg, o);
            var w := WriteEach(ts, reg, o);
            && (r.Ok? <==> w.Ok?)
            && (r.Ok? ==> r.value == Emitted(JoinComma(w.value.parts), w.value.regs[|ts|]))
    decreases |ts|
  {
    if |ts| > 0 && WriteType(ts[0], false, true, false, reg, o).Ok? {
      if |ts| == 1 {
        JoinedAgreesSingle(ts, reg, o);
      } else {
        TypesJoinedEntries(ts[1..], WriteType(ts[0], false, true, false, reg, o).value.reg, o);
        JoinedAgreesMore(ts, reg, o);
      }
    }
    assert JoinedAgrees(ts, reg, o);
  }

  /** The template argument list of a type holds one entry per type
      argument of its containing chain, each written in turn, between `<`
      and `>` and separated by `, `. */
  lemma TemplateDefinitionEntries(nt: NamedTypeSym, reg: Registry, o: Oracle)
    ensures var args := EnumerateTemplateArguments(nt);
            var r := WriteTemplateDefinition(nt, reg, o);
            var w := WriteEach(args, reg, o);
            && (r.Ok? <==> w.Ok?)
            && (r.Ok? ==>
                  && r.value.tokens == [TextSpan("<")] + JoinComma(w.value.parts) + [TextSpan(">")]
                  && |w.value.parts| == ArgumentCount(ContainerChain(nt)))
  {
    var args := EnumerateTemplateArguments(nt);
    TypesJoinedEntries(args, reg, o);
    TemplateArgumentCount(nt);
  }

  lemma AppendRegroup<X>(a: seq<X>, b: seq<X>, c: seq<X>, d: seq<X>)
    ensures a + (b + c + d) == a + b + c + d
  {
  }

  /** Away from the keywords, a full name is the namespace chain, `::`, the
      `_`-joined names of the containing chain and, for a generic type, the
      template arguments written one by one between `<` and `>`. */
  lemma FullNameStructure(nt: NamedTypeSym, allowKeywords: bool, reg: Registry, o: Oracle)
    requires forall c :: c in ContainerChain(nt) ==> c.special !in {Object, String}
    ensures var r := WriteTypeFullName(nt, allowKeywords, false, reg, o);
            var name := NamespacePrefix(nt, o) + UnderscoreJoin(ContainerChain(nt), o);
            var w := WriteEach(EnumerateTemplateArguments(nt), reg, o);
            && (!IsGenericType(nt) ==> r == Ok(Emitted(name, reg)))
            && (IsGenericType(nt) ==>
                  && (r.Ok? <==> w.Ok?)
                  && (r.Ok? ==> r.value.tokens == name + [TextSpan("<")] + JoinComma(w.value.parts) + [TextSpan(">")]))
  {
    assert nt in ContainerChain(nt);
    TypeNameIsChain(nt, allowKeywords, o);
    var name := NamespacePrefix(nt, o) + UnderscoreJoin(ContainerChain(nt), o);
    assert name == NamespacePrefix(nt, o) + WriteTypeName(nt, allowKeywords, false, o);
    if IsGenericType(nt) {
      TemplateDefinitionEntries(nt, reg, o);
      var d := WriteTemplateDefinition(nt, reg, o);
      if d.Ok? {
        var w := WriteEach(EnumerateTemplateArguments(nt), reg, o);
        var args := JoinComma(w.value.parts);
        assert d.value.tokens == [TextSpan("<")] + args + [TextSpan(">")];
        AppendRegroup(name, [TextSpan("<")], args, [TextSpan(">")]);
      }
    }
  }

  /** The `ITypeSymbol` overload of `WriteTypeFullName`: a type parameter by
      name, a named type in full, anything else not at all. */
  function WriteTypeFullNameOf(t: TypeSym, allowKeywords: bool, reg: Registry, o: Oracle): (r: Result<Emitted>)
    ensures (t.ArrayT? || t.PointerT?) ==> r == Ok(Emitted([], reg))
    ensures t.ParamT? ==> r == Ok(Emitted([TextSpan(o.cleanUpName(t.param.name))], reg))
    ensures r.Ok? ==> Extends(reg, r.value.reg)
  {
    match t
    case ParamT(tp) => Ok(Emitted(WriteName(tp.name, o), reg))
    case NamedT(nt) => WriteTypeFullName(nt, allowKeywords, false, reg, o)
    case _ => Ok(Emitted([], reg))
  }

  /** With the reference suppressed, a class, interface or delegate type
      and a type parameter of a top-level owner are written by `WriteType`
      exactly as by the `ITypeSymbol` overload of `WriteTypeFullName`. */
  lemma FullNameOfMatchesWriteType(t: TypeSym, allowKeywords: bool, reg: Registry, o: Oracle)
    requires !WriteSpecialType(t).0
    requires t.NamedT? ==> t.named.kind.Class? || t.named.kind.Interface? || t.named.kind.Delegate?
    requires t.ParamT? ==> !(t.param.owner.Some? && t.param.owner.value.nested)
    ensures t.NamedT? || t.ParamT? ==>
              WriteType(t, true, allowKeywords, false, reg, o) == WriteTypeFullNameOf(t, allowKeywords, reg, o)
  {
    if t.NamedT? {
      ClassLikeFullNameOf(t.named, allowKeywords, reg, o);
    } else if t.ParamT? {
      ParamFullNameOf(t.param, allowKeywords, reg, o);
    }
  }

  lemma ClassLikeFullNameOf(nt: NamedTypeSym, allowKeywords: bool, reg: Registry, o: Oracle)
    requires !WriteSpecialType(NamedT(nt)).0
    requires nt.kind.Class? || nt.kind.Interface? || nt.kind.Delegate?
    ensures WriteType(NamedT(nt), true, allowKeywords, false, reg, o) == WriteTypeFullNameOf(NamedT(nt), allowKeywords, reg, o)
  {
    ClassLikeStar(nt, true, allowKeywords, false, reg, o);
    var f := WriteTypeFullName(nt, allowKeywords, false, reg, o);
    assert WriteTypeFullNameOf(NamedT(nt), allowKeywords, reg, o) == f;
    SameResult(WriteType(NamedT(nt), true, allowKeywords, false, reg, o), f);
  }

  /** Two results that succeed together with the same tokens and registry
      and fail only as not implemented are the same. */
  lemma SameResult(r: Result<Emitted>, f: Result<Emitted>)
    requires r.Ok? <==> f.Ok?
    requires r.Ok? ==> r.value == Emitted(f.value.tokens + StarIf(false), f.value.reg)
    requires r.Fail? ==> r.fault == NotImplemented
    requires f.Fail? ==> f.fault == NotImplemented
    ensures r == f
  {
    if r.Ok? {
      assert f.value.tokens + StarIf(false) == f.value.tokens;
    }
  }

  lemma ParamFullNameOf(tp: TypeParam, allowKeywords: bool, reg: Registry, o: Oracle)
    requires !WriteSpecialType(ParamT(tp)).0
    requires !(tp.owner.Some? && tp.owner.value.nested)
    ensures WriteType(ParamT(tp), true, allowKeywords, false, reg, o) == WriteTypeFullNameOf(ParamT(tp), allowKeywords, reg, o)
  {
    assert WriteType(ParamT(tp), true, allowKeywords, false, reg, o) == Ok(Emitted(WriteName(tp.name, o), reg));
  }

  /** The special table wins: when it has a spelling and the value type is
      not being boxed, nothing structural is written. Inside an array the
      element is written through the table as well. */
  lemma ArrayOfSpecialType(p: TypeSym, rank: nat, suppressReference: bool, allowKeywords: bool, valueTypeAsClass: bool,
                           reg: Registry, o: Oracle)
    requires WriteSpecialType(p).0
    ensures rank <= 1 ==>
              WriteType(ArrayT(p, rank), suppressReference, allowKeywords, valueTypeAsClass, reg, o)
              == Ok(Emitted([TextSpan("__array<")] + WriteSpecialType(p).1 + [TextSpan(">")] + StarIf(!suppressReference), reg))
    ensures rank > 1 ==>
              WriteType(ArrayT(p, rank), suppressReference, allowKeywords, valueTypeAsClass, reg, o)
              == Ok(Emitted([TextSpan("__multi_array<")] + WriteSpecialType(p).1
                            + [TextSpan(","), WhiteSpace, TextSpan(NatToString(rank)), TextSpan(">")]
                            + StarIf(!suppressReference), reg))
  {
    ArrayIsTemplate(p, rank, suppressReference, allowKeywords, valueTypeAsClass, reg, o);
  }

  /** Arrays: `__array<` for rank at most one, `__multi_array<` with the
      rank as last argument otherwise, and a trailing `*` exactly when the
      reference is not suppressed; the array is written whenever its element
      type can be. */
  lemma ArrayTypeShape(element: TypeSym, rank: nat, suppressReference: bool, allowKeywords: bool,
                       valueTypeAsClass: bool, reg: Registry, o: Oracle)
    ensures var r := WriteType(ArrayT(element, rank), suppressReference, allowKeywords, valueTypeAsClass, reg, o);
            && (r.Ok? <==> WriteType(element, false, allowKeywords, false, reg, o).Ok?)
            && (r.Ok? ==>
                  var ts := r.value.tokens;
                  && ts[0] == TextSpan(if rank <= 1 then "__array<" else "__multi_array<")
                  && (ts[|ts| - 1] == TextSpan("*") <==> !suppressReference)
                  && (rank > 1 ==> ts[|ts| - (if suppressReference then 2 else 3)] == TextSpan(NatToString(rank))))
  {
    ArrayIsTemplate(element, rank, suppressReference, allowKeywords, valueTypeAsClass, reg, o);
  }

  /** An array goes to the array template whatever the flags. */
  lemma ArrayIsTemplate(element: TypeSym, rank: nat, suppressReference: bool, allowKeywords: bool,
                        valueTypeAsClass: bool, reg: Registry, o: Oracle)
    ensures WriteType(ArrayT(element, rank), suppressReference, allowKeywords, valueTypeAsClass, reg, o)
            == WriteCArrayTemplate(ArrayT(element, rank), !suppressReference, allowKeywords, reg, o)
  {
    assert !WriteSpecialType(ArrayT(element, rank)).0;
  }

  /** Classes, interfaces and delegates: the full name, then `*` exactly
      when the type is a reference type and the reference is not
      suppressed. */
  lemma ClassLikeStar(nt: NamedTypeSym, suppressReference: bool, allowKeywords: bool, valueTypeAsClass: bool,
                      reg: Registry, o: Oracle)
    requires nt.kind.Class? || nt.kind.Interface? || nt.kind.Delegate?
    requires valueTypeAsClass || !WriteSpecialType(NamedT(nt)).0
    ensures var r := WriteType(NamedT(nt), suppressReference, allowKeywords, valueTypeAsClass, reg, o);
            var f := WriteTypeFullName(nt, allowKeywords, false, reg, o);
            && (r.Ok? <==> f.Ok?)
            && (r.Ok? ==> r.value == Emitted(f.value.tokens + StarIf(nt.isReferenceType && !suppressReference), f.value.reg))
  {
    var r := WriteType(NamedT(nt), suppressReference, allowKeywords, valueTypeAsClass, reg, o);
    var f := WriteTypeFullName(nt, allowKeywords, false, reg, o);
    assert !(!valueTypeAsClass && WriteSpecialType(NamedT(nt)).0);
    assert !(nt.kind.Unknown? || nt.kind.DynamicType? || nt.kind.Module? || nt.kind.Submission?);
    if f.Ok? {
      assert r == Ok(Emitted(f.value.tokens + StarIf(nt.isReferenceType && !suppressReference), f.value.reg));
    } else {
      assert r.Fail?;
    }
  }

  /** Structs: the full name (keywords always allowed), then `*` exactly
      when boxed as a class and not suppressed. */
  lemma StructStar(nt: NamedTypeSym, suppressReference: bool, allowKeywords: bool, valueTypeAsClass: bool,
                   reg: Registry, o: Oracle)
    requires nt.kind.Struct?
    requires valueTypeAsClass || !WriteSpecialType(NamedT(nt)).0
    ensures var r := WriteType(NamedT(nt), suppressReference, allowKeywords, valueTypeAsClass, reg, o);
            var f := WriteTypeFullName(nt, true, false, reg, o);
            && (r.Ok? <==> f.Ok?)
            && (r.Ok? ==> r.value == Emitted(f.value.tokens + StarIf(valueTypeAsClass && !suppressReference), f.value.reg))
  {
    var t := NamedT(nt);
    assert !(!valueTypeAsClass && WriteSpecialType(t).0);
    assert !(nt.kind.Unknown? || nt.kind.DynamicType? || nt.kind.Module? || nt.kind.Submission?);
    assert !(nt.kind.Delegate? || nt.kind.Interface? || nt.kind.Class? || nt.kind.Enum? || nt.kind.Error?);
  }

  /** Enums: the value name (`enum_` prefix) unless boxed; boxed, the plain
      full name and `*` unless suppressed. */
  lemma EnumForms(nt: NamedTypeSym, suppressReference: bool, allowKeywords: bool, valueTypeAsClass: bool,
                  reg: Registry, o: Oracle)
    requires nt.kind.Enum?
    requires valueTypeAsClass || !WriteSpecialType(NamedT(nt)).0
    ensures var r := WriteType(NamedT(nt), suppressReference, allowKeywords, valueTypeAsClass, reg, o);
            && (!valueTypeAsClass ==> r == WriteTypeFullName(nt, allowKeywords, true, reg, o))
            && (valueTypeAsClass ==>
                  var f := WriteTypeFullName(nt, allowKeywords, false, reg, o);
                  && (r.Ok? <==> f.Ok?)
                  && (r.Ok? ==> r.value == Emitted(f.value.tokens + StarIf(!suppressReference), f.value.reg)))
  {
    var t := NamedT(nt);
    assert !(!valueTypeAsClass && WriteSpecialType(t).0);
    assert !(nt.kind.Unknown? || nt.kind.DynamicType? || nt.kind.Module? || nt.kind.Submission?);
    assert !(nt.kind.Delegate? || nt.kind.Interface? || nt.kind.Class?);
  }

  /** The error kind (an unbound generic in `typeof`) has a fixed spelling;
      the unknown, dynamic, module and submission kinds are not implemented. */
  lemma FixedAndFailingKinds(nt: NamedTypeSym, suppressReference: bool, allowKeywords: bool, valueTypeAsClass: bool,
                             reg: Registry, o: Oracle)
    requires valueTypeAsClass || !WriteSpecialType(NamedT(nt)).0
    ensures nt.kind.Error? ==>
              WriteType(NamedT(nt), suppressReference, allowKeywords, valueTypeAsClass, reg, o)
              == Ok(Emitted([TextSpan("__unbound_generic_type<void>")], reg))
    ensures (nt.kind.Unknown? || nt.kind.DynamicType? || nt.kind.Module? || nt.kind.Submission?) ==>
              WriteType(NamedT(nt), suppressReference, allowKeywords, valueTypeAsClass, reg, o) == Fail(NotImplemented)
  {
  }

  /** A pointer is its pointee written with the default flags and a `*`:
      neither `suppressReference` nor `valueTypeAsClass` reaches the
      pointee. */
  lemma PointerIgnoresFlags(p: TypeSym, suppressReference: bool, allowKeywords: bool, valueTypeAsClass: bool,
                            reg: Registry, o: Oracle)
    ensures var r := WriteType(PointerT(p), suppressReference, allowKeywords, valueTypeAsClass, reg, o);
            && r == WriteType(PointerT(p), false, allowKeywords, false, reg, o)
            && (r.Ok? <==> WriteType(p, false, allowKeywords, false, reg, o).Ok?)
            && (r.Ok? ==> r.value.tokens[|r.value.tokens| - 1] == TextSpan("*"))
            && (r.Ok? ==> var q := WriteType(p, false, allowKeywords, false, reg, o).value;
                          r.value == Emitted(q.tokens + [TextSpan("*")], q.reg))
  {
  }
}
